=== FILE: README.md ===
# Stock management services, modelled in Dafny

A model of the core of a stock-management system built as Spring Boot
microservices. Each service keeps its own database tables and talks to the
others over Feign clients and RabbitMQ:

- **Inventory service.** Keeps one inventory row per (product, warehouse)
  pair, with on-hand, reserved and available quantities. It also keeps an
  append-only ledger of stock movements and caches response snapshots in
  Redis. Reservations and releases run under a Redis lock per pair. When an
  order is created, a listener publishes low-stock events.
- **Order service.** Runs the order-creation saga:
  - price every line through the product client, then pre-check availability;
  - save the order PENDING;
  - reserve each line through the inventory client;
  - on the first refusal, roll everything back and save the order FAILED;
  - otherwise save it CONFIRMED and publish the created and confirmed events.

  The service also cancels orders and updates their status.
- **Customer service.** Customer master data, the balance and loyalty-point
  counters, and addresses. Only one address may be the default. A listener
  awards loyalty points for every confirmed order.
- **Product service.** The catalogue, with SKU and barcode duplicate checks.
- **Supplier service.** Suppliers, supplier–product links and purchase
  orders. Receiving items derives the status of the purchase order.
- **Authentication service.** Redis helpers for the login rate limiter, the
  access-token blacklist and the refresh-token index.
- **API gateway.** The bearer-token filter in front of the protected routes.

Every service is modelled as pure functions over immutable state. Loops
become methods wherever the source iterates: the saga, the purchase-order
line loop, and the item searches of a receipt.

**State.**
- Database tables are maps from identity keys to rows (`Store.IdTable`). A
  save into a unique column that is already taken is answered by
  `ConstraintViolation`.
- The inventory table is a sequence. It has no uniqueness constraint on the
  (product, warehouse) pair, so a lookup can find no row, one row, or
  several.
- Redis is a key/value map with an `up` flag. Every helper catches store
  errors, so each helper's contract states what it answers when the store
  is down.

**Collaborators.**
- Remote services are parameters: the product client is a function from id
  to an optional reply, and the inventory client is a record of functions
  over an abstract remote state. Each of its calls may throw, as a Feign
  call without an active fallback or one answered with an error status
  does. The saga records every reservation and release it makes, with the
  answer it got, in a call log.
- JWT validation is a parameter of the gateway filter.

**Money.** Amounts are unbounded integers (the source uses `BigDecimal`).

Some of what the code does is easy to miss; the model keeps it as written:
- A second `createInventory` for a pair inserts a duplicate row. From then
  on, every database lookup of that pair throws: reservations, releases,
  stock movements and a read that misses the cache. A read that finds the
  pair's cached snapshot still answers.
- The available quantity is stored and is recomputed only by the
  persistence hooks. So the response of a stock movement (and the snapshot
  cached from it) carries the old available quantity and low-stock flag.
- A stock movement is refused only when the on-hand quantity would go
  negative. It can still push the available quantity below zero.
- A refused reservation rolls back the whole order: it releases every line,
  not only the lines reserved so far.
- A reservation call that throws leaves the order saga at once, with no
  rollback, so the lines granted before it stay reserved.
- Cancelling re-releases the lines of an order that already failed or was
  cancelled.
- The product fallback keeps the requested id and prices the product at
  zero, so a product service that is down passes the product check.
- Low-stock events are level-triggered: redelivering an order event
  publishes them again.

## Model

| member | source | states |
|---|---|---|
| `JavaText.LongToString` | inventory-service/src/main/java/com/stockmanagement/inventory_service/cache/InventoryCacheHelper.java:105-107 | an id concatenated into a key renders as an optional minus sign followed by decimal digits, never as the empty string |
| `JavaText.DigitsInjective` | inventory-service/src/main/java/com/stockmanagement/inventory_service/cache/InventoryCacheHelper.java:105-107 | two magnitudes with the same decimal digits are the same number |
| `JavaText.LongToStringInjective` | inventory-service/src/main/java/com/stockmanagement/inventory_service/cache/InventoryCacheHelper.java:105-107 | two ids that render to the same text are the same id |
| `JavaText.JoinInjective` | inventory-service/src/main/java/com/stockmanagement/inventory_service/cache/InventoryCacheHelper.java:105-107 | a `a + ":" + b` key whose left part has no colon splits back into exactly its two parts |
| `JavaText.LongToStringAvoidsColon` | inventory-service/src/main/java/com/stockmanagement/inventory_service/cache/InventoryCacheHelper.java:105-107 | a rendered id never contains the colon used as key separator |
| `InventoryCache.BuildKeyInjective` | inventory-service/src/main/java/com/stockmanagement/inventory_service/cache/InventoryCacheHelper.java:105-107 | each (product, warehouse) pair has a snapshot key of its own |
| `InventoryCache.LockKeyInjective` | inventory-service/src/main/java/com/stockmanagement/inventory_service/cache/InventoryCacheHelper.java:52-56 | each pair has a lock of its own, so locks on different pairs never exclude each other |
| `InventoryCache.LockAndSnapshotKeysDiffer` | inventory-service/src/main/java/com/stockmanagement/inventory_service/cache/InventoryCacheHelper.java:52-56 | no lock key is ever a snapshot key, whatever the two pairs |
| `InventoryCache.CacheInventory` | inventory-service/src/main/java/com/stockmanagement/inventory_service/cache/InventoryCacheHelper.java:21-30 | the response is stored under its own pair's key with the five-minute lifetime; with the store down nothing changes; the store's availability never changes; snapshots stay filed under their own pair |
| `InventoryCache.GetInventory` | inventory-service/src/main/java/com/stockmanagement/inventory_service/cache/InventoryCacheHelper.java:32-40 | a response comes back exactly when the store is up and the pair's key holds a response; a miss, a value of another type and a store error all read as null |
| `InventoryCache.EvictInventory` | inventory-service/src/main/java/com/stockmanagement/inventory_service/cache/InventoryCacheHelper.java:42-50 | after eviction the pair reads as a miss; with the store up only that key is removed, with it down nothing changes, and availability is kept |
| `InventoryCache.AcquireLock` | inventory-service/src/main/java/com/stockmanagement/inventory_service/cache/InventoryCacheHelper.java:52-68 | the lock is taken exactly when the store is up and nobody holds it, and then it holds the marker with the ten-second lifetime; otherwise the answer is false and nothing changes; availability is kept either way |
| `InventoryCache.ReleaseLock` | inventory-service/src/main/java/com/stockmanagement/inventory_service/cache/InventoryCacheHelper.java:70-78 | with the store up exactly the pair's lock key is removed; with it down nothing changes; availability is kept |
| `InventoryCache.GetAvailableQuantity` | inventory-service/src/main/java/com/stockmanagement/inventory_service/cache/InventoryCacheHelper.java:80-88 | the available quantity of the cached response, and null exactly when there is no cached response |
| `InventoryCache.UpdateQuantityInCache` | inventory-service/src/main/java/com/stockmanagement/inventory_service/cache/InventoryCacheHelper.java:90-103 | a miss changes nothing; on a hit in a cache whose snapshots sit under their own pairs, the snapshot reads back with the new quantity and reservation and with available = quantity − reserved, the key set is unchanged and every other key keeps its entry; availability is kept |
| `InventoryCache.SnapshotRoundTrip` | inventory-service/src/main/java/com/stockmanagement/inventory_service/cache/InventoryCacheHelper.java:21-40 | a snapshot just cached is what a read of its pair returns, and caching one pair leaves every other pair's read as it was |
| `InventoryCache.LocksLeaveSnapshots` | inventory-service/src/main/java/com/stockmanagement/inventory_service/cache/InventoryCacheHelper.java:52-78 | taking or releasing any lock never changes what any snapshot read returns |
| `InventoryCache.AvailableAfterUpdate` | inventory-service/src/main/java/com/stockmanagement/inventory_service/cache/InventoryCacheHelper.java:80-103 | after an update of a cached pair, the cached available quantity is quantity − reserved |
| `InventoryCache.ReleaseHasNoHolderCheck` | inventory-service/src/main/java/com/stockmanagement/inventory_service/cache/InventoryCacheHelper.java:70-78 | while one caller holds the lock a second cannot take it, but a release by someone who never took it lets a third caller in |
| `InventoryCache.UpdateLeavesLowStockStale` | inventory-service/src/main/java/com/stockmanagement/inventory_service/cache/InventoryCacheHelper.java:90-103 | the counter update does not recompute the low-stock flag: a snapshot can report available 3 against minimum 5 and still say "not low" |
| `InventoryCache.LockedNoWrite` | inventory-service/src/main/java/com/stockmanagement/inventory_service/cache/InventoryCacheHelper.java:52-78 | taking a free lock and releasing it with nothing written in between leaves the cache exactly as it was |
| `InventoryCache.LockedRefresh` | inventory-service/src/main/java/com/stockmanagement/inventory_service/cache/InventoryCacheHelper.java:52-103 | lock, counter update, release: the pair's read answers its old snapshot with the new quantity, reservation and available = quantity − reserved (a miss stays a miss), and every key other than the pair's lock and snapshot keys holds what it held |
| `InventoryCache.RefreshUnderLock` | inventory-service/src/main/java/com/stockmanagement/inventory_service/cache/InventoryCacheHelper.java:52-103 | the cache side of a locked counter update: the lock is free again and availability kept; the pair's snapshot is refreshed with the new counters; every other key is untouched; snapshots stay filed under their own pair |
| `InventoryEntity.MapToResponse` | inventory-service/src/main/java/com/stockmanagement/inventory_service/service/InventoryService.java:202-223 | the response copies the stored counters as they are and is flagged low stock exactly when a minimum is set and the stored available quantity is at or below it |
| `InventoryEntity.MovementsCancel` | inventory-service/src/main/java/com/stockmanagement/inventory_service/service/InventoryService.java:194-200 | receiving (IN, RETURN) and then removing (OUT, TRANSFER) the same amount, in either order, restores the quantity |
| `InventoryEntity.LastAdjustment` | inventory-service/src/main/java/com/stockmanagement/inventory_service/service/InventoryService.java:194-200 | finds the last ADJUSTMENT of the ledger, the one whose absolute value the later movements build on |
| `InventoryEntity.ReplayMatchesReconcile` | inventory-service/src/main/java/com/stockmanagement/inventory_service/service/InventoryService.java:194-200 | applying the movement rule entry by entry gives the audit figure: the last ADJUSTMENT sets the level and the later IN/RETURN add and OUT/TRANSFER subtract |
| `InventoryService.Find` | inventory-service/src/main/java/com/stockmanagement/inventory_service/repository/InventoryRepository.java:12 | the single-result lookup by pair finds nothing exactly when no row has the pair, one row when exactly one has it, and fails when two rows share the pair |
| `InventoryService.FindDependsOnPairs` | inventory-service/src/main/java/com/stockmanagement/inventory_service/repository/InventoryRepository.java:12 | a lookup by pair sees only which rows carry the pair, never their counters |
| `InventoryService.CreateInventory` | inventory-service/src/main/java/com/stockmanagement/inventory_service/service/InventoryService.java:35-50 | a new row with nothing reserved and available = quantity is appended and its response cached, whether or not the pair already had a row; the ledger is untouched; a valid request keeps the service state valid |
| `InventoryService.GetByPair` | inventory-service/src/main/java/com/stockmanagement/inventory_service/service/InventoryService.java:58-73 | a cached response is returned as is; on a miss an absent pair is not found, a duplicated pair fails, and a unique row is mapped, cached and returned |
| `InventoryService.GetByPairSettles` | inventory-service/src/main/java/com/stockmanagement/inventory_service/service/InventoryService.java:58-73 | reading a pair a second time returns the first answer and changes nothing |
| `InventoryService.ProcessStockMovement` | inventory-service/src/main/java/com/stockmanagement/inventory_service/service/InventoryService.java:94-122 | the movement is refused, with nothing changed, exactly when the new quantity would be negative; otherwise the row gets the new quantity with a recomputed available quantity, one ledger entry is appended, and the response (also cached) carries the old available quantity |
| `InventoryService.ReserveStock` | inventory-service/src/main/java/com/stockmanagement/inventory_service/service/InventoryService.java:125-160 | without the lock nothing happens; with it, a missing or duplicated pair fails and too little available answers false, both leaving rows and cache as they were; otherwise the reservation grows by the quantity and a cached snapshot of the pair is refreshed with the new counters (a miss stays a miss); every other cache key, other pairs' snapshots and locks included, is untouched; the lock is given back on every exit, the ledger is untouched and the store's availability is kept |
| `InventoryService.ReleaseStock` | inventory-service/src/main/java/com/stockmanagement/inventory_service/service/InventoryService.java:163-192 | without the lock nothing happens; with it, a missing or duplicated pair fails with rows and cache as they were; otherwise the reservation shrinks by the quantity but never below zero and a cached snapshot of the pair is refreshed with the new counters; every other cache key is untouched; the lock is given back on every exit, the ledger and the store's availability are kept, and the service state stays valid |
| `InventoryService.LowStockItems` | inventory-service/src/main/java/com/stockmanagement/inventory_service/service/InventoryService.java:87-91 | the low-stock query (available at or below a set minimum; a NULL minimum never matches) decides membership: every low row is returned and nothing else, each as the response of that row with its id, in table order, each flagged low |
| `InventoryService.ReserveThenReleaseRestores` | inventory-service/src/main/java/com/stockmanagement/inventory_service/service/InventoryService.java:125-192 | a granted reservation followed by the release of the same quantity puts every row back as it was |
| `InventoryService.NegativeReserveBreaksValid` | inventory-service/src/main/java/com/stockmanagement/inventory_service/service/InventoryService.java:125-160 | a negative reservation passes the availability check and can drive the reserved counter below zero |
| `InventoryService.MovementCanOverdraw` | inventory-service/src/main/java/com/stockmanagement/inventory_service/service/InventoryService.java:94-122 | shipping out reserved stock is accepted and leaves available at −3 (10 on hand, 8 reserved, 5 out) |
| `InventoryService.DuplicateCreateBlocksReservations` | inventory-service/src/main/java/com/stockmanagement/inventory_service/service/InventoryService.java:35-50 | creating a second row for a pair succeeds, and after it every reservation for the pair fails |
| `InventoryService.DuplicateCreateStillReadsFromCache` | inventory-service/src/main/java/com/stockmanagement/inventory_service/service/InventoryService.java:35-73 | with Redis up, a read of the duplicated pair still answers the snapshot the create cached; once that entry is evicted, the read reaches the database and fails on the duplicate rows |
| `InventoryService.LedgerExplainsQuantity` | inventory-service/src/main/java/com/stockmanagement/inventory_service/service/InventoryService.java:94-122 | after any mix of accepted and refused movements on a pair, the row's quantity is the replay of the ledger entries they appended, and earlier ledger entries are untouched |
| `InventoryService.ReserveOneUnit` | inventory-service/src/main/java/com/stockmanagement/inventory_service/service/InventoryService.java:125-160 | with the lock free, one reservation of one unit is granted exactly when a unit is available, moves it from available to reserved, and frees the lock again |
| `InventoryService.ReservationsNeverOversell` | inventory-service/src/main/java/com/stockmanagement/inventory_service/service/InventoryService.java:125-160 | with the lock free between calls, n one-unit reservations are granted min(n, available) times, never more than the units there were, and each grant moves one unit from available to reserved |
| `InventoryListener.Alert` | inventory-service/src/main/java/com/stockmanagement/inventory_service/listener/OrderEventListener.java:37-56 | at most one low-stock event per lookup: one exactly when the lookup succeeded and its response is flagged low, carrying that response's pair, available quantity and minimum |
| `InventoryListener.PublishesAlertsUpTo` | inventory-service/src/main/java/com/stockmanagement/inventory_service/listener/OrderEventListener.java:22-56 | the events published for the first n items are those items' alerts, in item order, each from the item's lookup in the state the earlier items left |
| `InventoryListener.HandleOrderCreated` | inventory-service/src/main/java/com/stockmanagement/inventory_service/listener/OrderEventListener.java:22-56 | publishes exactly one event for every item whose lookup succeeds with a response flagged low, in item order; a failing lookup publishes nothing and the later items are still checked; no inventory row or ledger entry changes |
| `InventoryListener.EveryLowItemAlerts` | inventory-service/src/main/java/com/stockmanagement/inventory_service/listener/OrderEventListener.java:22-56 | every item whose lookup answers a response flagged low has its event published, whatever the lookups of the earlier items answered |
| `InventoryListener.CheckItemsSplit` | inventory-service/src/main/java/com/stockmanagement/inventory_service/listener/OrderEventListener.java:26-31 | the items are checked one after another: checking a run then another run is checking the two runs joined |
| `InventoryListener.OtherReadKeepsSettled` | inventory-service/src/main/java/com/stockmanagement/inventory_service/listener/OrderEventListener.java:37-56 | once a pair's read has been cached, reading another pair does not change what it returns |
| `InventoryListener.CheckItemsKeepsSettled` | inventory-service/src/main/java/com/stockmanagement/inventory_service/listener/OrderEventListener.java:22-35 | checking the items of an order does not change a pair's already cached answer |
| `InventoryListener.CheckItemsSettles` | inventory-service/src/main/java/com/stockmanagement/inventory_service/listener/OrderEventListener.java:22-35 | checking the same items a second time changes nothing and publishes the same events |
| `InventoryListener.RedeliveryRepublishes` | inventory-service/src/main/java/com/stockmanagement/inventory_service/listener/OrderEventListener.java:22-56 | the check is level-triggered: a redelivered order event publishes the same low-stock events again |
| `InventoryListener.AlertNamesItsPair` | inventory-service/src/main/java/com/stockmanagement/inventory_service/listener/OrderEventListener.java:37-56 | with snapshots filed under their own pair, an event for an item names that item's product and the order's warehouse |
| `InventoryListener.AlertsMatchItems` | inventory-service/src/main/java/com/stockmanagement/inventory_service/listener/OrderEventListener.java:22-56 | every event published for an order names one of its ordered products and its warehouse |
| `ProductClient.ProductFallback` | order-service/src/main/java/com/stockmanagement/order_service/client/ProductClientFallback.java:14-18 | with the product service down, the reply keeps the requested id and has price zero, so it counts as found |
| `OrderSaga.RunCallsAppend` | order-service/src/main/java/com/stockmanagement/order_service/service/OrderService.java:107-142 | running the reservation log and then the rollback log is running their concatenation, and the whole log is faithful exactly when both parts are |
| `OrderSaga.FallbackNeverGrants` | order-service/src/main/java/com/stockmanagement/order_service/client/InventoryClientFallback.java:17-21 | with the inventory fallback, every reservation in a faithful log is refused |
| `OrderSaga.FallbackProductIsFree` | order-service/src/main/java/com/stockmanagement/order_service/service/OrderService.java:74-80 | a line priced from the product fallback has the requested product id and total zero |
| `OrderSaga.PriceItems` | order-service/src/main/java/com/stockmanagement/order_service/service/OrderService.java:54-84 | succeeds exactly when every line has a found product, an inventory read that does not throw and enough available stock, building one priced line per request line; otherwise fails with the reason of the first rejected line, every earlier line passing |
| `OrderSaga.FirstRefusalUnique` | order-service/src/main/java/com/stockmanagement/order_service/service/OrderService.java:54-84 | the reason the loop stops with is determined by the lines: only one reason is the first refusal |
| `OrderSaga.RollbackInventoryReservation` | order-service/src/main/java/com/stockmanagement/order_service/service/OrderService.java:127-142 | one release per order line, in order, whether or not earlier releases threw; the log is what the client answered |
| `OrderSaga.ReserveInventory` | order-service/src/main/java/com/stockmanagement/order_service/service/OrderService.java:107-142 | either every line was granted in order; or the lines before some line k were granted, line k was refused, no later line was tried, and then every line of the order was released; or line k threw and nothing else was called, so the earlier grants are never released |
| `OrderSaga.CreateOrder` | order-service/src/main/java/com/stockmanagement/order_service/service/OrderService.java:42-105 | a rejected line aborts with nothing saved, reserved or published, with the reason of the first rejected line; otherwise the order is saved with its priced lines and total, and then either is CONFIRMED with all lines granted and the created and confirmed events published, or is FAILED with the rollback logged, or is left PENDING when a reservation threw; nothing is published unless it is confirmed |
| `OrderSaga.FallbackConfirmsNothing` | order-service/src/main/java/com/stockmanagement/order_service/client/InventoryClientFallback.java:17-21 | with the inventory fallback in place, no order with lines is ever confirmed |
| `OrderSaga.UpdateOrderStatus` | order-service/src/main/java/com/stockmanagement/order_service/service/OrderService.java:168-178 | any status is written over any status; only an unknown id is refused |
| `OrderSaga.StatusUpdateDecidesCancellation` | order-service/src/main/java/com/stockmanagement/order_service/service/OrderService.java:168-197 | after a status update a cancellation is refused exactly when the new status is SHIPPED or DELIVERED (a CANCELLED order moved back to PENDING can be cancelled again), and it releases the same lines |
| `OrderSaga.CancelOrder` | order-service/src/main/java/com/stockmanagement/order_service/service/OrderService.java:180-197 | an unknown or SHIPPED/DELIVERED order is refused with nothing released; any other order has every line released, is saved CANCELLED and a cancelled event is published |
| `OrderSaga.CancelUndoesConfirmation` | order-service/src/main/java/com/stockmanagement/order_service/service/OrderService.java:107-142 | cancelling an order that was confirmed gives back exactly what its reservations took: when no release throws, nothing of any pair stays held |
| `OrderSaga.SecondCancelOverReleases` | order-service/src/main/java/com/stockmanagement/order_service/service/OrderService.java:180-197 | cancelling an order a second time releases its lines again, so the pair gives back a demand it no longer held |
| `OrderSaga.RollbackOverReleases` | order-service/src/main/java/com/stockmanagement/order_service/service/OrderService.java:107-142 | after a refusal at line k the rollback also releases line k and the untried lines, so the run holds minus their demand |
| `OrderSaga.ThrowKeepsGrants` | order-service/src/main/java/com/stockmanagement/order_service/service/OrderService.java:107-125 | after a reservation throws at line k, the lines before it stay held in full |
| `Store.SaveKeepsUnique` | customer-service/src/main/java/com/stockmanagement/customer_service/entity/Customer.java:23-33 | saving or deleting a row that clashes with no other row in a unique column keeps that column unique |
| `Store.InsertKeepsUnique` | supplier-service/src/main/java/com/stockmanagement/supplier_service/entity/Supplier.java:25-29 | inserting a row whose value is NULL or not yet taken keeps a unique column unique |
| `Customers.CreateCustomer` | customer-service/src/main/java/com/stockmanagement/customer_service/service/CustomerService.java:28-43 | a taken code is refused, then a taken email; otherwise a customer with the request's fields, zero balance, no points and no addresses is added under a fresh key |
| `Customers.UpdateCustomer` | customer-service/src/main/java/com/stockmanagement/customer_service/service/CustomerService.java:87-102 | succeeds exactly when the customer exists, a changed code is free and the save clashes with no other customer's code or email; an unknown id is refused, then a change to a taken code; the email is never checked by the service, so a taken email is refused by the database; the counters and addresses are kept and the other customers stay |
| `Customers.DeleteCustomer` | customer-service/src/main/java/com/stockmanagement/customer_service/service/CustomerService.java:104-111 | only an existing customer is deleted, and the others stay |
| `Customers.DeleteKeepsValid` | customer-service/src/main/java/com/stockmanagement/customer_service/service/CustomerService.java:104-111 | deleting a customer keeps codes and emails unique and every remaining customer with at most one default address |
| `Customers.UpdateBalance` | customer-service/src/main/java/com/stockmanagement/customer_service/service/CustomerService.java:113-121 | the balance moves by exactly the amount and nothing else about any customer changes |
| `Customers.AddLoyaltyPoints` | customer-service/src/main/java/com/stockmanagement/customer_service/service/CustomerService.java:123-131 | the points grow by exactly the given number and nothing else changes |
| `Customers.AddAddress` | customer-service/src/main/java/com/stockmanagement/customer_service/service/CustomerService.java:133-157 | the new address goes last and is default only when the request says so; a default address first clears the flag on every existing address, and other addresses are kept |
| `Customers.NewDefaultIsTheOnlyDefault` | customer-service/src/main/java/com/stockmanagement/customer_service/service/CustomerService.java:133-157 | after adding a default address it is the one and only default |
| `Customers.CreateKeepsValid` | customer-service/src/main/java/com/stockmanagement/customer_service/service/CustomerService.java:28-43 | creating a customer keeps codes and emails unique and at most one default address per customer |
| `Customers.UpdateKeepsValid` | customer-service/src/main/java/com/stockmanagement/customer_service/service/CustomerService.java:87-102 | a successful update keeps codes and emails unique |
| `Customers.AddAddressKeepsValid` | customer-service/src/main/java/com/stockmanagement/customer_service/service/CustomerService.java:133-157 | adding an address never leaves a customer with two default addresses |
| `Customers.UpdateLeavesEmailToTheDatabase` | customer-service/src/main/java/com/stockmanagement/customer_service/service/CustomerService.java:87-102 | taking another customer's email in an update gets past the service's checks and is refused by the database |
| `Customers.PointsAccumulate` | customer-service/src/main/java/com/stockmanagement/customer_service/service/CustomerService.java:123-131 | two awards of points are one award of their sum |
| `Customers.BalanceChangeUndone` | customer-service/src/main/java/com/stockmanagement/customer_service/service/CustomerService.java:113-121 | a balance change followed by the opposite change restores the table |
| `CustomerListener.HandleOrderConfirmed` | customer-service/src/main/java/com/stockmanagement/customer_service/listener/OrderEventListener.java:19-29 | a known customer gains ten points and nothing else; an unknown customer's event is swallowed and changes nothing |
| `CustomerListener.PointsCountConfirmations` | customer-service/src/main/java/com/stockmanagement/customer_service/listener/OrderEventListener.java:19-40 | over any stream of messages a customer gains ten points per confirmation delivered for them, redeliveries included, and cancellations take nothing back |
| `CustomerListener.RedeliveryAwardsTwice` | customer-service/src/main/java/com/stockmanagement/customer_service/listener/OrderEventListener.java:19-29 | the same confirmation delivered twice awards twenty points |
| `Products.CreateProduct` | product-service/src/main/java/com/stockmanagement/product_service/service/ProductService.java:22-35 | a taken SKU is refused, then a taken barcode; otherwise the product is added with the request's fields and is active unless the request says false |
| `Products.GetProduct` | product-service/src/main/java/com/stockmanagement/product_service/service/ProductService.java:37-41 | the stored product of an existing id, and not found otherwise |
| `Products.UpdateProduct` | product-service/src/main/java/com/stockmanagement/product_service/service/ProductService.java:73-85 | refused exactly for an unknown id or a change to a taken SKU; the barcode is not checked; the active flag changes only when the request carries one |
| `Products.DeleteProduct` | product-service/src/main/java/com/stockmanagement/product_service/service/ProductService.java:87-93 | only an existing product is deleted, and the others stay |
| `Products.ReadsFollowWrites` | product-service/src/main/java/com/stockmanagement/product_service/service/ProductService.java:22-93 | a read after create, update or delete sees exactly that write: the created or updated product mirrors the request, a deleted id is not found, and every other id reads as before |
| `Products.SkuStaysUnique` | product-service/src/main/java/com/stockmanagement/product_service/service/ProductService.java:22-93 | creates, updates and deletes keep SKUs unique |
| `Products.CreateKeepsBarcodesUnique` | product-service/src/main/java/com/stockmanagement/product_service/service/ProductService.java:22-35 | creating a product keeps non-null barcodes unique |
| `Products.UpdateCanDuplicateBarcode` | product-service/src/main/java/com/stockmanagement/product_service/service/ProductService.java:73-85 | an update may give a product another product's barcode, and it is accepted |
| `Suppliers.CreateSupplier` | supplier-service/src/main/java/com/stockmanagement/supplier_service/service/SupplierService.java:24-39 | a taken code is refused, then a taken tax number (only when one is given); otherwise the supplier is added with every request field |
| `Suppliers.UpdateSupplier` | supplier-service/src/main/java/com/stockmanagement/supplier_service/service/SupplierService.java:71-85 | succeeds exactly when the supplier exists, a changed code is free and the save clashes with no other supplier's code or tax number; an unknown id is refused, then a change to a taken code; the service never checks the tax number; every request field is written and the other suppliers stay |
| `Suppliers.DeleteSupplier` | supplier-service/src/main/java/com/stockmanagement/supplier_service/service/SupplierService.java:87-94 | only an existing supplier is deleted, and the others stay |
| `Suppliers.OperationsKeepValid` | supplier-service/src/main/java/com/stockmanagement/supplier_service/service/SupplierService.java:24-94 | creates, updates and deletes keep codes and tax numbers unique |
| `Suppliers.UpdateLeavesTaxNumberToTheDatabase` | supplier-service/src/main/java/com/stockmanagement/supplier_service/service/SupplierService.java:71-85 | taking another supplier's tax number in an update gets past the service and is refused by the database |
| `SupplierProducts.AddProductToSupplier` | supplier-service/src/main/java/com/stockmanagement/supplier_service/service/SupplierProductService.java:31-59 | succeeds exactly when the supplier exists, the product is found and the pair is not yet linked; otherwise refuses an unknown supplier, then a product not found, then an already linked pair; a new link carries the request's terms and is active unless the request says false |
| `SupplierProducts.UpdateSupplierProduct` | supplier-service/src/main/java/com/stockmanagement/supplier_service/service/SupplierProductService.java:79-98 | the price and terms are written, and the active flag only when the request carries one; the supplier and the product of the link never change |
| `SupplierProducts.DeleteSupplierProduct` | supplier-service/src/main/java/com/stockmanagement/supplier_service/service/SupplierProductService.java:100-107 | only an existing link is deleted, and the others stay |
| `SupplierProducts.PairsStayUnique` | supplier-service/src/main/java/com/stockmanagement/supplier_service/service/SupplierProductService.java:31-107 | no operation creates a second link for a (supplier, product) pair |
| `SupplierProducts.FallbackPassesProductCheck` | supplier-service/src/main/java/com/stockmanagement/supplier_service/client/ProductClientFallback.java:12-16 | with the product service down, linking any product id to a known supplier is accepted |
| `PurchaseOrders.CreatePurchaseOrder` | supplier-service/src/main/java/com/stockmanagement/supplier_service/service/PurchaseOrderService.java:37-74 | an unknown supplier is refused and a null product reply aborts, both with nothing saved; otherwise a DRAFT order is saved with one line per item, consecutive fresh item keys, nothing received, line totals of price times quantity and the total of the lines |
| `PurchaseOrders.FindItem` | supplier-service/src/main/java/com/stockmanagement/supplier_service/service/PurchaseOrderService.java:123-126 | the position of the first item with the key, or none when no item has it |
| `PurchaseOrders.AllMatchReceived` | supplier-service/src/main/java/com/stockmanagement/supplier_service/service/PurchaseOrderService.java:130-131 | true exactly when every item's received count equals its ordered quantity |
| `PurchaseOrders.AnyMatchReceived` | supplier-service/src/main/java/com/stockmanagement/supplier_service/service/PurchaseOrderService.java:133-134 | true exactly when some item has a positive received count |
| `PurchaseOrders.ReceiveItems` | supplier-service/src/main/java/com/stockmanagement/supplier_service/service/PurchaseOrderService.java:118-147 | succeeds exactly when the order exists and has an item with the key; an unknown order or item is refused with nothing changed; otherwise the first item with the key receives the quantity, with no bound and no status check, and the status becomes RECEIVED, PARTIALLY_RECEIVED or stays as it was |
| `PurchaseOrders.CancelPurchaseOrder` | supplier-service/src/main/java/com/stockmanagement/supplier_service/service/PurchaseOrderService.java:149-162 | refused exactly for an unknown order and for a RECEIVED or PARTIALLY_RECEIVED one; every other order becomes CANCELLED with nothing else changed |
| `PurchaseOrders.UpdatePurchaseOrderStatus` | supplier-service/src/main/java/com/stockmanagement/supplier_service/service/PurchaseOrderService.java:106-116 | any status is written over any status, nothing else of the order changes and every other order stays; only an unknown order is refused |
| `PurchaseOrders.CompletingLastItemReceives` | supplier-service/src/main/java/com/stockmanagement/supplier_service/service/PurchaseOrderService.java:130-141 | receiving the outstanding quantity of the last outstanding item makes the order RECEIVED |
| `PurchaseOrders.OverReceiptNeverCompletes` | supplier-service/src/main/java/com/stockmanagement/supplier_service/service/PurchaseOrderService.java:128-141 | once more than the ordered quantity of an item has arrived, the order can only be PARTIALLY_RECEIVED |
| `PurchaseOrders.ReceiptRevivesCancelledOrder` | supplier-service/src/main/java/com/stockmanagement/supplier_service/service/PurchaseOrderService.java:118-147 | a receipt against a CANCELLED order turns it RECEIVED or PARTIALLY_RECEIVED |
| `PurchaseOrders.ReceivedOrderCannotBeCancelled` | supplier-service/src/main/java/com/stockmanagement/supplier_service/service/PurchaseOrderService.java:149-162 | an order whose status records receipts (PARTIALLY_RECEIVED or RECEIVED) cannot be cancelled, yet the status update still sets CANCELLED; cancel checks only the stored status, not the received quantities |
| `PurchaseOrders.FullReceiptCompletes` | supplier-service/src/main/java/com/stockmanagement/supplier_service/service/PurchaseOrderService.java:118-147 | receiving each line of a new purchase order in full, line by line, finds each line by its own key, leaves the lines not yet received untouched, and ends RECEIVED once every line is in |
| `AuthCache.KeyFamiliesDisjoint` | authentication-service/src/main/java/com/stockmanagement/authentication_service/cache/AuthCacheHelper.java:20-22 | rate-limit, blacklist and refresh-token keys never collide, whatever the username or token |
| `AuthCache.Incr` | authentication-service/src/main/java/com/stockmanagement/authentication_service/cache/AuthCacheHelper.java:127 | the counter goes up by one from zero or its value and keeps its expiry; a key holding a string makes the increment throw |
| `AuthCache.CheckRateLimit` | authentication-service/src/main/java/com/stockmanagement/authentication_service/cache/AuthCacheHelper.java:124-147 | the attempt is counted and allowed while the count is at most the limit; the first attempt of a window sets the 60-second expiry; the key set gains exactly the rate key and nothing else changes availability; a store error allows the attempt (the limiter fails open) |
| `AuthCache.AttemptsCount` | authentication-service/src/main/java/com/stockmanagement/authentication_service/cache/AuthCacheHelper.java:124-147 | in a fresh window the k-th attempt leaves the counter at k with the 60-second expiry, and is allowed exactly when k is within the limit |
| `AuthCache.SixthLoginRefused` | authentication-service/src/main/java/com/stockmanagement/authentication_service/service/AuthService.java:48 | with the login limit of five, five attempts in a window pass and the sixth is refused |
| `AuthCache.ResetStartsNewWindow` | authentication-service/src/main/java/com/stockmanagement/authentication_service/cache/AuthCacheHelper.java:149-157 | after a reset the next attempt starts a new window at count 1 |
| `AuthCache.BlacklistToken` | authentication-service/src/main/java/com/stockmanagement/authentication_service/cache/AuthCacheHelper.java:74-82 | the token's blacklist key is set with the given expiration when that is positive; a non-positive expiration (which Redis refuses) and a store error are caught and change nothing; availability is kept |
| `AuthCache.BlacklistRoundTrip` | authentication-service/src/main/java/com/stockmanagement/authentication_service/cache/AuthCacheHelper.java:74-92 | with the store up, a token reads as blacklisted after blacklisting exactly when the expiration was positive or it already was; refresh-token writes and rate-limit checks never undo a blacklisting |
| `AuthCache.CacheRefreshToken` | authentication-service/src/main/java/com/stockmanagement/authentication_service/cache/AuthCacheHelper.java:94-102 | the refresh token's key holds the username with the given expiration when that is positive; a non-positive expiration (which Redis refuses) and a store error are caught and change nothing; availability is kept |
| `AuthCache.GetUsernameByRefreshToken` | authentication-service/src/main/java/com/stockmanagement/authentication_service/cache/AuthCacheHelper.java:104-112 | the cached username, and null on a miss, a non-string value or a store error |
| `AuthCache.EvictRefreshToken` | authentication-service/src/main/java/com/stockmanagement/authentication_service/cache/AuthCacheHelper.java:114-122 | the refresh token's key is removed and nothing else |
| `AuthCache.RefreshTokenRoundTrip` | authentication-service/src/main/java/com/stockmanagement/authentication_service/cache/AuthCacheHelper.java:94-122 | a refresh token cached with a positive expiration gives back its username (otherwise the old answer stays) and after eviction gives nothing; other tokens are unaffected by both |
| `GatewayFilter.BearerToken` | api-gateway/src/main/java/com/stockmanagement/api_gateway/filters/AuthenticationGatewayFilterFactory.java:37-41 | a token is extracted exactly when the header value starts with "Bearer ", and the value is that prefix followed by the token |
| `GatewayFilter.Filter` | api-gateway/src/main/java/com/stockmanagement/api_gateway/filters/AuthenticationGatewayFilterFactory.java:27-56 | a missing header, an empty or non-bearer value and a token the parse refuses with one of the four caught exceptions are each answered 401; a token whose parse throws anything else (a bad signature) fails the exchange instead; the request goes on exactly when the token parses, and then carries the token's subject as `X-User-Name` |
| `GatewayFilter.BearerRoundTrip` | api-gateway/src/main/java/com/stockmanagement/api_gateway/filters/AuthenticationGatewayFilterFactory.java:37-41 | "Bearer " followed by any token parses back to that token |
| `GatewayFilter.ValidBearerForwarded` | api-gateway/src/main/java/com/stockmanagement/api_gateway/filters/AuthenticationGatewayFilterFactory.java:27-56 | a request whose first authorization value is "Bearer " and a valid token is forwarded with the token's subject as the user |
| `GatewayFilter.UserHeaderNotSpoofable` | api-gateway/src/main/java/com/stockmanagement/api_gateway/filters/AuthenticationGatewayFilterFactory.java:47-54 | a forwarded request carries exactly one user name, the subject of a valid token, whatever the client sent; every other header passes unchanged |
| `GatewayFilter.UncaughtParseFailureFailsExchange` | api-gateway/src/main/java/com/stockmanagement/api_gateway/security/JwtUtil.java:33-47 | a bearer token whose parse throws past `isTokenValid`'s handlers is neither answered 401 nor forwarded: the exchange fails |

## Left out

- Lock retry: when the lock is busy, `reserveStock` and `releaseStock` sleep and call themselves again, with no bound on the depth. The model is one attempt answering `LockBusy`, because sleeping and unbounded recursion are timing, not logic.
- Concurrency, Redis time-to-live expiry and lock expiry: lifetimes are recorded on the entries but never fire, because the model has no clock.
- `@Transactional` rollback: most operations that throw are modelled as returning the unchanged state. `OrderSaga.CreateOrder` is the exception: when it fails after saving (a refused or a throwing reservation), the model keeps the saves as written, a FAILED or a PENDING row, and lists them in `saves`. The real transaction rollback removes that row. Remote reservations and releases are not rolled back by it, and the model keeps them.
- Product and warehouse name lookups in inventory responses: only the numeric fields of a response are modelled. The lookups are not only for display. The warehouse lookup throws `WarehouseNotFoundException` for a warehouse with no row, and a null product reply makes the name lookup throw. Either one fails `createInventory` after its save, a lookup by pair, a stock movement after its save and `getLowStockItems`. The model has no warehouse table or product replies here, so these failures are not modelled.
- Order numbers, purchase-order numbers, timestamps and `LocalDate.now()`: generated values are not modelled. One failure depends on them. A purchase-order number is "PO-" plus the current time to the second, and it goes into a unique, non-null column, so a second purchase order created in the same second is refused by the database. `PurchaseOrders.CreatePurchaseOrder` never refuses on that ground, because the model has no clock. Order numbers follow the same pattern, but the `Order` entity is not part of this model, so whether their column is unique is not known here.
- Read-only getters (inventory by id, product or warehouse; orders, customers, suppliers and purchase orders by id, number, status or search): these are plain repository queries. `getInventoryByProductAndWarehouse`, `getLowStockItems` and `getProductById` are modelled.
- The order saga reads the inventory through the client and treats that read as pure. The inventory service's read also fills its cache, which the order service cannot observe.
- The user cache of the authentication helper (`cacheUser`, `getUserByUsername`, `getUserById`, `evictUser`): it plays no part in the rate limiter or the token checks.
- `deleteAddress` and `getCustomerAddresses`: a plain delete and a plain read, by address id.
- The supplier `creditLimit` (a `Double`): floating point is not modelled.
- Integer widths: `Integer` and `Long` counters (quantities, points, Redis counters) are unbounded integers, so 32-bit and 64-bit wrap-around is not modelled.
- `AuthCache.CheckRateLimit`: Redis answers `INCR` with null only inside a pipeline or transaction, which this helper never opens, so the null-reply branch is not modelled.
- `GatewayFilter.Filter`: header names are compared exactly, not case-insensitively as Spring's `HttpHeaders` does.
- JWT parsing and subject extraction (`JwtUtil`, jjwt) are parameters of the filter: which tokens parse, and which exception a failed parse throws, are not modelled, only that `isTokenValid` catches four of them (malformed, expired, unsupported, empty) and lets the rest, such as a bad signature, escape.
- `InventoryService.LowStockItems`: the ensures that the rows come in table order (increasing id) is a modelling choice; the low-stock query has no ORDER BY, so the database may return the rows in any order.
- The supplier delete does not model the cascade to the supplier's links or the foreign key from purchase orders, because those entity mappings are not part of this model.
- `updateSupplierProduct` reads the product again for its response after the save. When that reply is null the response mapping throws after the save. Only the save is modelled.
- The `Product`, `Order`, `OrderItem`, `PurchaseOrderItem` and `CustomerAddress` entity classes are not part of this model. Their fields are inferred from the services' getters and setters. No database unique constraint is modelled for products.
- Bean-validation annotations on the request DTOs are modelled only for `InventoryRequest` (`ValidInventoryRequest`). The other operations take every request, since the services themselves check nothing more.
- Metrics counters, logging and RabbitMQ publication mechanics: publication is modelled as appending to an event list.

=== FILE: auth_cache.dfy ===
/** `AuthCacheHelper`: the authentication service's Redis entries for the
    per-username login rate limiter, the access-token blacklist and the
    refresh-token index.  Every helper catches store errors; what each one
    answers then is part of its contract. */
module AuthCache {
  import opened Wrappers
  import Redis

  const RateLimitPrefix := "rate:limit:"
  const BlacklistPrefix := "blacklist:token:"
  const RefreshPrefix := "refresh:token:"

  /** `RATE_LIMIT_TTL_SECONDS`, in milliseconds. */
  const RateLimitTtlMillis := 60000

  /** `MAX_LOGIN_ATTEMPTS` of `AuthService`, the limit `login` passes in. */
  const MaxLoginAttempts := 5

  /** What these keys hold: an `INCR` counter or a string. */
  datatype AuthValue = Counter(count: int) | Text(text: string)

  type Cache = Redis.Store<AuthValue>

  function RateKey(username: string): string {
    RateLimitPrefix + username
  }

  function BlacklistKey(token: string): string {
    BlacklistPrefix + token
  }

  function RefreshKey(token: string): string {
    RefreshPrefix + token
  }

  /** The three key families never meet, whatever the username or token. */
  lemma KeyFamiliesDisjoint(u: string, t1: string, t2: string)
    ensures RateKey(u) != BlacklistKey(t1)
    ensures RateKey(u) != RefreshKey(t1)
    ensures BlacklistKey(t1) != RefreshKey(t2)
  {
    assert RateKey(u)[0] == 'r' && BlacklistKey(t1)[0] == 'b';
    assert RateKey(u)[1] == 'a' && RefreshKey(t1)[1] == 'e';
    assert RefreshKey(t2)[0] == 'r';
  }

  /** `INCR key`: a missing key counts from 0 and gets no expiry; an existing
      counter keeps its expiry.  A string value makes Redis refuse (`None`). */
  function Incr(c: Cache, key: string): (r: Option<(Cache, int)>)
    ensures r.None? <==> key in c.entries && c.entries[key].value.Text?
    ensures r.Some? ==>
              var (c', n) := r.value;
              c'.up == c.up
              && n == (if key in c.entries then c.entries[key].value.count else 0) + 1
              && c'.entries == c.entries[key := Redis.Entry(Counter(n), if key in c.entries then c.entries[key].ttlMillis else None)]
  {
    if key !in c.entries then Some((c.(entries := c.entries[key := Redis.Entry(Counter(1), None)]), 1))
    else match c.entries[key].value
      case Text(_) => None
      case Counter(n) =>
        Some((c.(entries := c.entries[key := Redis.Entry(Counter(n + 1), c.entries[key].ttlMillis)]), n + 1))
  }

  /** `EXPIRE key ttl` on a key that exists. */
  function Expire(c: Cache, key: string, ttlMillis: int): (r: Cache)
    requires key in c.entries
    ensures r.up == c.up && r.entries.Keys == c.entries.Keys
    ensures r.entries[key] == c.entries[key].(ttlMillis := Some(ttlMillis))
    ensures forall k :: k in c.entries && k != key ==> r.entries[k] == c.entries[k]
  {
    c.(entries := c.entries[key := c.entries[key].(ttlMillis := Some(ttlMillis))])
  }

  /** `checkRateLimit`: counts the attempt and allows it while the count is
      at most `maxRequests`; the first attempt of a window sets the 60-second
      expiry.  A store error allows the attempt: the limiter fails open. */
  function CheckRateLimit(c: Cache, username: string, maxRequests: int): (r: (Cache, bool))
    ensures r.0.up == c.up
    ensures !c.up ==> r == (c, true)
    ensures c.up && Incr(c, RateKey(username)).None? ==> r == (c, true)
    ensures c.up && Incr(c, RateKey(username)).Some? ==>
              var n := Incr(c, RateKey(username)).value.1;
              r.0.entries.Keys == c.entries.Keys + {RateKey(username)}
              && r.0.entries[RateKey(username)].value == Counter(n)
              && (r.1 <==> n <= maxRequests)
              && (n == 1 ==> r.0.entries[RateKey(username)].ttlMillis == Some(RateLimitTtlMillis))
              && (n != 1 ==> r.0.entries[RateKey(username)].ttlMillis == c.entries[RateKey(username)].ttlMillis)
              && forall k :: k in c.entries && k != RateKey(username) ==> k in r.0.entries && r.0.entries[k] == c.entries[k]
  {
    if !c.up then (c, true)
    else
      var key := RateKey(username);
      match Incr(c, key)
      case None => (c, true)
      case Some((c1, n)) =>
        var c2 := if n == 1 then Expire(c1, key, RateLimitTtlMillis) else c1;
        (c2, n <= maxRequests)
  }

  /** `resetRateLimit`: forgets the user's counter (nothing when the store
      is down). */
  function ResetRateLimit(c: Cache, username: string): (r: Cache)
    ensures r.up == c.up
    ensures c.up ==> r.entries == c.entries - {RateKey(username)}
    ensures !c.up ==> r == c
  {
    if c.up then Redis.Delete(c, RateKey(username)) else c
  }

  /** The state after `k` attempts, and whether the last one was allowed. */
  function Attempts(c: Cache, username: string, maxRequests: int, k: nat): (Cache, bool)
    decreases k
  {
    if k == 0 then (c, true)
    else CheckRateLimit(Attempts(c, username, maxRequests, k - 1).0, username, maxRequests)
  }

  /** From a fresh window (no counter), the counter after `k` attempts is
      `k`, the window's expiry was set by the first, and attempt `k` is
      allowed exactly when `k` is within the limit: the first `maxRequests`
      attempts pass and every later one is refused. */
  lemma {:induction false} AttemptsCount(c: Cache, username: string, maxRequests: int, k: nat)
    requires c.up && RateKey(username) !in c.entries && k >= 1
    ensures var (c', allowed) := Attempts(c, username, maxRequests, k);
            c'.up && RateKey(username) in c'.entries
            && c'.entries[RateKey(username)] == Redis.Entry(Counter(k), Some(RateLimitTtlMillis))
            && (allowed <==> k <= maxRequests)
    decreases k
  {
    if k > 1 {
      AttemptsCount(c, username, maxRequests, k - 1);
    }
  }

  /** With the login limit of five: five attempts in a window pass, the
      sixth is refused. */
  lemma SixthLoginRefused(c: Cache, username: string)
    requires c.up && RateKey(username) !in c.entries
    ensures Attempts(c, username, MaxLoginAttempts, 5).1
    ensures !Attempts(c, username, MaxLoginAttempts, 6).1
  {
    AttemptsCount(c, username, MaxLoginAttempts, 5);
    AttemptsCount(c, username, MaxLoginAttempts, 6);
  }

  /** After a reset the next attempt starts a new window at count 1. */
  lemma ResetStartsNewWindow(c: Cache, username: string, maxRequests: int)
    requires c.up
    ensures var (c', allowed) := CheckRateLimit(ResetRateLimit(c, username), username, maxRequests);
            RateKey(username) in c'.entries
            && c'.entries[RateKey(username)] == Redis.Entry(Counter(1), Some(RateLimitTtlMillis))
            && (allowed <==> 1 <= maxRequests)
  {
  }

  /** `blacklistToken`: marks the token for the given number of
      milliseconds.  A store error, and the server's refusal of an expiry
      that is not positive, are caught, and nothing is stored. */
  function BlacklistToken(c: Cache, token: string, expirationMs: int): (r: Cache)
    ensures r.up == c.up
    ensures c.up && Redis.AcceptsTtl(expirationMs) ==>
              r.entries == c.entries[BlacklistKey(token) := Redis.Entry(Text("BLACKLISTED"), Some(expirationMs))]
    ensures !c.up || !Redis.AcceptsTtl(expirationMs) ==> r == c
  {
    if c.up && Redis.AcceptsTtl(expirationMs) then Redis.SetWithTtl(c, BlacklistKey(token), Text("BLACKLISTED"), expirationMs)
    else c
  }

  /** `isTokenBlacklisted`: whether the key exists; a store error answers
      "not blacklisted". */
  predicate IsTokenBlacklisted(c: Cache, token: string) {
    c.up && BlacklistKey(token) in c.entries
  }

  /** `cacheRefreshToken`: like `blacklistToken`, a store error or a refused
      expiry leaves the store as it was. */
  function CacheRefreshToken(c: Cache, token: string, username: string, expirationMs: int): (r: Cache)
    ensures r.up == c.up
    ensures c.up && Redis.AcceptsTtl(expirationMs) ==>
              r.entries == c.entries[RefreshKey(token) := Redis.Entry(Text(username), Some(expirationMs))]
    ensures !c.up || !Redis.AcceptsTtl(expirationMs) ==> r == c
  {
    if c.up && Redis.AcceptsTtl(expirationMs) then Redis.SetWithTtl(c, RefreshKey(token), Text(username), expirationMs)
    else c
  }

  /** `getUsernameByRefreshToken`: the cached username; null on a miss, on
      a value that is not a string, and on a store error. */
  function GetUsernameByRefreshToken(c: Cache, token: string): (r: Option<string>)
    ensures r.Some? <==> c.up && RefreshKey(token) in c.entries && c.entries[RefreshKey(token)].value.Text?
    ensures r.Some? ==> r.value == c.entries[RefreshKey(token)].value.text
  {
    if !c.up then None
    else
      var v := Redis.Get(c, RefreshKey(token));
      if v.Some? && v.value.Text? then Some(v.value.text) else None
  }

  /** `evictRefreshToken`. */
  function EvictRefreshToken(c: Cache, token: string): (r: Cache)
    ensures r.up == c.up
    ensures c.up ==> r.entries == c.entries - {RefreshKey(token)}
    ensures !c.up ==> r == c
  {
    if c.up then Redis.Delete(c, RefreshKey(token)) else c
  }

  /** While the store is up, blacklisting makes a token read as blacklisted
      exactly when the expiry is positive (or it already was), and neither a
      refresh-token write nor a rate-limit check undoes a blacklisting. */
  lemma BlacklistRoundTrip(c: Cache, token: string, expirationMs: int, other: string, username: string, maxRequests: int)
    requires c.up
    ensures IsTokenBlacklisted(BlacklistToken(c, token, expirationMs), token)
            <==> expirationMs > 0 || IsTokenBlacklisted(c, token)
    ensures IsTokenBlacklisted(BlacklistToken(c, token, expirationMs), token) ==>
              IsTokenBlacklisted(CacheRefreshToken(BlacklistToken(c, token, expirationMs), other, username, expirationMs), token)
    ensures IsTokenBlacklisted(BlacklistToken(c, token, expirationMs), token) ==>
              IsTokenBlacklisted(CheckRateLimit(BlacklistToken(c, token, expirationMs), username, maxRequests).0, token)
  {
    KeyFamiliesDisjoint(username, token, other);
  }

  /** A refresh token cached with a positive expiry gives back its username
      (with any other expiry the write is refused and the old answer
      stays); after eviction it gives nothing; other tokens are untouched by
      both. */
  lemma RefreshTokenRoundTrip(c: Cache, token: string, username: string, expirationMs: int, other: string)
    requires c.up && other != token
    ensures GetUsernameByRefreshToken(CacheRefreshToken(c, token, username, expirationMs), token)
            == if expirationMs > 0 then Some(username) else GetUsernameByRefreshToken(c, token)
    ensures GetUsernameByRefreshToken(EvictRefreshToken(CacheRefreshToken(c, token, username, expirationMs), token), token).None?
    ensures GetUsernameByRefreshToken(CacheRefreshToken(c, token, username, expirationMs), other)
            == GetUsernameByRefreshToken(c, other)
    ensures GetUsernameByRefreshToken(EvictRefreshToken(c, token), other) == GetUsernameByRefreshToken(c, other)
  {
    assert RefreshKey(other) != RefreshKey(token) by {
      assert RefreshKey(other)[|RefreshPrefix|..] == other;
      assert RefreshKey(token)[|RefreshPrefix|..] == token;
    }
  }
}

=== FILE: customer_listener.dfy ===
/** The customer service's `OrderEventListener`: loyalty points for
    confirmed orders, nothing for cancelled ones.  Handlers never throw: an
    error (such as an unknown customer) is logged and the message is
    consumed. */
module CustomerListener {
  import opened Wrappers
  import opened Store
  import opened Customers

  /** Points awarded per confirmed order. */
  const ConfirmedOrderPoints := 10

  datatype OrderConfirmedEvent = OrderConfirmedEvent(orderId: int, customerId: int)

  datatype OrderCancelledEvent = OrderCancelledEvent(orderId: int, customerId: int)

  /** A message on either of the listener's two queues. */
  datatype CustomerEvent = Confirmed(confirmed: OrderConfirmedEvent) | Cancelled(cancelled: OrderCancelledEvent)

  /** `handleOrderConfirmedEvent`: ten points for the event's customer; a
      failure leaves the table as it was. */
  function HandleOrderConfirmed(t: IdTable<Customer>, e: OrderConfirmedEvent): (r: IdTable<Customer>)
    ensures e.customerId !in t.rows ==> r == t
    ensures r.rows.Keys == t.rows.Keys
    ensures e.customerId in t.rows ==>
              r.rows[e.customerId].loyaltyPoints == t.rows[e.customerId].loyaltyPoints + ConfirmedOrderPoints
              && r.rows[e.customerId].(loyaltyPoints := t.rows[e.customerId].loyaltyPoints) == t.rows[e.customerId]
    ensures forall id :: id in t.rows && id != e.customerId ==> r.rows[id] == t.rows[id]
  {
    match AddLoyaltyPoints(t, e.customerId, ConfirmedOrderPoints)
    case Ok(next) => next
    case Err(_) => t
  }

  /** One message, whichever queue it came from; `handleOrderCancelledEvent`
      only logs. */
  function Handle(t: IdTable<Customer>, ev: CustomerEvent): IdTable<Customer> {
    match ev
    case Confirmed(e) => HandleOrderConfirmed(t, e)
    case Cancelled(_) => t
  }

  /** The table after a stream of messages, delivered in order. */
  function HandleAll(t: IdTable<Customer>, evs: seq<CustomerEvent>): IdTable<Customer>
    decreases |evs|
  {
    if |evs| == 0 then t else Handle(HandleAll(t, evs[..|evs| - 1]), evs[|evs| - 1])
  }

  /** How many of the messages confirm an order of `customerId`, counting a
      redelivered message every time it arrives. */
  function ConfirmationsFor(evs: seq<CustomerEvent>, customerId: int): nat
    decreases |evs|
  {
    if |evs| == 0 then 0
    else ConfirmationsFor(evs[..|evs| - 1], customerId)
         + (if evs[|evs| - 1].Confirmed? && evs[|evs| - 1].confirmed.customerId == customerId then 1 else 0)
  }

  /** A customer's points grow by ten per confirmation delivered for them,
      whatever the order ids (no deduplication), and cancellations take
      nothing back.  Nothing else about the customer changes, and no
      customer appears or disappears. */
  lemma {:induction false} PointsCountConfirmations(t: IdTable<Customer>, evs: seq<CustomerEvent>, customerId: int)
    requires customerId in t.rows
    ensures HandleAll(t, evs).rows.Keys == t.rows.Keys
    ensures HandleAll(t, evs).rows[customerId].loyaltyPoints
            == t.rows[customerId].loyaltyPoints + ConfirmedOrderPoints * ConfirmationsFor(evs, customerId)
    ensures HandleAll(t, evs).rows[customerId].(loyaltyPoints := t.rows[customerId].loyaltyPoints) == t.rows[customerId]
    decreases |evs|
  {
    if |evs| > 0 {
      PointsCountConfirmations(t, evs[..|evs| - 1], customerId);
    }
  }

  /** The same confirmation delivered twice awards twenty points. */
  lemma RedeliveryAwardsTwice(t: IdTable<Customer>, e: OrderConfirmedEvent)
    requires e.customerId in t.rows
    ensures e.customerId in HandleAll(t, [Confirmed(e), Confirmed(e)]).rows
    ensures HandleAll(t, [Confirmed(e), Confirmed(e)]).rows[e.customerId].loyaltyPoints
            == t.rows[e.customerId].loyaltyPoints + 2 * ConfirmedOrderPoints
  {
    var evs := [Confirmed(e), Confirmed(e)];
    assert evs[..1] == [Confirmed(e)];
    assert evs[..1][..0] == [];
    assert ConfirmationsFor(evs[..1], e.customerId) == 1;
    PointsCountConfirmations(t, evs, e.customerId);
  }
}

=== FILE: customers.dfy ===
/** `CustomerService`: the customer master data, its two counters (balance
    and loyalty points) and the customer's addresses.

    `customerCode` and `email` are unique columns of the `customers` table:
    a save that would duplicate either is refused by the database, whether
    or not the service checked first.  Enum-valued fields (type, status,
    segment, address type) are kept as the names of their constants. */
module Customers {
  import opened Wrappers
  import opened Store

  datatype Address = Address(
    kind: string, line1: string, line2: Option<string>, city: string, state: string,
    country: string, postalCode: string, isDefault: bool)

  datatype AddressRequest = AddressRequest(
    kind: string, line1: string, line2: Option<string>, city: string, state: string,
    country: string, postalCode: string, isDefault: Option<bool>)

  datatype Customer = Customer(
    code: string, firstName: string, lastName: string, email: string,
    phone: Option<string>, taxNumber: Option<string>, kind: string, status: string,
    creditLimit: Option<int>, balance: int, loyaltyPoints: int, segment: string,
    notes: Option<string>, addresses: seq<Address>)

  datatype CustomerRequest = CustomerRequest(
    code: string, firstName: string, lastName: string, email: string,
    phone: Option<string>, taxNumber: Option<string>, kind: string, status: string,
    creditLimit: Option<int>, segment: string, notes: Option<string>)

  /** `CodeTaken` and `EmailTaken` are the service's `CustomerAlreadyExists`;
      `ConstraintViolation` is the database refusing a save. */
  datatype CustomerError = CustomerNotFound | CodeTaken | EmailTaken | ConstraintViolation

  /** The unique `customer_code` column. */
  function Code(c: Customer): Option<string> {
    Some(c.code)
  }

  /** The unique `email` column. */
  function Email(c: Customer): Option<string> {
    Some(c.email)
  }

  /** At most one address is flagged as the default. */
  predicate AtMostOneDefault(addrs: seq<Address>) {
    forall i, j :: 0 <= i < |addrs| && 0 <= j < |addrs| && addrs[i].isDefault && addrs[j].isDefault ==> i == j
  }

  /** The table as the database and the service keep it. */
  predicate Valid(t: IdTable<Customer>) {
    UniqueIn(t.rows, Code) && UniqueIn(t.rows, Email)
    && forall id :: id in t.rows ==> AtMostOneDefault(t.rows[id].addresses)
  }

  /** `mapToEntity`: the request's fields, a zero balance, no points and no
      addresses. */
  function NewCustomer(req: CustomerRequest): Customer {
    Customer(req.code, req.firstName, req.lastName, req.email, req.phone, req.taxNumber,
             req.kind, req.status, req.creditLimit, 0, 0, req.segment, req.notes, [])
  }

  /** `updateCustomerFields`: the request's fields over the stored customer;
      the counters and addresses are not request fields. */
  function ApplyRequest(c: Customer, req: CustomerRequest): Customer {
    NewCustomer(req).(balance := c.balance, loyaltyPoints := c.loyaltyPoints, addresses := c.addresses)
  }

  /** The customer holds exactly the request's own fields. */
  predicate Mirrors(c: Customer, req: CustomerRequest) {
    c.code == req.code && c.firstName == req.firstName && c.lastName == req.lastName
    && c.email == req.email && c.phone == req.phone && c.taxNumber == req.taxNumber
    && c.kind == req.kind && c.status == req.status && c.creditLimit == req.creditLimit
    && c.segment == req.segment && c.notes == req.notes
  }

  /** `createCustomer`: a taken code is refused first, then a taken email;
      otherwise a new customer with zero balance, no points and no addresses
      is saved under a fresh key. */
  function CreateCustomer(t: IdTable<Customer>, req: CustomerRequest): (r: Result<(IdTable<Customer>, int), CustomerError>)
    ensures ExistsBy(t.rows, Code, req.code) ==> r == Err(CodeTaken)
    ensures !ExistsBy(t.rows, Code, req.code) && ExistsBy(t.rows, Email, req.email) ==> r == Err(EmailTaken)
    ensures r.Ok? <==> !ExistsBy(t.rows, Code, req.code) && !ExistsBy(t.rows, Email, req.email)
    ensures r.Ok? ==>
              var (t', id) := r.value;
              id !in t.rows && id in t'.rows && t'.rows == t.rows[id := t'.rows[id]]
              && Mirrors(t'.rows[id], req)
              && t'.rows[id].balance == 0 && t'.rows[id].loyaltyPoints == 0 && t'.rows[id].addresses == []
  {
    if ExistsBy(t.rows, Code, req.code) then Err(CodeTaken)
    else if ExistsBy(t.rows, Email, req.email) then Err(EmailTaken)
    else Ok(Insert(t, NewCustomer(req)))
  }

  /** `updateCustomer`: an unknown id is refused; so is a new code that is
      already taken.  The email is not checked by the service, so a taken
      email reaches the database and the save fails there. */
  function UpdateCustomer(t: IdTable<Customer>, id: int, req: CustomerRequest): (r: Result<IdTable<Customer>, CustomerError>)
    ensures r == Err(CustomerNotFound) <==> id !in t.rows
    ensures id in t.rows && t.rows[id].code != req.code && ExistsBy(t.rows, Code, req.code) ==> r == Err(CodeTaken)
    ensures r != Err(EmailTaken)
    ensures r.Ok? <==>
              id in t.rows && !(t.rows[id].code != req.code && ExistsBy(t.rows, Code, req.code))
              && !Violates(t.rows, Code, id, ApplyRequest(t.rows[id], req))
              && !Violates(t.rows, Email, id, ApplyRequest(t.rows[id], req))
    ensures r.Ok? ==>
              id in t.rows && r.value.rows.Keys == t.rows.Keys
              && Mirrors(r.value.rows[id], req)
              && r.value.rows[id].balance == t.rows[id].balance
              && r.value.rows[id].loyaltyPoints == t.rows[id].loyaltyPoints
              && r.value.rows[id].addresses == t.rows[id].addresses
              && (forall other :: other in t.rows && other != id ==> r.value.rows[other] == t.rows[other])
  {
    if id !in t.rows then Err(CustomerNotFound)
    else if t.rows[id].code != req.code && ExistsBy(t.rows, Code, req.code) then Err(CodeTaken)
    else
      var c := ApplyRequest(t.rows[id], req);
      if Violates(t.rows, Code, id, c) || Violates(t.rows, Email, id, c) then Err(ConstraintViolation)
      else Ok(Put(t, id, c))
  }

  /** `deleteCustomer`. */
  function DeleteCustomer(t: IdTable<Customer>, id: int): (r: Result<IdTable<Customer>, CustomerError>)
    ensures r.Err? <==> id !in t.rows
    ensures r.Err? ==> r.error == CustomerNotFound
    ensures r.Ok? ==> id !in r.value.rows && r.value.rows.Keys == t.rows.Keys - {id}
                      && forall other :: other in r.value.rows ==> r.value.rows[other] == t.rows[other]
  {
    if id !in t.rows then Err(CustomerNotFound) else Ok(Remove(t, id))
  }

  /** `updateBalance`: adds a (possibly negative) amount to the balance. */
  function UpdateBalance(t: IdTable<Customer>, id: int, amount: int): (r: Result<IdTable<Customer>, CustomerError>)
    ensures r.Err? <==> id !in t.rows
    ensures r.Err? ==> r.error == CustomerNotFound
    ensures r.Ok? ==> r.value.rows.Keys == t.rows.Keys
                      && r.value.rows[id].balance - t.rows[id].balance == amount
                      && r.value.rows[id].(balance := t.rows[id].balance) == t.rows[id]
                      && forall other :: other in t.rows && other != id ==> r.value.rows[other] == t.rows[other]
  {
    if id !in t.rows then Err(CustomerNotFound)
    else Ok(Put(t, id, t.rows[id].(balance := t.rows[id].balance + amount)))
  }

  /** `addLoyaltyPoints`: adds to the points, nothing else. */
  function AddLoyaltyPoints(t: IdTable<Customer>, id: int, points: int): (r: Result<IdTable<Customer>, CustomerError>)
    ensures r.Err? <==> id !in t.rows
    ensures r.Err? ==> r.error == CustomerNotFound
    ensures r.Ok? ==> r.value.rows.Keys == t.rows.Keys
                      && r.value.rows[id].loyaltyPoints - t.rows[id].loyaltyPoints == points
                      && r.value.rows[id].(loyaltyPoints := t.rows[id].loyaltyPoints) == t.rows[id]
                      && forall other :: other in t.rows && other != id ==> r.value.rows[other] == t.rows[other]
  {
    if id !in t.rows then Err(CustomerNotFound)
    else Ok(Put(t, id, t.rows[id].(loyaltyPoints := t.rows[id].loyaltyPoints + points)))
  }

  /** Every address with its default flag cleared. */
  function ClearDefaults(addrs: seq<Address>): (r: seq<Address>)
    ensures |r| == |addrs|
    ensures forall i :: 0 <= i < |addrs| ==> r[i] == addrs[i].(isDefault := false)
  {
    seq(|addrs|, i requires 0 <= i < |addrs| => addrs[i].(isDefault := false))
  }

  /** The address built from the request; a missing flag means not default. */
  function NewAddress(req: AddressRequest): Address {
    Address(req.kind, req.line1, req.line2, req.city, req.state, req.country, req.postalCode,
            req.isDefault == Some(true))
  }

  /** `addAddress`: a default address first clears the flag on every
      existing address; the new address goes last. */
  function AddAddress(t: IdTable<Customer>, id: int, req: AddressRequest): (r: Result<IdTable<Customer>, CustomerError>)
    ensures r.Err? <==> id !in t.rows
    ensures r.Err? ==> r.error == CustomerNotFound
    ensures r.Ok? ==>
              id in t.rows && id in r.value.rows &&
              var before := t.rows[id].addresses;
              var after := r.value.rows[id].addresses;
              r.value.rows.Keys == t.rows.Keys
              && r.value.rows[id].(addresses := before) == t.rows[id]
              && (forall other :: other in t.rows && other != id ==> r.value.rows[other] == t.rows[other])
              && |after| == |before| + 1
              && after[|before|].isDefault == (req.isDefault == Some(true))
              && after[|before|].(isDefault := false) == NewAddress(req).(isDefault := false)
              && (req.isDefault == Some(true) ==>
                    forall i :: 0 <= i < |before| ==> after[i] == before[i].(isDefault := false))
              && (req.isDefault != Some(true) ==> after[..|before|] == before)
  {
    if id !in t.rows then Err(CustomerNotFound)
    else
      var c := t.rows[id];
      var kept := if req.isDefault == Some(true) then ClearDefaults(c.addresses) else c.addresses;
      Ok(Put(t, id, c.(addresses := kept + [NewAddress(req)])))
  }

  /** After adding a default address, it is the one and only default. */
  lemma NewDefaultIsTheOnlyDefault(t: IdTable<Customer>, id: int, req: AddressRequest)
    requires id in t.rows && req.isDefault == Some(true)
    ensures AddAddress(t, id, req).Ok?
    ensures var after := AddAddress(t, id, req).value.rows[id].addresses;
            forall i :: 0 <= i < |after| ==> (after[i].isDefault <==> i == |after| - 1)
  {
  }

  /** Creating a customer keeps the table valid. */
  lemma CreateKeepsValid(t: IdTable<Customer>, req: CustomerRequest)
    requires Valid(t)
    ensures CreateCustomer(t, req).Ok? ==> Valid(CreateCustomer(t, req).value.0)
  {
    if CreateCustomer(t, req).Ok? {
      var (t', id) := CreateCustomer(t, req).value;
      InsertKeepsUnique(t.rows, Code, id, NewCustomer(req));
      InsertKeepsUnique(t.rows, Email, id, NewCustomer(req));
    }
  }

  /** Updating a customer keeps the table valid. */
  lemma UpdateKeepsValid(t: IdTable<Customer>, id: int, req: CustomerRequest)
    requires Valid(t)
    ensures UpdateCustomer(t, id, req).Ok? ==> Valid(UpdateCustomer(t, id, req).value)
  {
    if UpdateCustomer(t, id, req).Ok? {
      var c := ApplyRequest(t.rows[id], req);
      SaveKeepsUnique(t.rows, Code, id, c);
      SaveKeepsUnique(t.rows, Email, id, c);
    }
  }

  /** Adding an address keeps the table valid: in particular the customer
      never ends up with two default addresses. */
  lemma AddAddressKeepsValid(t: IdTable<Customer>, id: int, req: AddressRequest)
    requires Valid(t)
    ensures AddAddress(t, id, req).Ok? ==> Valid(AddAddress(t, id, req).value)
  {
    if id in t.rows {
      var c := t.rows[id];
      var c' := AddAddress(t, id, req).value.rows[id];
      assert Code(c') == Code(c) && Email(c') == Email(c);
      assert !Violates(t.rows, Code, id, c');
      assert !Violates(t.rows, Email, id, c');
      SaveKeepsUnique(t.rows, Code, id, c');
      SaveKeepsUnique(t.rows, Email, id, c');
      assert AtMostOneDefault(c'.addresses);
    }
  }

  /** The email check that `updateCustomer` leaves out: moving to another
      customer's email (keeping one's code) is refused by the database, not
      by the service's own duplicate check. */
  lemma UpdateLeavesEmailToTheDatabase(t: IdTable<Customer>, id: int, other: int, req: CustomerRequest)
    requires id in t.rows && other in t.rows && other != id
    requires req.code == t.rows[id].code && req.email == t.rows[other].email
    ensures UpdateCustomer(t, id, req) == Err(ConstraintViolation)
  {
    assert Violates(t.rows, Email, id, ApplyRequest(t.rows[id], req));
  }

  /** Loyalty points add up: two awards are one award of the sum. */
  lemma PointsAccumulate(t: IdTable<Customer>, id: int, a: int, b: int)
    requires id in t.rows
    ensures AddLoyaltyPoints(t, id, a).Ok?
    ensures AddLoyaltyPoints(AddLoyaltyPoints(t, id, a).value, id, b) == AddLoyaltyPoints(t, id, a + b)
  {
    var c := t.rows[id];
    var once := c.(loyaltyPoints := c.loyaltyPoints + a);
    var both := c.(loyaltyPoints := c.loyaltyPoints + (a + b));
    assert once.(loyaltyPoints := once.loyaltyPoints + b) == both;
    assert t.rows[id := once][id := both] == t.rows[id := both];
  }

  /** A balance change is undone by the opposite change. */
  lemma BalanceChangeUndone(t: IdTable<Customer>, id: int, amount: int)
    requires id in t.rows
    ensures UpdateBalance(t, id, amount).Ok?
    ensures UpdateBalance(UpdateBalance(t, id, amount).value, id, -amount) == Ok(t)
  {
    var c := t.rows[id];
    var moved := c.(balance := c.balance + amount);
    assert moved.(balance := moved.balance + -amount) == c;
    assert t.rows[id := moved][id := c] == t.rows;
  }

  /** Deleting a customer keeps the table valid: codes and emails stay
      unique and every remaining customer keeps at most one default address. */
  lemma DeleteKeepsValid(t: IdTable<Customer>, id: int)
    requires Valid(t)
    ensures DeleteCustomer(t, id).Ok? ==> Valid(DeleteCustomer(t, id).value)
  {
    if id in t.rows {
      var rows := DeleteCustomer(t, id).value.rows;
      assert rows == t.rows - {id};
      assert UniqueIn(rows, Code) && UniqueIn(rows, Email);
      assert forall other :: other in rows ==> rows[other] == t.rows[other];
    }
  }
}

=== FILE: gateway_filter.dfy ===
/** The API gateway's `AuthenticationGatewayFilterFactory`: the bearer-token
    check in front of the protected routes.  The signature check and the
    subject come from `JwtUtil` and the JWT library; they are uninterpreted
    functions here, except for which failures `isTokenValid` catches. */
module GatewayFilter {
  import opened Wrappers
  import opened JavaText

  const AuthorizationHeader := "Authorization"
  const UserHeader := "X-User-Name"
  const BearerPrefix := "Bearer "

  /** `HttpStatus.UNAUTHORIZED`. */
  const Unauthorized := 401

  /** Request headers: every name with its list of values. */
  type Headers = map<string, seq<string>>

  /** What parsing a token does in `JwtUtil.isTokenValid`: it succeeds, or
      throws one of the four exceptions the method catches (malformed,
      expired, unsupported, empty), which it answers with false, or throws
      anything else, such as the library's signature exception, which
      escapes the method. */
  datatype TokenCheck = Valid | Invalid | Throws

  /** `JwtUtil.isTokenValid`'s parse and `JwtUtil.getUsernameFromToken`. */
  datatype Jwt = Jwt(check: string -> TokenCheck, subject: string -> string)

  /** The filter completes the exchange with an error status, without calling
      the rest of the chain; or hands one request on to it; or the exception
      that escaped `isTokenValid` ends the exchange with an error signal,
      which Spring's default handler answers with a server error. */
  datatype Outcome = Rejected(status: int) | Forwarded(headers: Headers) | Failed

  /** `getFirst`: the first value of a header, null when it has none. */
  function FirstValue(h: Headers, name: string): (r: Option<string>)
    requires name in h
    ensures r.Some? <==> |h[name]| > 0
    ensures r.Some? ==> r.value == h[name][0]
  {
    if |h[name]| > 0 then Some(h[name][0]) else None
  }

  /** The token carried by a bearer header value: the value without its first
      seven characters, provided they are "Bearer ". */
  function BearerToken(value: string): (r: Option<string>)
    ensures r.Some? <==> StartsWith(value, BearerPrefix)
    ensures r.Some? ==> value == BearerPrefix + r.value
  {
    if StartsWith(value, BearerPrefix) then Some(value[|BearerPrefix|..]) else None
  }

  /** The filter of `apply`. */
  function Filter(jwt: Jwt, h: Headers): (r: Outcome)
    ensures AuthorizationHeader !in h ==> r == Rejected(Unauthorized)
    ensures AuthorizationHeader in h && (FirstValue(h, AuthorizationHeader).None?
                                         || BearerToken(FirstValue(h, AuthorizationHeader).value).None?) ==>
              r == Rejected(Unauthorized)
    ensures r.Rejected? ==> r.status == Unauthorized
    ensures r.Forwarded? <==>
              AuthorizationHeader in h && FirstValue(h, AuthorizationHeader).Some?
              && BearerToken(FirstValue(h, AuthorizationHeader).value).Some?
              && jwt.check(BearerToken(FirstValue(h, AuthorizationHeader).value).value) == Valid
    ensures r.Failed? <==>
              AuthorizationHeader in h && FirstValue(h, AuthorizationHeader).Some?
              && BearerToken(FirstValue(h, AuthorizationHeader).value).Some?
              && jwt.check(BearerToken(FirstValue(h, AuthorizationHeader).value).value) == Throws
    ensures r.Forwarded? ==>
              var token := BearerToken(FirstValue(h, AuthorizationHeader).value).value;
              r.headers == h[UserHeader := [jwt.subject(token)]]
  {
    if AuthorizationHeader !in h then Rejected(Unauthorized)
    else
      var value := FirstValue(h, AuthorizationHeader);
      if value.None? || !StartsWith(value.value, BearerPrefix) then Rejected(Unauthorized)
      else
        var token := value.value[7..];
        match jwt.check(token)
        case Invalid => Rejected(Unauthorized)
        case Throws => Failed
        case Valid => Forwarded(h[UserHeader := [jwt.subject(token)]])
  }

  /** Bearer parsing round-trips: putting "Bearer " in front of a token and
      parsing gives the token back, for every token. */
  lemma BearerRoundTrip(token: string)
    ensures BearerToken(BearerPrefix + token) == Some(token)
  {
    assert (BearerPrefix + token)[..|BearerPrefix|] == BearerPrefix;
    assert (BearerPrefix + token)[|BearerPrefix|..] == token;
  }

  /** A well-formed request with a valid token is forwarded, with the token's
      subject as the user name. */
  lemma ValidBearerForwarded(jwt: Jwt, h: Headers, token: string, rest: seq<string>)
    requires jwt.check(token) == Valid
    ensures Filter(jwt, h[AuthorizationHeader := [BearerPrefix + token] + rest])
            == Forwarded(h[AuthorizationHeader := [BearerPrefix + token] + rest][UserHeader := [jwt.subject(token)]])
  {
    BearerRoundTrip(token);
  }

  /** A client cannot choose the user name the services see: whatever
      `X-User-Name` it sends is replaced by the token's subject, and every
      other header passes through unchanged. */
  lemma UserHeaderNotSpoofable(jwt: Jwt, h: Headers)
    requires Filter(jwt, h).Forwarded?
    ensures UserHeader in Filter(jwt, h).headers
    ensures |Filter(jwt, h).headers[UserHeader]| == 1
    ensures exists token :: jwt.check(token) == Valid && Filter(jwt, h).headers[UserHeader] == [jwt.subject(token)]
    ensures forall name :: name in h && name != UserHeader ==>
              name in Filter(jwt, h).headers && Filter(jwt, h).headers[name] == h[name]
  {
    var token := BearerToken(FirstValue(h, AuthorizationHeader).value).value;
    assert jwt.check(token) == Valid && Filter(jwt, h).headers[UserHeader] == [jwt.subject(token)];
  }

  /** A bearer token whose parse throws past `isTokenValid`'s handlers (a
      signature made with another key, say) is neither answered 401 nor
      forwarded: the exchange fails. */
  lemma UncaughtParseFailureFailsExchange(jwt: Jwt, h: Headers, token: string, rest: seq<string>)
    requires jwt.check(token) == Throws
    ensures Filter(jwt, h[AuthorizationHeader := [BearerPrefix + token] + rest]) == Failed
  {
    BearerRoundTrip(token);
  }
}

=== FILE: inventory_cache.dfy ===
/** `InventoryCacheHelper`: response snapshots and per-(product, warehouse)
    locks kept in Redis.  Every helper catches the store's exceptions, so an
    unreachable store makes writes no-ops and reads misses, and makes
    `acquireLock` answer false. */
module InventoryCache {
  import opened Wrappers
  import opened JavaText
  import opened InventoryEntity
  import Redis

  /** The lock key prefix.  The helper also declares an `inventory:` prefix
      for snapshots but never uses it. */
  const LockPrefix: string := "lock:inventory:"
  /** Snapshots live five minutes. */
  const SnapshotTtlMillis: int := 5 * 60 * 1000
  /** Locks live ten seconds. */
  const LockTtlMillis: int := 10 * 1000

  /** What the helper stores: the lock's `"LOCKED"` marker or a response. */
  datatype CacheValue = LockMarker | Snapshot(response: InventoryResponse)

  type Cache = Redis.Store<CacheValue>

  /** `buildKey`: the two ids joined by a colon. */
  function BuildKey(p: int, w: int): string {
    Join(LongToString(p), ':', LongToString(w))
  }

  /** The lock key of a pair. */
  function LockKey(p: int, w: int): (k: string)
    ensures StartsWith(k, LockPrefix)
  {
    LockPrefix + BuildKey(p, w)
  }

  /** Each pair has its own snapshot key. */
  lemma BuildKeyInjective(p: int, w: int, p2: int, w2: int)
    requires BuildKey(p, w) == BuildKey(p2, w2)
    ensures p == p2 && w == w2
  {
    LongToStringAvoidsColon(p);
    LongToStringAvoidsColon(p2);
    JoinInjective(LongToString(p), LongToString(w), LongToString(p2), LongToString(w2), ':');
    LongToStringInjective(p, p2);
    LongToStringInjective(w, w2);
  }

  /** Each pair has its own lock. */
  lemma LockKeyInjective(p: int, w: int, p2: int, w2: int)
    requires LockKey(p, w) == LockKey(p2, w2)
    ensures p == p2 && w == w2
  {
    assert BuildKey(p, w) == LockKey(p, w)[|LockPrefix|..] == BuildKey(p2, w2);
    BuildKeyInjective(p, w, p2, w2);
  }

  /** A lock key is never a snapshot key: snapshot keys start with a digit or
      a minus sign, lock keys with a letter. */
  lemma LockAndSnapshotKeysDiffer(p: int, w: int, p2: int, w2: int)
    ensures LockKey(p, w) != BuildKey(p2, w2)
  {
    assert LockKey(p, w)[0] == 'l';
    assert BuildKey(p2, w2)[0] == LongToString(p2)[0];
  }

  /** `cacheInventory`: stores the response under its pair's key. */
  function CacheInventory(c: Cache, resp: InventoryResponse): (r: Cache)
    ensures c.up ==> r.entries == c.entries[BuildKey(resp.productId, resp.warehouseId)
                                              := Redis.Entry(Snapshot(resp), Some(SnapshotTtlMillis))]
    ensures !c.up ==> r == c
    ensures r.up == c.up
    ensures WellKeyed(c) ==> WellKeyed(r)
  {
    if c.up then Redis.SetWithTtl(c, BuildKey(resp.productId, resp.warehouseId), Snapshot(resp), SnapshotTtlMillis)
    else c
  }

  /** `getInventory`: the cached response, or null on a miss, on a value that
      is not a response (the cast throws and is caught), or on a store error. */
  function GetInventory(c: Cache, p: int, w: int): (r: Option<InventoryResponse>)
    ensures r.Some? <==> c.up && BuildKey(p, w) in c.entries && c.entries[BuildKey(p, w)].value.Snapshot?
    ensures r.Some? ==> c.entries[BuildKey(p, w)].value == Snapshot(r.value)
  {
    var found: Option<CacheValue> := Redis.Get(c, BuildKey(p, w));
    if c.up && found.Some? && found.value.Snapshot? then Some(found.value.response) else None
  }

  /** `evictInventory`. */
  function EvictInventory(c: Cache, p: int, w: int): (r: Cache)
    ensures GetInventory(r, p, w).None?
    ensures c.up ==> r.entries == c.entries - {BuildKey(p, w)}
    ensures !c.up ==> r == c
    ensures r.up == c.up
  {
    if c.up then Redis.Delete(c, BuildKey(p, w)) else c
  }

  /** `acquireLock`: SET-if-absent of the lock key with a ten-second TTL. */
  function AcquireLock(c: Cache, p: int, w: int): (r: (Cache, bool))
    ensures r.1 <==> c.up && LockKey(p, w) !in c.entries
    ensures r.1 ==> r.0.entries == c.entries[LockKey(p, w) := Redis.Entry(LockMarker, Some(LockTtlMillis))]
    ensures !r.1 ==> r.0 == c
    ensures r.0.up == c.up
  {
    if !c.up || LockKey(p, w) in c.entries then (c, false)
    else (Redis.SetWithTtl(c, LockKey(p, w), LockMarker, LockTtlMillis), true)
  }

  /** `releaseLock`: deletes the lock key, whoever holds it. */
  function ReleaseLock(c: Cache, p: int, w: int): (r: Cache)
    ensures LockKey(p, w) !in r.entries || !c.up
    ensures c.up ==> r.entries == c.entries - {LockKey(p, w)}
    ensures !c.up ==> r == c
    ensures r.up == c.up
  {
    if c.up then Redis.Delete(c, LockKey(p, w)) else c
  }

  /** `getAvailableQuantity`: the available quantity of the cached response. */
  function GetAvailableQuantity(c: Cache, p: int, w: int): (r: Option<int>)
    ensures r.Some? <==> GetInventory(c, p, w).Some?
    ensures r.Some? ==> r.value == GetInventory(c, p, w).value.available
  {
    match GetInventory(c, p, w)
    case Some(resp) => Some(resp.available)
    case None => None
  }

  /** The two caches hold the same entries under every key except `a` and
      `b`. */
  ghost predicate SameOutside(c: Cache, c': Cache, a: string, b: string) {
    forall k :: k != a && k != b ==>
      (k in c.entries <==> k in c'.entries) && (k in c.entries ==> c'.entries[k] == c.entries[k])
  }

  /** A snapshot refreshed with new counters, as `updateQuantityInCache`
      writes it: available becomes quantity minus reserved, and every other
      field, the low-stock flag included, stays. */
  function Refreshed(cached: Option<InventoryResponse>, quantity: int, reserved: int): Option<InventoryResponse> {
    match cached
    case None => None
    case Some(resp) => Some(resp.(quantity := quantity, reserved := reserved, available := quantity - reserved))
  }

  /** Every snapshot sits under the key of its own pair, as `cacheInventory`
      puts it there. */
  predicate WellKeyed(c: Cache) {
    forall k :: k in c.entries && c.entries[k].value.Snapshot? ==>
      k == BuildKey(c.entries[k].value.response.productId, c.entries[k].value.response.warehouseId)
  }

  /** `updateQuantityInCache`: on a hit, rewrites the two counters and the
      available quantity of the snapshot and stores it again; the low-stock
      flag is left as it was.  The snapshot is stored again under its own
      pair's key, so only in a well-keyed cache does that write land on the
      key it was read from. */
  function UpdateQuantityInCache(c: Cache, p: int, w: int, quantity: int, reserved: int): (r: Cache)
    ensures GetInventory(c, p, w).None? ==> r == c
    ensures r.up == c.up
    ensures WellKeyed(c) ==> WellKeyed(r)
    ensures WellKeyed(c) ==> r.entries.Keys == c.entries.Keys
    ensures WellKeyed(c) ==> forall k :: k in c.entries && k != BuildKey(p, w) ==> r.entries[k] == c.entries[k]
    ensures WellKeyed(c) && GetInventory(c, p, w).Some? ==>
      GetInventory(r, p, w) == Some(GetInventory(c, p, w).value.(quantity := quantity, reserved := reserved,
                                                                  available := quantity - reserved))
  {
    match GetInventory(c, p, w)
    case None => c
    case Some(cached) =>
      CacheInventory(c, cached.(quantity := quantity, reserved := reserved, available := quantity - reserved))
  }

  /** Reading back a snapshot that was just cached returns it, and caching
      one pair's snapshot leaves every other pair's lookup as it was. */
  lemma SnapshotRoundTrip(c: Cache, resp: InventoryResponse, p: int, w: int)
    ensures GetInventory(CacheInventory(c, resp), resp.productId, resp.warehouseId)
         == (if c.up then Some(resp) else None)
    ensures (p, w) != (resp.productId, resp.warehouseId) ==>
              GetInventory(CacheInventory(c, resp), p, w) == GetInventory(c, p, w)
  {
    if (p, w) != (resp.productId, resp.warehouseId) && BuildKey(p, w) == BuildKey(resp.productId, resp.warehouseId) {
      BuildKeyInjective(p, w, resp.productId, resp.warehouseId);
    }
  }

  /** Taking or dropping a lock never disturbs a snapshot lookup or the
      placement of snapshots. */
  lemma LocksLeaveSnapshots(c: Cache, p: int, w: int, p2: int, w2: int)
    ensures GetInventory(AcquireLock(c, p, w).0, p2, w2) == GetInventory(c, p2, w2)
    ensures GetInventory(ReleaseLock(c, p, w), p2, w2) == GetInventory(c, p2, w2)
    ensures WellKeyed(c) ==> WellKeyed(AcquireLock(c, p, w).0) && WellKeyed(ReleaseLock(c, p, w))
  {
    LockAndSnapshotKeysDiffer(p, w, p2, w2);
  }

  /** After a hit is updated, the cached available quantity is the new
      quantity minus the new reservation. */
  lemma AvailableAfterUpdate(c: Cache, p: int, w: int, quantity: int, reserved: int)
    requires WellKeyed(c) && GetInventory(c, p, w).Some?
    ensures GetAvailableQuantity(UpdateQuantityInCache(c, p, w, quantity, reserved), p, w)
         == Some(quantity - reserved)
  {
  }

  /** The lock has no owner: once one caller holds it, a second caller's
      acquire fails, but a release by anybody (here by a caller that never
      acquired it) lets a third caller in while the first still works. */
  lemma ReleaseHasNoHolderCheck(c: Cache, p: int, w: int)
    requires c.up && LockKey(p, w) !in c.entries
    ensures var held := AcquireLock(c, p, w).0;
            AcquireLock(c, p, w).1
            && !AcquireLock(held, p, w).1
            && AcquireLock(ReleaseLock(held, p, w), p, w).1
  {
  }

  /** A lock taken and given back with nothing written in between leaves
      the cache exactly as it was. */
  lemma LockedNoWrite(c: Cache, p: int, w: int)
    requires c.up && LockKey(p, w) !in c.entries
    ensures ReleaseLock(AcquireLock(c, p, w).0, p, w) == c
  {
    assert c.entries[LockKey(p, w) := Redis.Entry(LockMarker, Some(LockTtlMillis))] - {LockKey(p, w)} == c.entries;
  }

  /** A lock taken, the pair's snapshot refreshed with new counters, and
      the lock given back: the pair's read answers the refreshed snapshot
      (still a miss on a miss), and every other key holds what it held. */
  lemma LockedRefresh(c: Cache, p: int, w: int, quantity: int, reserved: int)
    requires c.up && LockKey(p, w) !in c.entries
    ensures var after := ReleaseLock(UpdateQuantityInCache(AcquireLock(c, p, w).0, p, w, quantity, reserved), p, w);
            WellKeyed(c) ==>
              GetInventory(after, p, w) == Refreshed(GetInventory(c, p, w), quantity, reserved)
              && SameOutside(c, after, LockKey(p, w), BuildKey(p, w))
  {
    if WellKeyed(c) {
      var locked := AcquireLock(c, p, w).0;
      LocksLeaveSnapshots(c, p, w, p, w);
      var updated := UpdateQuantityInCache(locked, p, w, quantity, reserved);
      var after := ReleaseLock(updated, p, w);
      LockAndSnapshotKeysDiffer(p, w, p, w);
      assert GetInventory(after, p, w) == GetInventory(updated, p, w);
    }
  }

  /** The cache side of a lock-protected counter update: take the free
      lock, refresh the pair's snapshot with the new counters, give the lock
      back. */
  function RefreshUnderLock(c: Cache, p: int, w: int, quantity: int, reserved: int): (r: Cache)
    requires c.up && LockKey(p, w) !in c.entries
    ensures r.up == c.up && LockKey(p, w) !in r.entries
    ensures WellKeyed(c) ==> WellKeyed(r)
    ensures WellKeyed(c) ==> GetInventory(r, p, w) == Refreshed(GetInventory(c, p, w), quantity, reserved)
    ensures WellKeyed(c) ==> SameOutside(c, r, LockKey(p, w), BuildKey(p, w))
  {
    var locked := AcquireLock(c, p, w).0;
    LockedRefresh(c, p, w, quantity, reserved);
    LocksLeaveSnapshots(c, p, w, p, w);
    var updated := UpdateQuantityInCache(locked, p, w, quantity, reserved);
    LocksLeaveSnapshots(updated, p, w, p, w);
    ReleaseLock(updated, p, w)
  }

  /** `updateQuantityInCache` does not recompute the low-stock flag: a
      snapshot cached as not low stays flagged not low after its available
      quantity drops below the minimum. */
  lemma UpdateLeavesLowStockStale()
    ensures var resp := InventoryResponse(1, 7, 9, 10, 0, 10, Some(5), None, false);
            var c := CacheInventory(Redis.Store(map[], true), resp);
            var after := GetInventory(UpdateQuantityInCache(c, 7, 9, 3, 0), 7, 9);
            after.Some? && after.value.available == 3 && IsLow(3, Some(5)) && !after.value.lowStock
  {
    var resp := InventoryResponse(1, 7, 9, 10, 0, 10, Some(5), None, false);
    var c := CacheInventory(Redis.Store(map[], true), resp);
    SnapshotRoundTrip(Redis.Store(map[], true), resp, 7, 9);
    assert WellKeyed(c);
  }
}

=== FILE: inventory_entity.dfy ===
/** The `inventory` row of the inventory service, its persistence hooks, the
    response built from it, and the stock-movement ledger.

    `available` is a stored column.  Setting `quantity` or `reserved` leaves it
    as it was; only the `@PrePersist`/`@PreUpdate` hooks recompute it, and
    those run when the row is first persisted and when a changed row is
    flushed at commit. */
module InventoryEntity {
  import opened Wrappers

  datatype MovementType = In | Out | Adjustment | Return | Transfer

  /** One row of the `inventory` table (the identity key is its position in
      the table, see `InventoryService`). */
  datatype Inventory = Inventory(
    productId: int,
    warehouseId: int,
    quantity: int,
    reserved: int,
    available: int,
    minimum: Option<int>,
    shelfLocation: Option<string>)
  {
    /** The row belongs to the (product, warehouse) pair. */
    predicate At(p: int, w: int) {
      productId == p && warehouseId == w
    }

    /** The stored `available` agrees with the two counters it is derived from. */
    predicate Consistent() {
      available + reserved == quantity
    }

    /** The row as the lifecycle hooks leave it: both `onCreate` and
        `onUpdate` run `calculateAvailableQuantity`, which changes nothing
        but `available`. */
    function Recompute(): (r: Inventory)
      ensures r.Consistent()
      ensures r.(available := available) == this
    {
      this.(available := quantity - reserved)
    }
  }

  /** A new row as `createInventory` builds it before it is saved:
      `reserved` starts at 0 and `available` has not been computed yet. */
  function NewRow(p: int, w: int, quantity: int, minimum: Option<int>, shelf: Option<string>): Inventory {
    Inventory(p, w, quantity, 0, 0, minimum, shelf)
  }

  /** The numeric part of `InventoryResponse`; the product and warehouse
      names come from foreign lookups and are not modelled. */
  datatype InventoryResponse = InventoryResponse(
    id: int,
    productId: int,
    warehouseId: int,
    quantity: int,
    reserved: int,
    available: int,
    minimum: Option<int>,
    shelfLocation: Option<string>,
    lowStock: bool)

  /** The low-stock rule of `mapToResponse`: a minimum is set and the stored
      available quantity does not exceed it. */
  predicate IsLow(available: int, minimum: Option<int>) {
    minimum.Some? && available <= minimum.value
  }

  /** `mapToResponse`: copies the stored fields as they are and derives the
      low-stock flag from them. */
  function MapToResponse(id: int, inv: Inventory): (r: InventoryResponse)
    ensures r.productId == inv.productId && r.warehouseId == inv.warehouseId
    ensures r.quantity == inv.quantity && r.reserved == inv.reserved
    ensures r.available == inv.available && r.minimum == inv.minimum
    ensures r.lowStock <==> IsLow(inv.available, inv.minimum)
  {
    InventoryResponse(id, inv.productId, inv.warehouseId, inv.quantity, inv.reserved,
                      inv.available, inv.minimum, inv.shelfLocation,
                      inv.minimum.Some? && inv.available <= inv.minimum.value)
  }

  /** One row of the `stock_movements` ledger. */
  datatype StockMovement = StockMovement(
    productId: int,
    warehouseId: int,
    kind: MovementType,
    quantity: int,
    reason: Option<string>,
    referenceNo: Option<string>)

  /** `calculateNewQuantity`. */
  function NewQuantity(current: int, kind: MovementType, q: int): int {
    match kind
    case In | Return => current + q
    case Out | Transfer => current - q
    case Adjustment => q
  }

  /** Receiving and then shipping (or transferring away) the same amount
      restores the quantity, and so does the opposite order. */
  lemma MovementsCancel(current: int, q: int, add: MovementType, remove: MovementType)
    requires add == In || add == Return
    requires remove == Out || remove == Transfer
    ensures NewQuantity(NewQuantity(current, add, q), remove, q) == current
    ensures NewQuantity(NewQuantity(current, remove, q), add, q) == current
  {
  }

  /** The quantity obtained by replaying the ledger, oldest entry first. */
  function Replay(start: int, ms: seq<StockMovement>): int
    decreases |ms|
  {
    if |ms| == 0 then start
    else NewQuantity(Replay(start, ms[..|ms| - 1]), ms[|ms| - 1].kind, ms[|ms| - 1].quantity)
  }

  /** The signed effect of one non-adjustment movement. */
  function Signed(m: StockMovement): int {
    match m.kind
    case In | Return => m.quantity
    case Out | Transfer => -m.quantity
    case Adjustment => 0
  }

  /** Sum of the signed effects of a run of movements. */
  function Delta(ms: seq<StockMovement>): int
    decreases |ms|
  {
    if |ms| == 0 then 0 else Delta(ms[..|ms| - 1]) + Signed(ms[|ms| - 1])
  }

  /** Position of the last adjustment in the ledger, if there is one. */
  function LastAdjustment(ms: seq<StockMovement>): (r: Option<nat>)
    ensures r.Some? ==> r.value < |ms| && ms[r.value].kind == Adjustment
    ensures r.Some? ==> forall j :: r.value < j < |ms| ==> ms[j].kind != Adjustment
    ensures r.None? ==> forall j :: 0 <= j < |ms| ==> ms[j].kind != Adjustment
    decreases |ms|
  {
    if |ms| == 0 then None
    else if ms[|ms| - 1].kind == Adjustment then Some(|ms| - 1)
    else LastAdjustment(ms[..|ms| - 1])
  }

  /** How an auditor reads the ledger: the last adjustment sets the level,
      and the movements after it add or remove stock. */
  function Reconcile(start: int, ms: seq<StockMovement>): int {
    match LastAdjustment(ms)
    case None => start + Delta(ms)
    case Some(i) => ms[i].quantity + Delta(ms[i + 1..])
  }

  /** Replaying the ledger movement by movement gives the auditor's figure. */
  lemma {:induction false} ReplayMatchesReconcile(start: int, ms: seq<StockMovement>)
    ensures Replay(start, ms) == Reconcile(start, ms)
    decreases |ms|
  {
    if |ms| > 0 {
      var n := |ms| - 1;
      var front := ms[..n];
      ReplayMatchesReconcile(start, front);
      if ms[n].kind != Adjustment {
        match LastAdjustment(front)
        case None =>
        case Some(i) =>
          assert ms[i + 1..][..|ms[i + 1..]| - 1] == front[i + 1..];
      }
    }
  }
}

=== FILE: inventory_listener.dfy ===
/** The inventory service's `OrderEventListener`: for every item of a
    created order it reads the (product, warehouse) inventory through the
    cache and publishes a low-stock event when the response is flagged low.
    A lookup that throws is logged and the next item is still checked. */
module InventoryListener {
  import opened Wrappers
  import opened InventoryEntity
  import opened InventoryCache
  import opened InventoryService

  datatype OrderItemEvent = OrderItemEvent(productId: int, quantity: int)

  datatype OrderCreatedEvent = OrderCreatedEvent(
    orderId: int, customerId: int, warehouseId: int, totalAmount: int, items: seq<OrderItemEvent>)

  /** `LowStockEvent` without the two display names. */
  datatype LowStockEvent = LowStockEvent(
    productId: int, warehouseId: int, currentQuantity: int, minimumQuantity: Option<int>)

  /** What `checkLowStock` publishes for one lookup outcome. */
  function Alert(answer: Result<InventoryResponse, InventoryError>): (r: seq<LowStockEvent>)
    ensures |r| <= 1
    ensures |r| == 1 <==> answer.Ok? && answer.value.lowStock
    ensures |r| == 1 ==> r[0] == LowStockEvent(answer.value.productId, answer.value.warehouseId,
                                               answer.value.available, answer.value.minimum)
  {
    if answer.Ok? && answer.value.lowStock then
      [LowStockEvent(answer.value.productId, answer.value.warehouseId, answer.value.available, answer.value.minimum)]
    else []
  }

  /** `checkLowStock`: one cached lookup, then at most one event.  Only the
      cache can change. */
  function CheckLowStock(s: State, p: int, w: int): (r: (State, seq<LowStockEvent>))
    ensures r.0.rows == s.rows && r.0.ledger == s.ledger
    ensures |r.1| <= 1
  {
    var looked := GetByPair(s, p, w);
    (looked.0, Alert(looked.1))
  }

  /** The `forEach` over the items, in order, all against one warehouse. */
  function CheckItems(s: State, items: seq<OrderItemEvent>, w: int): (r: (State, seq<LowStockEvent>))
    ensures |r.1| <= |items|
    ensures r.0.rows == s.rows && r.0.ledger == s.ledger
    decreases |items|
  {
    if |items| == 0 then (s, [])
    else
      var first := CheckLowStock(s, items[0].productId, w);
      var rest := CheckItems(first.0, items[1..], w);
      (rest.0, first.1 + rest.1)
  }


  /** A read of the pair would change nothing. */
  predicate Settled(s: State, p: int, w: int) {
    GetByPair(s, p, w).0 == s
  }

  /** A read of another pair keeps a settled pair settled, with the same
      answer. */
  lemma OtherReadKeepsSettled(t: State, p: int, w: int, p2: int, w2: int)
    requires Settled(t, p, w)
    ensures var t2 := GetByPair(t, p2, w2).0;
            Settled(t2, p, w) && GetByPair(t2, p, w).1 == GetByPair(t, p, w).1
  {
    var t2 := GetByPair(t, p2, w2).0;
    if t2 != t {
      var resp2 := GetByPair(t, p2, w2).1.value;
      assert t2 == t.(cache := CacheInventory(t.cache, resp2));
      if (p, w) != (p2, w2) {
        SnapshotRoundTrip(t.cache, resp2, p, w);
      }
    }
  }

  /** Checking items keeps a settled pair settled, with the same answer. */
  lemma {:induction false} CheckItemsKeepsSettled(t: State, items: seq<OrderItemEvent>, w2: int, p: int, w: int)
    requires Settled(t, p, w)
    ensures var t2 := CheckItems(t, items, w2).0;
            Settled(t2, p, w) && GetByPair(t2, p, w).1 == GetByPair(t, p, w).1
    decreases |items|
  {
    if |items| > 0 {
      var t1 := GetByPair(t, items[0].productId, w2).0;
      OtherReadKeepsSettled(t, p, w, items[0].productId, w2);
      CheckItemsKeepsSettled(t1, items[1..], w2, p, w);
    }
  }

  /** After checking a run of items, checking the same run again changes
      nothing and publishes exactly the same events. */
  lemma {:induction false} CheckItemsSettles(s: State, items: seq<OrderItemEvent>, w: int)
    ensures var (t, e) := CheckItems(s, items, w);
            CheckItems(t, items, w) == (t, e)
    decreases |items|
  {
    if |items| > 0 {
      var x := items[0].productId;
      var (s1, r1) := GetByPair(s, x, w);
      GetByPairSettles(s, x, w);
      var (t, e2) := CheckItems(s1, items[1..], w);
      CheckItemsSettles(s1, items[1..], w);
      CheckItemsKeepsSettled(s1, items[1..], w, x, w);
    }
  }

  /** The check is level-triggered: delivering the same order event again
      publishes the same low-stock events again and changes nothing. */
  lemma RedeliveryRepublishes(s: State, ev: OrderCreatedEvent)
    ensures var (t, e) := HandleOrderCreated(s, ev);
            HandleOrderCreated(t, ev) == (t, e)
  {
    CheckItemsSettles(s, ev.items, ev.warehouseId);
  }

  /** Some item of the order is for product `p`. */
  predicate Ordered(items: seq<OrderItemEvent>, p: int) {
    exists j :: 0 <= j < |items| && items[j].productId == p
  }

  /** With a consistent cache, the event for one item names that item's
      product and the order's warehouse. */
  lemma AlertNamesItsPair(s: State, p: int, w: int)
    requires WellKeyed(s.cache)
    ensures var (t, e) := CheckLowStock(s, p, w);
            WellKeyed(t.cache)
            && forall ev :: ev in e ==> ev.productId == p && ev.warehouseId == w
  {
    var (s1, r1) := GetByPair(s, p, w);
    if r1.Ok? && GetInventory(s.cache, p, w).Some? {
      var resp := r1.value;
      var k := BuildKey(p, w);
      assert s.cache.entries[k].value == Snapshot(resp);
      assert k == BuildKey(resp.productId, resp.warehouseId);
      BuildKeyInjective(p, w, resp.productId, resp.warehouseId);
    }
    if r1.Ok? && r1.value.lowStock {
      assert Alert(r1) == [LowStockEvent(r1.value.productId, r1.value.warehouseId, r1.value.available, r1.value.minimum)];
    }
  }

  /** With a consistent cache, every published event names an ordered
      product and the order's warehouse.  (It need not report a quantity at
      or below the minimum: a cached response's flag can be stale.) */
  lemma {:induction false} AlertsMatchItems(s: State, items: seq<OrderItemEvent>, w: int)
    requires WellKeyed(s.cache)
    ensures var (t, e) := CheckItems(s, items, w);
            WellKeyed(t.cache)
            && forall ev :: ev in e ==> ev.warehouseId == w && Ordered(items, ev.productId)
    decreases |items|
  {
    if |items| > 0 {
      var x := items[0].productId;
      AlertNamesItsPair(s, x, w);
      var (s1, first) := CheckLowStock(s, x, w);
      AlertsMatchItems(s1, items[1..], w);
      var (t, rest) := CheckItems(s1, items[1..], w);
      forall ev | ev in first + rest
        ensures ev.warehouseId == w && Ordered(items, ev.productId)
      {
        if ev in first {
          assert items[0].productId == ev.productId;
        } else {
          var j :| 0 <= j < |items[1..]| && items[1..][j].productId == ev.productId;
          assert items[j + 1].productId == ev.productId;
        }
      }
    }
  }

  /** The state the listener has reached when it comes to item `j`. */
  function StateBefore(s: State, items: seq<OrderItemEvent>, w: int, j: nat): State
    requires j <= |items|
  {
    CheckItems(s, items[..j], w).0
  }

  /** What item `j` publishes: the alert for its lookup, made in the state
      the earlier items left. */
  function ItemAlert(s: State, items: seq<OrderItemEvent>, w: int, j: nat): seq<LowStockEvent>
    requires j < |items|
  {
    Alert(GetByPair(StateBefore(s, items, w, j), items[j].productId, w).1)
  }

  /** The alerts of the first `n` items, in item order. */
  function AlertsUpTo(s: State, items: seq<OrderItemEvent>, w: int, n: nat): seq<LowStockEvent>
    requires n <= |items|
    decreases n
  {
    if n == 0 then [] else AlertsUpTo(s, items, w, n - 1) + ItemAlert(s, items, w, n - 1)
  }

  lemma AppendAssociates<T>(x: seq<T>, y: seq<T>, z: seq<T>)
    ensures x + (y + z) == (x + y) + z
  {
  }

  /** Checking `a` then `b` is checking `a + b`. */
  lemma {:induction false} CheckItemsSplit(s: State, a: seq<OrderItemEvent>, b: seq<OrderItemEvent>, w: int)
    ensures var first := CheckItems(s, a, w);
            var second := CheckItems(first.0, b, w);
            CheckItems(s, a + b, w) == (second.0, first.1 + second.1)
    decreases |a|
  {
    if |a| == 0 {
      assert a + b == b;
      var second := CheckItems(s, b, w);
      assert CheckItems(s, a, w) == (s, []);
      assert [] + second.1 == second.1;
    } else {
      var c1 := CheckLowStock(s, a[0].productId, w);
      assert (a + b)[0] == a[0];
      assert (a + b)[1..] == a[1..] + b;
      assert CheckItems(s, a + b, w) == (CheckItems(c1.0, a[1..] + b, w).0, c1.1 + CheckItems(c1.0, a[1..] + b, w).1);
      assert CheckItems(s, a, w) == (CheckItems(c1.0, a[1..], w).0, c1.1 + CheckItems(c1.0, a[1..], w).1);
      CheckItemsSplit(c1.0, a[1..], b, w);
      var rest := CheckItems(c1.0, a[1..], w);
      var second := CheckItems(rest.0, b, w);
      AppendAssociates(c1.1, rest.1, second.1);
    }
  }

  /** Checking one item publishes that item's alert. */
  lemma CheckOneItem(t: State, x: OrderItemEvent, w: int)
    ensures CheckItems(t, [x], w).1 == Alert(GetByPair(t, x.productId, w).1)
  {
    assert [x][0] == x && [x][1..] == [];
    var c1 := CheckLowStock(t, x.productId, w);
    assert CheckItems(t, [x], w) == (CheckItems(c1.0, [], w).0, c1.1 + CheckItems(c1.0, [], w).1);
  }

  /** The events published for the first `n` items are their alerts, in
      order. */
  lemma {:induction false} PublishesAlertsUpTo(s: State, items: seq<OrderItemEvent>, w: int, n: nat)
    requires n <= |items|
    ensures CheckItems(s, items[..n], w).1 == AlertsUpTo(s, items, w, n)
    decreases n
  {
    if n > 0 {
      var pre, x := items[..n - 1], items[n - 1];
      PublishesAlertsUpTo(s, items, w, n - 1);
      assert items[..n] == pre + [x];
      CheckItemsSplit(s, pre, [x], w);
      var t := CheckItems(s, pre, w).0;
      assert t == StateBefore(s, items, w, n - 1);
      CheckOneItem(t, x, w);
      var earlier, last := CheckItems(s, pre, w).1, CheckItems(t, [x], w).1;
      assert earlier == AlertsUpTo(s, items, w, n - 1);
      assert last == ItemAlert(s, items, w, n - 1);
      assert CheckItems(s, items[..n], w).1 == earlier + last;
      assert AlertsUpTo(s, items, w, n) == earlier + last;
    }
  }

  /** Item `j`'s alert is among the alerts of any run of items that includes
      it. */
  lemma {:induction false} AlertsUpToContains(s: State, items: seq<OrderItemEvent>, w: int, n: nat, j: nat)
    requires j < n <= |items|
    ensures forall e :: e in ItemAlert(s, items, w, j) ==> e in AlertsUpTo(s, items, w, n)
    decreases n
  {
    var earlier, last := AlertsUpTo(s, items, w, n - 1), ItemAlert(s, items, w, n - 1);
    assert AlertsUpTo(s, items, w, n) == earlier + last;
    if j < n - 1 {
      AlertsUpToContains(s, items, w, n - 1, j);
      assert forall e :: e in ItemAlert(s, items, w, j) ==> e in earlier;
    } else {
      assert ItemAlert(s, items, w, j) == last;
    }
  }

  /** `handleOrderCreatedEvent`: publishes exactly the alert of every item
      of the order, in item order, each looked up in the state the earlier
      items left.  A lookup that fails or answers a response not flagged low
      contributes nothing, and the items after it are still checked. */
  function HandleOrderCreated(s: State, ev: OrderCreatedEvent): (r: (State, seq<LowStockEvent>))
    ensures r.1 == AlertsUpTo(s, ev.items, ev.warehouseId, |ev.items|)
    ensures |r.1| <= |ev.items|
    ensures r.0.rows == s.rows && r.0.ledger == s.ledger
  {
    PublishesAlertsUpTo(s, ev.items, ev.warehouseId, |ev.items|);
    assert ev.items[..|ev.items|] == ev.items;
    CheckItems(s, ev.items, ev.warehouseId)
  }

  /** Every item whose lookup answers a response flagged low has its event
      published, whatever the lookups of the items before it answered. */
  lemma EveryLowItemAlerts(s: State, ev: OrderCreatedEvent, j: nat)
    requires j < |ev.items|
    ensures var answer := GetByPair(StateBefore(s, ev.items, ev.warehouseId, j), ev.items[j].productId, ev.warehouseId).1;
            answer.Ok? && answer.value.lowStock ==>
              LowStockEvent(answer.value.productId, answer.value.warehouseId, answer.value.available, answer.value.minimum)
                in HandleOrderCreated(s, ev).1
  {
    AlertsUpToContains(s, ev.items, ev.warehouseId, |ev.items|, j);
  }
}

=== FILE: inventory_service.dfy ===
/** `InventoryService`: creating rows, reading them through the cache,
    stock movements, and the lock-protected reservation and release that the
    order saga calls.

    The state is the `inventory` table, the `stock_movements` ledger and the
    Redis cache.  The table carries no uniqueness constraint on the
    (product, warehouse) pair, so a lookup by pair can find no row, one row,
    or several (Spring Data then throws on the single-result query).  Rows are
    kept in insertion order and the identity key of a row is its position
    plus one.  A state is always observed after the transaction committed, so
    rows changed by an operation have been through the `@PreUpdate` hook. */
module InventoryService {
  import opened Wrappers
  import opened InventoryEntity
  import opened InventoryCache

  datatype State = State(rows: seq<Inventory>, ledger: seq<StockMovement>, cache: Cache)

  /** The identity key the database gave the row at position `i`. */
  function IdOf(i: nat): int {
    i + 1
  }

  datatype InventoryError = InventoryNotFound | NonUniqueResult | InsufficientStock

  /** Outcome of one lock-protected attempt: the lock was taken by someone
      else (the service would sleep and try again), the body returned, or
      the body threw. */
  datatype Attempt<T> = LockBusy | Done(value: T) | Failed(error: InventoryError)

  datatype InventoryRequest = InventoryRequest(
    productId: int, warehouseId: int, quantity: int, minimum: Option<int>, shelfLocation: Option<string>)

  /** The bean-validation constraints on `InventoryRequest`. */
  predicate ValidInventoryRequest(req: InventoryRequest) {
    req.quantity >= 0 && (req.minimum.Some? ==> req.minimum.value >= 0)
  }

  datatype MovementRequest = MovementRequest(
    productId: int, warehouseId: int, kind: MovementType, quantity: int,
    reason: Option<string>, referenceNo: Option<string>)

  /** A row as the service keeps it: the hooks have run, and neither
      counter is negative. */
  predicate RowOk(row: Inventory) {
    row.Consistent() && row.quantity >= 0 && row.reserved >= 0
  }

  predicate Valid(s: State) {
    (forall i :: 0 <= i < |s.rows| ==> RowOk(s.rows[i])) && WellKeyed(s.cache)
  }

  /** Result of `findByProductIdAndWarehouseId`. */
  datatype Lookup = Missing | Unique(index: nat) | Duplicated

  function Find(rows: seq<Inventory>, p: int, w: int): (r: Lookup)
    ensures r.Missing? <==> forall i :: 0 <= i < |rows| ==> !rows[i].At(p, w)
    ensures r.Unique? ==> r.index < |rows| && rows[r.index].At(p, w)
    ensures r.Unique? ==> forall i :: 0 <= i < |rows| && i != r.index ==> !rows[i].At(p, w)
    ensures r.Duplicated? ==> exists i, j :: 0 <= i < j < |rows| && rows[i].At(p, w) && rows[j].At(p, w)
    decreases |rows|
  {
    if |rows| == 0 then Missing
    else
      var front := Find(rows[..|rows| - 1], p, w);
      if !rows[|rows| - 1].At(p, w) then front
      else if front.Missing? then Unique(|rows| - 1)
      else Duplicated
  }

  /** A lookup by pair depends only on which positions hold which pair. */
  lemma {:induction false} FindDependsOnPairs(rows: seq<Inventory>, rows2: seq<Inventory>, p: int, w: int)
    requires |rows| == |rows2|
    requires forall i :: 0 <= i < |rows| ==> rows[i].At(p, w) == rows2[i].At(p, w)
    ensures Find(rows, p, w) == Find(rows2, p, w)
    decreases |rows|
  {
    if |rows| > 0 {
      FindDependsOnPairs(rows[..|rows| - 1], rows2[..|rows| - 1], p, w);
    }
  }

  /** `createInventory`: a new row with nothing reserved, persisted (so the
      hook computes `available`), mapped and cached.  There is no check for
      an existing row of the same pair. */
  function CreateInventory(s: State, req: InventoryRequest): (r: (State, InventoryResponse))
    ensures |r.0.rows| == |s.rows| + 1 && r.0.rows[..|s.rows|] == s.rows
    ensures var row := r.0.rows[|s.rows|];
            row.At(req.productId, req.warehouseId) && row.quantity == req.quantity && row.reserved == 0
            && row.available == req.quantity && row.minimum == req.minimum
    ensures r.0.ledger == s.ledger
    ensures r.1.id == IdOf(|s.rows|) && r.1.available == req.quantity
    ensures r.1.lowStock <==> IsLow(req.quantity, req.minimum)
    ensures Valid(s) && ValidInventoryRequest(req) ==> Valid(r.0)
  {
    var row := NewRow(req.productId, req.warehouseId, req.quantity, req.minimum, req.shelfLocation).Recompute();
    var resp := MapToResponse(IdOf(|s.rows|), row);
    (State(s.rows + [row], s.ledger, CacheInventory(s.cache, resp)), resp)
  }

  /** `getInventoryByProductAndWarehouse`: cache first; on a miss, the row
      is read, mapped and cached. */
  function GetByPair(s: State, p: int, w: int): (r: (State, Result<InventoryResponse, InventoryError>))
    ensures GetInventory(s.cache, p, w).Some? ==> r == (s, Ok(GetInventory(s.cache, p, w).value))
    ensures GetInventory(s.cache, p, w).None? ==>
      match Find(s.rows, p, w)
      case Missing => r == (s, Err(InventoryNotFound))
      case Duplicated => r == (s, Err(NonUniqueResult))
      case Unique(i) =>
        r.1 == Ok(MapToResponse(IdOf(i), s.rows[i]))
        && r.0 == s.(cache := CacheInventory(s.cache, r.1.value))
  {
    match GetInventory(s.cache, p, w)
    case Some(cached) => (s, Ok(cached))
    case None =>
      match Find(s.rows, p, w)
      case Missing => (s, Err(InventoryNotFound))
      case Duplicated => (s, Err(NonUniqueResult))
      case Unique(i) =>
        var resp := MapToResponse(IdOf(i), s.rows[i]);
        (s.(cache := CacheInventory(s.cache, resp)), Ok(resp))
  }

  /** Reading the same pair twice in a row: the second read returns what the
      first returned and changes nothing. */
  lemma GetByPairSettles(s: State, p: int, w: int)
    ensures var (s1, r1) := GetByPair(s, p, w);
            GetByPair(s1, p, w) == (s1, r1)
  {
    var (s1, r1) := GetByPair(s, p, w);
    if GetInventory(s.cache, p, w).None? && Find(s.rows, p, w).Unique? {
      SnapshotRoundTrip(s.cache, r1.value, p, w);
    }
  }

  /** `processStockMovement`.  The response is built from the entity after
      `setQuantity` but before the commit-time hook, so it carries the
      quantity and reservation as they now are and the available quantity
      (and low-stock flag) as they were; that response is what gets cached.
      The stored row is recomputed at commit. */
  function ProcessStockMovement(s: State, req: MovementRequest): (r: (State, Result<InventoryResponse, InventoryError>))
    ensures r.1.Err? ==> r.0 == s
    ensures Find(s.rows, req.productId, req.warehouseId).Missing? ==> r.1 == Err(InventoryNotFound)
    ensures Find(s.rows, req.productId, req.warehouseId).Duplicated? ==> r.1 == Err(NonUniqueResult)
    ensures Find(s.rows, req.productId, req.warehouseId).Unique? ==>
      var i := Find(s.rows, req.productId, req.warehouseId).index;
      var q := NewQuantity(s.rows[i].quantity, req.kind, req.quantity);
      (r.1 == Err(InsufficientStock) <==> q < 0)
      && (q >= 0 ==>
            r.1.Ok?
            && r.0.rows == s.rows[i := s.rows[i].(quantity := q).Recompute()]
            && r.0.ledger == s.ledger + [StockMovement(req.productId, req.warehouseId, req.kind, req.quantity,
                                                       req.reason, req.referenceNo)]
            && r.1.value.quantity == q && r.1.value.reserved == s.rows[i].reserved
            && r.1.value.available == s.rows[i].available
            && r.0.cache == CacheInventory(s.cache, r.1.value))
    ensures Valid(s) ==> Valid(r.0)
  {
    match Find(s.rows, req.productId, req.warehouseId)
    case Missing => (s, Err(InventoryNotFound))
    case Duplicated => (s, Err(NonUniqueResult))
    case Unique(i) =>
      var q := NewQuantity(s.rows[i].quantity, req.kind, req.quantity);
      if q < 0 then (s, Err(InsufficientStock))
      else
        var managed := s.rows[i].(quantity := q);
        var movement := StockMovement(req.productId, req.warehouseId, req.kind, req.quantity,
                                      req.reason, req.referenceNo);
        var resp := MapToResponse(IdOf(i), managed);
        (State(s.rows[i := managed.Recompute()], s.ledger + [movement], CacheInventory(s.cache, resp)), Ok(resp))
  }

  /** `reserveStock`, one attempt.  With the lock held: no row (or several)
      throws, too little available answers false, otherwise the reservation
      grows by `q` and a cached snapshot is updated.  The lock is given back
      on every one of these exits. */
  function ReserveStock(s: State, p: int, w: int, q: int): (r: (State, Attempt<bool>))
    ensures r.1 == LockBusy <==> !(s.cache.up && LockKey(p, w) !in s.cache.entries)
    ensures r.1 == LockBusy ==> r.0 == s
    ensures r.1 != LockBusy ==> LockKey(p, w) !in r.0.cache.entries
    ensures r.0.ledger == s.ledger && r.0.cache.up == s.cache.up
    ensures r.1.Failed? ==> r.0.rows == s.rows && r.0.cache == s.cache
    ensures r.1 != LockBusy ==>
      match Find(s.rows, p, w)
      case Missing => r.1 == Failed(InventoryNotFound)
      case Duplicated => r.1 == Failed(NonUniqueResult)
      case Unique(i) =>
        if s.rows[i].available < q then r.1 == Done(false) && r.0.rows == s.rows && r.0.cache == s.cache
        else r.1 == Done(true) && r.0.rows == s.rows[i := s.rows[i].(reserved := s.rows[i].reserved + q).Recompute()]
    ensures WellKeyed(s.cache) && r.1 == Done(true) ==>
              var row := r.0.rows[Find(s.rows, p, w).index];
              GetInventory(r.0.cache, p, w) == Refreshed(GetInventory(s.cache, p, w), row.quantity, row.reserved)
    ensures WellKeyed(s.cache) ==> SameOutside(s.cache, r.0.cache, LockKey(p, w), BuildKey(p, w))
    ensures Valid(s) && q >= 0 ==> Valid(r.0)
  {
    // `acquireLock` answers true exactly when the lock key is free.
    if !(s.cache.up && LockKey(p, w) !in s.cache.entries) then (s, LockBusy)
    else
      var locked := AcquireLock(s.cache, p, w).0;
      LockedNoWrite(s.cache, p, w);
      match Find(s.rows, p, w)
      case Missing => (s.(cache := ReleaseLock(locked, p, w)), Failed(InventoryNotFound))
      case Duplicated => (s.(cache := ReleaseLock(locked, p, w)), Failed(NonUniqueResult))
      case Unique(i) =>
        var row := s.rows[i];
        if row.available < q then (s.(cache := ReleaseLock(locked, p, w)), Done(false))
        else
          var managed := row.(reserved := row.reserved + q);
          (State(s.rows[i := managed.Recompute()], s.ledger,
                 RefreshUnderLock(s.cache, p, w, managed.quantity, managed.reserved)), Done(true))
  }

  /** `releaseStock`, one attempt: the reservation shrinks by `q` but never
      below zero; the lock is given back on every exit. */
  function ReleaseStock(s: State, p: int, w: int, q: int): (r: (State, Attempt<()>))
    ensures r.1 == LockBusy <==> !(s.cache.up && LockKey(p, w) !in s.cache.entries)
    ensures r.1 == LockBusy ==> r.0 == s
    ensures r.1 != LockBusy ==> LockKey(p, w) !in r.0.cache.entries
    ensures r.0.ledger == s.ledger && r.0.cache.up == s.cache.up
    ensures r.1.Failed? ==> r.0.rows == s.rows
    ensures r.1 != LockBusy ==>
      match Find(s.rows, p, w)
      case Missing => r.1 == Failed(InventoryNotFound)
      case Duplicated => r.1 == Failed(NonUniqueResult)
      case Unique(i) =>
        r.1 == Done(())
        && r.0.rows == s.rows[i := s.rows[i].(reserved := if s.rows[i].reserved - q > 0 then s.rows[i].reserved - q else 0).Recompute()]
    ensures !r.1.Done? ==> r.0.cache == s.cache
    ensures WellKeyed(s.cache) && r.1.Done? ==>
              var row := r.0.rows[Find(s.rows, p, w).index];
              GetInventory(r.0.cache, p, w) == Refreshed(GetInventory(s.cache, p, w), row.quantity, row.reserved)
    ensures WellKeyed(s.cache) ==> SameOutside(s.cache, r.0.cache, LockKey(p, w), BuildKey(p, w))
    ensures Valid(s) ==> Valid(r.0)
  {
    // `acquireLock` answers true exactly when the lock key is free.
    if !(s.cache.up && LockKey(p, w) !in s.cache.entries) then (s, LockBusy)
    else
      var locked := AcquireLock(s.cache, p, w).0;
      LockedNoWrite(s.cache, p, w);
      match Find(s.rows, p, w)
      case Missing => (s.(cache := ReleaseLock(locked, p, w)), Failed(InventoryNotFound))
      case Duplicated => (s.(cache := ReleaseLock(locked, p, w)), Failed(NonUniqueResult))
      case Unique(i) =>
        var row := s.rows[i];
        var managed := row.(reserved := Max(0, row.reserved - q));
        (State(s.rows[i := managed.Recompute()], s.ledger,
               RefreshUnderLock(s.cache, p, w, managed.quantity, managed.reserved)), Done(()))
  }

  /** `Math.max` on two ints. */
  function Max(a: int, b: int): int {
    if a >= b then a else b
  }

  /** SQL's three-valued `<=`: unknown when either side is NULL. */
  function SqlAtMost(a: Option<int>, b: Option<int>): Option<bool> {
    if a.None? || b.None? then None else Some(a.value <= b.value)
  }

  /** `getLowStockItems`: the rows the JPQL query
      `availableQuantity <= minimumQuantity` selects (a NULL minimum makes the
      condition unknown, and the row is not selected), mapped to responses in
      table order. */
  function LowStockItems(rows: seq<Inventory>): (r: seq<InventoryResponse>)
    ensures forall x :: x in r ==> x.lowStock
    ensures forall i :: 0 <= i < |rows| ==>
              (MapToResponse(IdOf(i), rows[i]) in r <==> MapToResponse(IdOf(i), rows[i]).lowStock)
    ensures forall x :: x in r ==> 1 <= x.id <= |rows|
    ensures forall x :: x in r ==> exists i :: 0 <= i < |rows| && x == MapToResponse(IdOf(i), rows[i])
    ensures forall a, b :: 0 <= a < b < |r| ==> r[a].id < r[b].id
    decreases |rows|
  {
    if |rows| == 0 then []
    else
      var n := |rows| - 1;
      var front := LowStockItems(rows[..n]);
      assert forall i :: 0 <= i < n ==> rows[..n][i] == rows[i];
      if SqlAtMost(Some(rows[n].available), rows[n].minimum) == Some(true)
      then front + [MapToResponse(IdOf(n), rows[n])]
      else front
  }

  /** Releasing what was just reserved, once the lock is free again, puts
      every row back as it was. */
  lemma ReserveThenReleaseRestores(s: State, p: int, w: int, q: int)
    requires Valid(s) && q >= 0
    requires ReserveStock(s, p, w, q).1 == Done(true)
    ensures var after := ReserveStock(s, p, w, q).0;
            ReleaseStock(after, p, w, q).1 == Done(())
            && ReleaseStock(after, p, w, q).0.rows == s.rows
  {
    var after := ReserveStock(s, p, w, q).0;
    var i := Find(s.rows, p, w).index;
    FindDependsOnPairs(s.rows, after.rows, p, w);
    assert after.cache.up == s.cache.up;
    assert ReleaseStock(after, p, w, q).0.rows == after.rows[i := s.rows[i]];
  }

  /** A one-row table with an empty cache is a state the service can be in. */
  lemma OneRowValid(row: Inventory)
    requires RowOk(row)
    ensures Valid(State([row], [], Redis.Store(map[], true)))
  {
  }

  /** Nothing stops a negative reservation: when the lock is free it passes
      the availability check, succeeds, and a large enough one drives the
      reserved counter below zero. */
  lemma NegativeReserveBreaksValid(s: State, p: int, w: int, q: int)
    requires Valid(s) && s.cache.up && LockKey(p, w) !in s.cache.entries
    requires Find(s.rows, p, w).Unique? && q < -s.rows[Find(s.rows, p, w).index].reserved
    ensures ReserveStock(s, p, w, q).1 == Done(true)
    ensures !Valid(ReserveStock(s, p, w, q).0)
  {
    var i := Find(s.rows, p, w).index;
    assert RowOk(s.rows[i]);
    assert !RowOk(ReserveStock(s, p, w, q).0.rows[i]);
  }

  /** A movement checks only that the quantity stays non-negative, not that
      it covers what is reserved: shipping out reserved stock makes the
      available quantity negative. */
  lemma MovementCanOverdraw()
    ensures var s := State([Inventory(1, 1, 10, 8, 2, None, None)], [], Redis.Store(map[], true));
            var r := ProcessStockMovement(s, MovementRequest(1, 1, Out, 5, None, None));
            Valid(s) && Valid(r.0) && r.1.Ok? && r.0.rows[0].available == -3
  {
    var s := State([Inventory(1, 1, 10, 8, 2, None, None)], [], Redis.Store(map[], true));
    OneRowValid(s.rows[0]);
    assert Find(s.rows, 1, 1) == Unique(0) by {
      assert Find(s.rows[..0], 1, 1) == Missing;
    }
  }

  /** Creating a second row for a pair that already has one succeeds, and
      from then on every reservation for that pair fails. */
  lemma DuplicateCreateBlocksReservations(s: State, req: InventoryRequest, q: int)
    requires !Find(s.rows, req.productId, req.warehouseId).Missing?
    ensures var s1 := CreateInventory(s, req).0;
            Find(s1.rows, req.productId, req.warehouseId) == Duplicated
            && ReserveStock(s1, req.productId, req.warehouseId, q).1 in {LockBusy, Failed(NonUniqueResult)}
  {
    var s1 := CreateInventory(s, req).0;
    var n := |s.rows|;
    assert s1.rows[..n] == s.rows;
    assert s1.rows[n].At(req.productId, req.warehouseId);
  }

  /** A duplicate create does not break reads at once: it caches the new
      row's response, and a read of the pair answers that snapshot while the
      entry lives.  Once the entry is gone, the read reaches the database and
      fails on the duplicate rows. */
  lemma DuplicateCreateStillReadsFromCache(s: State, req: InventoryRequest)
    requires s.cache.up && !Find(s.rows, req.productId, req.warehouseId).Missing?
    ensures var (s1, resp) := CreateInventory(s, req);
            GetByPair(s1, req.productId, req.warehouseId).1 == Ok(resp)
            && GetByPair(s1.(cache := EvictInventory(s1.cache, req.productId, req.warehouseId)),
                         req.productId, req.warehouseId).1 == Err(NonUniqueResult)
  {
    var (s1, resp) := CreateInventory(s, req);
    DuplicateCreateBlocksReservations(s, req, 0);
    SnapshotRoundTrip(s.cache, resp, req.productId, req.warehouseId);
  }

  /** Applies a run of movement requests in order, keeping only the state. */
  function ProcessAll(s: State, reqs: seq<MovementRequest>): State
    decreases |reqs|
  {
    if |reqs| == 0 then s
    else ProcessStockMovement(ProcessAll(s, reqs[..|reqs| - 1]), reqs[|reqs| - 1]).0
  }

  /** The ledger explains the stock: whatever mix of accepted and rejected
      movement requests is sent for a pair with one row, the row's quantity
      is the replay of the ledger entries they appended, starting from the
      quantity before them, and nothing earlier in the ledger is touched. */
  lemma {:induction false} LedgerExplainsQuantity(s: State, reqs: seq<MovementRequest>, p: int, w: int)
    requires Find(s.rows, p, w).Unique?
    requires forall k :: 0 <= k < |reqs| ==> reqs[k].productId == p && reqs[k].warehouseId == w
    ensures var t := ProcessAll(s, reqs);
            var i := Find(s.rows, p, w).index;
            Find(t.rows, p, w) == Find(s.rows, p, w)
            && |s.ledger| <= |t.ledger| && t.ledger[..|s.ledger|] == s.ledger
            && t.rows[i].quantity == Replay(s.rows[i].quantity, t.ledger[|s.ledger|..])
    decreases |reqs|
  {
    var i := Find(s.rows, p, w).index;
    if |reqs| == 0 {
      assert s.ledger[|s.ledger|..] == [];
    } else {
      var n := |reqs| - 1;
      LedgerExplainsQuantity(s, reqs[..n], p, w);
      var mid := ProcessAll(s, reqs[..n]);
      var t := ProcessAll(s, reqs);
      assert t == ProcessStockMovement(mid, reqs[n]).0;
      if ProcessStockMovement(mid, reqs[n]).1.Ok? {
        FindDependsOnPairs(mid.rows, t.rows, p, w);
        var before := mid.ledger[|s.ledger|..];
        var after := t.ledger[|s.ledger|..];
        assert after[..|after| - 1] == before;
      }
    }
  }

  /** The state after `n` back-to-back reservations of one unit each, and
      how many of them were granted. */
  function ReserveRun(s: State, p: int, w: int, n: nat): (State, nat)
    decreases n
  {
    if n == 0 then (s, 0)
    else
      var before := ReserveRun(s, p, w, n - 1);
      var after := ReserveStock(before.0, p, w, 1);
      (after.0, before.1 + if after.1 == Done(true) then 1 else 0)
  }

  /** One reservation of a single unit with the lock free: granted exactly
      when a unit is available, and then that unit moves from available to
      reserved; the pair keeps its row and the lock is free again. */
  lemma ReserveOneUnit(s: State, p: int, w: int)
    requires Valid(s) && s.cache.up && LockKey(p, w) !in s.cache.entries
    requires Find(s.rows, p, w).Unique?
    ensures var i := Find(s.rows, p, w).index;
            var (t, answer) := ReserveStock(s, p, w, 1);
            var step := if s.rows[i].available >= 1 then 1 else 0;
            |t.rows| == |s.rows| && Find(t.rows, p, w) == Find(s.rows, p, w)
            && Valid(t) && t.cache.up && LockKey(p, w) !in t.cache.entries
            && (answer == Done(true) <==> step == 1)
            && t.rows[i].reserved == s.rows[i].reserved + step
            && t.rows[i].available == s.rows[i].available - step
  {
    var i := Find(s.rows, p, w).index;
    var t := ReserveStock(s, p, w, 1).0;
    assert RowOk(s.rows[i]);
    FindDependsOnPairs(s.rows, t.rows, p, w);
  }

  /** How many of `n` one-unit reservations are granted when `available`
      units are free: all of them, or as many as there are units. */
  function GrantedOf(n: nat, available: int): nat {
    if n <= Max(0, available) then n else Max(0, available)
  }

  /** Reservations never oversell: with the lock free between calls, `n`
      one-unit reservations of a pair are granted exactly as often as there
      were units available (never more), each grant moves one unit from
      available to reserved, and the lock is free again afterwards. */
  lemma {:induction false} ReservationsNeverOversell(s: State, p: int, w: int, n: nat)
    requires Valid(s) && s.cache.up && LockKey(p, w) !in s.cache.entries
    requires Find(s.rows, p, w).Unique?
    ensures |ReserveRun(s, p, w, n).0.rows| == |s.rows|
    ensures Find(ReserveRun(s, p, w, n).0.rows, p, w) == Find(s.rows, p, w)
    ensures ReserveRun(s, p, w, n).1 == GrantedOf(n, s.rows[Find(s.rows, p, w).index].available)
    ensures ReserveRun(s, p, w, n).0.rows[Find(s.rows, p, w).index].reserved
            == s.rows[Find(s.rows, p, w).index].reserved + ReserveRun(s, p, w, n).1
    ensures ReserveRun(s, p, w, n).0.rows[Find(s.rows, p, w).index].available
            == s.rows[Find(s.rows, p, w).index].available - ReserveRun(s, p, w, n).1
    ensures Valid(ReserveRun(s, p, w, n).0)
    ensures ReserveRun(s, p, w, n).0.cache.up && LockKey(p, w) !in ReserveRun(s, p, w, n).0.cache.entries
    decreases n
  {
    if n > 0 {
      var i := Find(s.rows, p, w).index;
      ReservationsNeverOversell(s, p, w, n - 1);
      var s1 := ReserveRun(s, p, w, n - 1).0;
      var k := ReserveRun(s, p, w, n - 1).1;
      ReserveOneUnit(s1, p, w);
      var t := ReserveStock(s1, p, w, 1).0;
      var step := if s1.rows[i].available >= 1 then 1 else 0;
      assert ReserveRun(s, p, w, n).0 == t;
      assert ReserveRun(s, p, w, n).1 == k + step;
      GrantedStep(n, s.rows[i].available, k, s1.rows[i].available);
    }
  }

  /** The count of grants goes up by one exactly while a unit is left. */
  lemma GrantedStep(n: nat, available: int, k: nat, left: int)
    requires n > 0 && k == GrantedOf(n - 1, available) && left == available - k
    ensures GrantedOf(n, available) == k + if left >= 1 then 1 else 0
  {
  }
}

=== FILE: java_text.dfy ===
/** The little string arithmetic the services rely on: Java's decimal
    rendering of a `Long` (string concatenation of an id), prefix tests and
    joins of two ids with a separator.  The lemmas show that the composite
    keys built this way are injective, which is what makes one cache or lock
    key belong to exactly one (product, warehouse) pair. */
module JavaText {

  /** The decimal digit character for `d`. */
  function DigitChar(d: nat): (c: char)
    requires d < 10
    ensures '0' <= c <= '9'
  {
    ('0' as int + d) as char
  }

  /** Decimal digits of `n`, most significant first, without leading zeros. */
  function Digits(n: nat): (s: string)
    ensures |s| > 0
    ensures forall i :: 0 <= i < |s| ==> '0' <= s[i] <= '9'
    decreases n
  {
    if n < 10 then [DigitChar(n)] else Digits(n / 10) + [DigitChar(n % 10)]
  }

  /** `Long.toString(n)` as produced by string concatenation: a minus sign for
      negative values, then the digits of the magnitude. */
  function LongToString(n: int): (s: string)
    ensures |s| > 0
    ensures forall i :: 0 <= i < |s| ==> s[i] == '-' || '0' <= s[i] <= '9'
  {
    if n < 0 then "-" + Digits(-n) else Digits(n)
  }

  /** `s.startsWith(prefix)`. */
  predicate StartsWith(s: string, prefix: string) {
    |prefix| <= |s| && s[..|prefix|] == prefix
  }

  /** True when `c` occurs nowhere in `s`. */
  predicate Avoids(s: string, c: char) {
    forall i :: 0 <= i < |s| ==> s[i] != c
  }

  /** `a + sep + b` for a one-character separator. */
  function Join(a: string, sep: char, b: string): string {
    a + [sep] + b
  }

  /** Different numbers have different digit strings. */
  lemma {:induction false} DigitsInjective(a: nat, b: nat)
    requires Digits(a) == Digits(b)
    ensures a == b
    decreases a
  {
    if a >= 10 && b >= 10 {
      var da, db := Digits(a), Digits(b);
      assert da[|da| - 1] == DigitChar(a % 10);
      assert db[|db| - 1] == DigitChar(b % 10);
      assert Digits(a / 10) == da[..|da| - 1];
      assert Digits(b / 10) == db[..|db| - 1];
      DigitsInjective(a / 10, b / 10);
    }
  }

  /** The rendering starts with a minus sign exactly for negative ids. */
  lemma SignShown(n: int)
    ensures LongToString(n)[0] == '-' <==> n < 0
  {
    if n >= 0 {
      assert '0' <= Digits(n)[0] <= '9';
    }
  }

  /** In a join, the first separator sits right after the left part. */
  lemma SeparatorPosition(a: string, sep: char, b: string)
    requires Avoids(a, sep)
    ensures Join(a, sep, b)[|a|] == sep
    ensures forall i :: 0 <= i < |a| ==> Join(a, sep, b)[i] != sep
  {
  }

  /** Different ids render to different strings. */
  lemma LongToStringInjective(a: int, b: int)
    requires LongToString(a) == LongToString(b)
    ensures a == b
  {
    SignShown(a);
    SignShown(b);
    if a < 0 && b < 0 {
      assert LongToString(a)[1..] == Digits(-a);
      assert LongToString(b)[1..] == Digits(-b);
      DigitsInjective(-a, -b);
    } else if 0 <= a && 0 <= b {
      DigitsInjective(a, b);
    }
  }

  /** A join of two separator-free strings can be split back uniquely. */
  lemma {:induction false} JoinInjective(a: string, b: string, c: string, d: string, sep: char)
    requires Avoids(a, sep) && Avoids(c, sep)
    requires Join(a, sep, b) == Join(c, sep, d)
    ensures a == c && b == d
  {
    var x := Join(a, sep, b);
    SeparatorPosition(a, sep, b);
    SeparatorPosition(c, sep, d);
    assert |a| == |c|;
    assert a == x[..|a|] == c;
    assert b == x[|a| + 1..] == d;
  }

  /** Rendered ids never contain a colon. */
  lemma LongToStringAvoidsColon(n: int)
    ensures Avoids(LongToString(n), ':')
  {
  }
}

=== FILE: order_saga.dfy ===
/** `OrderService`: the order-creation saga, rollback and cancellation.

    The product and inventory services are reached through Feign clients,
    modelled here as functions over an abstract remote state `S`.  Every
    reservation and release the saga issues is recorded in a call log, with
    the answer it got; `Faithful` says the log is what the client really
    answered, call after call, starting from the given remote state. */
module OrderSaga {
  import opened Wrappers
  import opened Store
  import opened ProductClient

  datatype OrderStatus = Pending | Confirmed | Processing | Shipped | Delivered | Cancelled | Failed

  /** What a `reserveStock` call comes back with: true, false, or an
      exception (a Feign error, an error status from the inventory service,
      or a null body, which `!reserved` dereferences). */
  datatype ReserveReply = Granted | Refused | Threw

  /** The inventory service as the order service sees it: the available
      quantity of a pair (`None` when `getInventory` throws), `reserveStock`,
      and `releaseStock`, which may throw (`None`). */
  datatype InventoryClient<!S> = InventoryClient(
    available: (S, int, int) -> Option<int>,
    reserve: (S, int, int, int) -> (S, ReserveReply),
    release: (S, int, int, int) -> Option<S>)

  /** `InventoryClientFallback`: nothing is available, every reservation is
      refused and a release does nothing. */
  function FallbackClient<S>(): InventoryClient<S> {
    InventoryClient((s: S, p: int, w: int) => Some(0),
                    (s: S, p: int, w: int, q: int) => (s, Refused),
                    (s: S, p: int, w: int, q: int) => Some(s))
  }

  /** One state-changing call to the inventory service and its answer. */
  datatype InventoryCall =
    | Reserve(productId: int, warehouseId: int, quantity: int, reply: ReserveReply)
    | Release(productId: int, warehouseId: int, quantity: int, threw: bool)

  /** The remote state after one call; a release that throws changes nothing. */
  function Step<S>(client: InventoryClient<S>, s: S, c: InventoryCall): S {
    match c
    case Reserve(p, w, q, _) => client.reserve(s, p, w, q).0
    case Release(p, w, q, _) => client.release(s, p, w, q).GetOr(s)
  }

  /** The recorded answer is what the client gives in state `s`. */
  predicate Answered<S>(client: InventoryClient<S>, s: S, c: InventoryCall) {
    match c
    case Reserve(p, w, q, reply) => reply == client.reserve(s, p, w, q).1
    case Release(p, w, q, threw) => threw == client.release(s, p, w, q).None?
  }

  /** The remote state after a run of calls. */
  function RunCalls<S>(client: InventoryClient<S>, s: S, calls: seq<InventoryCall>): S
    decreases |calls|
  {
    if |calls| == 0 then s
    else Step(client, RunCalls(client, s, calls[..|calls| - 1]), calls[|calls| - 1])
  }

  /** Every recorded answer is the one the client gave at that point. */
  predicate Faithful<S>(client: InventoryClient<S>, s: S, calls: seq<InventoryCall>)
    decreases |calls|
  {
    |calls| == 0
    || (Faithful(client, s, calls[..|calls| - 1])
        && Answered(client, RunCalls(client, s, calls[..|calls| - 1]), calls[|calls| - 1]))
  }

  /** Running two logs one after the other is running their concatenation,
      and the concatenation is faithful exactly when both parts are. */
  lemma {:induction false} RunCallsAppend<S>(client: InventoryClient<S>, s: S, a: seq<InventoryCall>, b: seq<InventoryCall>)
    ensures RunCalls(client, s, a + b) == RunCalls(client, RunCalls(client, s, a), b)
    ensures Faithful(client, s, a + b) <==> Faithful(client, s, a) && Faithful(client, RunCalls(client, s, a), b)
    decreases |b|
  {
    if |b| == 0 {
      assert a + b == a;
    } else {
      assert (a + b)[..|a + b| - 1] == a + b[..|b| - 1];
      RunCallsAppend(client, s, a, b[..|b| - 1]);
    }
  }

  /** The fallback client refuses every reservation, whatever it is asked. */
  lemma {:induction false} FallbackNeverGrants<S>(s: S, calls: seq<InventoryCall>)
    requires Faithful(FallbackClient(), s, calls)
    ensures forall i :: 0 <= i < |calls| && calls[i].Reserve? ==> calls[i].reply == Refused
    decreases |calls|
  {
    if |calls| > 0 {
      FallbackNeverGrants(s, calls[..|calls| - 1]);
      assert forall i :: 0 <= i < |calls| - 1 ==> calls[..|calls| - 1][i] == calls[i];
    }
  }

  datatype OrderItemRequest = OrderItemRequest(productId: int, quantity: int)

  datatype OrderRequest = OrderRequest(
    customerId: int, warehouseId: int, items: seq<OrderItemRequest>, notes: Option<string>)

  datatype OrderItem = OrderItem(
    productId: int, productName: string, productSku: string, quantity: int, unitPrice: int, totalPrice: int)

  datatype Order = Order(
    customerId: int, warehouseId: int, status: OrderStatus, totalAmount: int,
    notes: Option<string>, items: seq<OrderItem>)

  datatype OrderItemEvent = OrderItemEvent(
    productId: int, productName: string, quantity: int, unitPrice: int, totalPrice: int)

  /** The messages the order service publishes (order numbers and
      timestamps left out). */
  datatype OrderEvent =
    | OrderCreated(orderId: int, customerId: int, warehouseId: int, totalAmount: int, items: seq<OrderItemEvent>)
    | OrderConfirmed(orderId: int, customerId: int)
    | OrderCancelled(orderId: int, customerId: int)

  /** `InventoryCallFailed` is an exception from the inventory client that
      `createOrder` lets propagate. */
  datatype OrderError = ProductNotFound | InsufficientStock | InventoryCallFailed | OrderNotFound | IllegalState

  /** Why the pricing loop rejects a line, if it does: the product check
      comes first, then the pre-check of the available quantity (asked for
      the requested product id), which fails outright when the read throws. */
  function Refusal<S>(products: int -> Option<ProductDto>, client: InventoryClient<S>, inv: S, w: int,
                      line: OrderItemRequest): Option<OrderError>
  {
    if !ProductFound(products(line.productId)) then Some(ProductNotFound)
    else if client.available(inv, line.productId, w).None? then Some(InventoryCallFailed)
    else if client.available(inv, line.productId, w).value < line.quantity then Some(InsufficientStock)
    else None
  }

  /** Every line passes the pricing loop. */
  predicate Priceable<S>(products: int -> Option<ProductDto>, client: InventoryClient<S>, inv: S, w: int,
                         lines: seq<OrderItemRequest>)
  {
    forall i :: 0 <= i < |lines| ==> Refusal(products, client, inv, w, lines[i]).None?
  }

  /** `e` is the refusal of the first line that has one: the reason the
      pricing loop stops with. */
  ghost predicate FirstRefusal<S>(products: int -> Option<ProductDto>, client: InventoryClient<S>, inv: S, w: int,
                                  lines: seq<OrderItemRequest>, e: OrderError)
  {
    exists k :: 0 <= k < |lines|
                && (forall i :: 0 <= i < k ==> Refusal(products, client, inv, w, lines[i]).None?)
                && Refusal(products, client, inv, w, lines[k]) == Some(e)
  }

  /** The first refusal is one reason, determined by the lines: two reasons
      that both pass for it are the same. */
  lemma FirstRefusalUnique<S>(products: int -> Option<ProductDto>, client: InventoryClient<S>, inv: S, w: int,
                              lines: seq<OrderItemRequest>, e: OrderError, e': OrderError)
    requires FirstRefusal(products, client, inv, w, lines, e) && FirstRefusal(products, client, inv, w, lines, e')
    ensures e == e'
  {
    var k :| 0 <= k < |lines|
             && (forall i :: 0 <= i < k ==> Refusal(products, client, inv, w, lines[i]).None?)
             && Refusal(products, client, inv, w, lines[k]) == Some(e);
    var k' :| 0 <= k' < |lines|
              && (forall i :: 0 <= i < k' ==> Refusal(products, client, inv, w, lines[i]).None?)
              && Refusal(products, client, inv, w, lines[k']) == Some(e');
  }

  /** The order line built from a found product: the product's own id, the
      requested quantity, and the product's price times that quantity. */
  function LineFor(product: ProductDto, line: OrderItemRequest): OrderItem
    requires product.id.Some?
  {
    OrderItem(product.id.value, product.name, product.sku, line.quantity, product.price, product.price * line.quantity)
  }

  /** Sum of the line totals. */
  function Sum(items: seq<OrderItem>): int
    decreases |items|
  {
    if |items| == 0 then 0 else Sum(items[..|items| - 1]) + items[|items| - 1].totalPrice
  }

  /** A product service that is down prices every line at zero. */
  lemma FallbackProductIsFree(line: OrderItemRequest)
    ensures LineFor(ProductFallback(line.productId), line).totalPrice == 0
    ensures LineFor(ProductFallback(line.productId), line).productId == line.productId
  {
  }

  /** The pricing loop of `createOrder`: stops at the first rejected line,
      otherwise builds one order line per request line. */
  method PriceItems<S>(products: int -> Option<ProductDto>, client: InventoryClient<S>, inv: S, w: int,
                       lines: seq<OrderItemRequest>)
    returns (r: Result<seq<OrderItem>, OrderError>)
    ensures r.Ok? <==> Priceable(products, client, inv, w, lines)
    ensures r.Ok? ==> |r.value| == |lines|
    ensures r.Ok? ==> forall i :: 0 <= i < |lines| ==>
              r.value[i] == LineFor(products(lines[i].productId).value, lines[i])
    ensures r.Err? ==> FirstRefusal(products, client, inv, w, lines, r.error)
  {
    var priced: seq<OrderItem> := [];
    var i := 0;
    while i < |lines|
      invariant 0 <= i <= |lines| && |priced| == i
      invariant forall j :: 0 <= j < i ==> Refusal(products, client, inv, w, lines[j]).None?
      invariant forall j :: 0 <= j < i ==> priced[j] == LineFor(products(lines[j].productId).value, lines[j])
    {
      var reply := products(lines[i].productId);
      if reply.None? || reply.value.id.None? {
        return Err(ProductNotFound);
      }
      var stock := client.available(inv, lines[i].productId, w);
      if stock.None? {
        return Err(InventoryCallFailed);
      }
      if stock.value < lines[i].quantity {
        return Err(InsufficientStock);
      }
      priced := priced + [LineFor(reply.value, lines[i])];
      i := i + 1;
    }
    return Ok(priced);
  }

  /** Reference definition: the log of reservations that were all granted,
      one per line, in order.  `ReserveInventory`'s contract and the holding
      lemmas are stated against it. */
  function GrantedReserves(items: seq<OrderItem>, w: int): (r: seq<InventoryCall>)
    ensures |r| == |items|
    ensures forall i :: 0 <= i < |items| ==> r[i] == Reserve(items[i].productId, w, items[i].quantity, Granted)
  {
    seq(|items|, i requires 0 <= i < |items| => Reserve(items[i].productId, w, items[i].quantity, Granted))
  }

  /** The log is one release per line, in order (each may have thrown). */
  predicate ReleasesAll(calls: seq<InventoryCall>, items: seq<OrderItem>, w: int) {
    |calls| == |items|
    && forall i :: 0 <= i < |items| ==>
         calls[i].Release? && calls[i].productId == items[i].productId
         && calls[i].warehouseId == w && calls[i].quantity == items[i].quantity
  }

  /** The log of a reservation run refused at line `k`: the lines before it
      granted, line `k` refused, no later line tried, then a release of
      every line of the order. */
  predicate RolledBackAt(calls: seq<InventoryCall>, items: seq<OrderItem>, w: int, k: nat) {
    k < |items| && k + 1 <= |calls|
    && calls[..k] == GrantedReserves(items[..k], w)
    && calls[k] == Reserve(items[k].productId, w, items[k].quantity, Refused)
    && ReleasesAll(calls[k + 1..], items, w)
  }

  /** The log of a reservation run cut short by an exception at line `k`:
      the lines before it granted, line `k` threw, and nothing else, so no
      line granted before it is released. */
  predicate AbandonedAt(calls: seq<InventoryCall>, items: seq<OrderItem>, w: int, k: nat) {
    k < |items| && |calls| == k + 1
    && calls[..k] == GrantedReserves(items[..k], w)
    && calls[k] == Reserve(items[k].productId, w, items[k].quantity, Threw)
  }

  /** How a reservation run ended. */
  datatype Reservation = AllReserved | RefusedAt(k: nat) | ThrewAt(k: nat)

  /** `rollbackInventoryReservation`: releases every line, swallowing
      exceptions and carrying on with the next line. */
  method RollbackInventoryReservation<S>(client: InventoryClient<S>, inv: S, items: seq<OrderItem>, w: int)
    returns (inv': S, calls: seq<InventoryCall>)
    ensures ReleasesAll(calls, items, w)
    ensures Faithful(client, inv, calls) && RunCalls(client, inv, calls) == inv'
  {
    inv', calls := inv, [];
    var i := 0;
    while i < |items|
      invariant 0 <= i <= |items| && ReleasesAll(calls, items[..i], w)
      invariant Faithful(client, inv, calls) && RunCalls(client, inv, calls) == inv'
    {
      var outcome := client.release(inv', items[i].productId, w, items[i].quantity);
      var c := Release(items[i].productId, w, items[i].quantity, outcome.None?);
      assert (calls + [c])[..|calls|] == calls;
      calls := calls + [c];
      inv' := outcome.GetOr(inv');
      i := i + 1;
    }
    assert items[..i] == items;
  }

  /** `reserveInventory`: reserves line by line; at the first refusal it
      rolls back the whole order and answers false.  An exception from a
      reservation leaves the loop at once, with no rollback. */
  method ReserveInventory<S>(client: InventoryClient<S>, inv: S, items: seq<OrderItem>, w: int)
    returns (outcome: Reservation, inv': S, calls: seq<InventoryCall>)
    ensures Faithful(client, inv, calls) && RunCalls(client, inv, calls) == inv'
    ensures outcome.AllReserved? ==> calls == GrantedReserves(items, w)
    ensures outcome.RefusedAt? ==> RolledBackAt(calls, items, w, outcome.k)
    ensures outcome.ThrewAt? ==> AbandonedAt(calls, items, w, outcome.k)
  {
    inv', calls := inv, [];
    var i := 0;
    while i < |items|
      invariant 0 <= i <= |items|
      invariant calls == GrantedReserves(items[..i], w)
      invariant Faithful(client, inv, calls) && RunCalls(client, inv, calls) == inv'
    {
      var answer := client.reserve(inv', items[i].productId, w, items[i].quantity);
      var c := Reserve(items[i].productId, w, items[i].quantity, answer.1);
      assert (calls + [c])[..|calls|] == calls;
      calls := calls + [c];
      inv' := answer.0;
      if answer.1 == Threw {
        return ThrewAt(i), inv', calls;
      }
      if answer.1 == Refused {
        var rolled, releases := RollbackInventoryReservation(client, inv', items, w);
        RunCallsAppend(client, inv, calls, releases);
        assert (calls + releases)[..i] == GrantedReserves(items[..i], w);
        assert (calls + releases)[i + 1..] == releases;
        return RefusedAt(i), rolled, calls + releases;
      }
      assert GrantedReserves(items[..i + 1], w) == GrantedReserves(items[..i], w) + [c];
      i := i + 1;
    }
    assert items[..i] == items;
    return AllReserved, inv', calls;
  }

  /** Reference definition: the item list of the `OrderCreated` message,
      one event per order line, in order.  `CreateOrder`'s contract is
      stated against it. */
  function ItemEvents(items: seq<OrderItem>): (r: seq<OrderItemEvent>)
    ensures |r| == |items|
    ensures forall i :: 0 <= i < |items| ==>
              r[i] == OrderItemEvent(items[i].productId, items[i].productName, items[i].quantity,
                                     items[i].unitPrice, items[i].totalPrice)
  {
    seq(|items|, i requires 0 <= i < |items| =>
      OrderItemEvent(items[i].productId, items[i].productName, items[i].quantity, items[i].unitPrice, items[i].totalPrice))
  }

  /** `createOrder`.  A rejected line aborts before anything is saved or
      reserved.  Otherwise the order is saved PENDING with its priced lines
      and total, the lines are reserved, and the order is saved again as
      FAILED (reservation refused: everything released, nothing published)
      or CONFIRMED (created and confirmed messages published, in that
      order); a reservation that throws ends the call with the order left
      PENDING and the lines granted so far still reserved.  `saves` lists
      the statuses written, `orderId` the row used.  The saves are kept as
      written: the transaction rollback that discards them when the call
      throws is not part of this model. */
  method CreateOrder<S>(products: int -> Option<ProductDto>, client: InventoryClient<S>, inv: S,
                        orders: IdTable<Order>, events: seq<OrderEvent>, req: OrderRequest)
    returns (r: Result<int, OrderError>, orderId: Option<int>, inv': S, orders': IdTable<Order>,
             events': seq<OrderEvent>, calls: seq<InventoryCall>, saves: seq<OrderStatus>)
    ensures Faithful(client, inv, calls) && RunCalls(client, inv, calls) == inv'
    ensures orderId.None? <==> !Priceable(products, client, inv, req.warehouseId, req.items)
    ensures orderId.None? ==>
              r.Err? && r.error in {ProductNotFound, InsufficientStock, InventoryCallFailed}
              && FirstRefusal(products, client, inv, req.warehouseId, req.items, r.error)
              && orders' == orders && events' == events && calls == [] && saves == [] && inv' == inv
    ensures orderId.Some? ==>
              var id := orderId.value;
              id !in orders.rows && id in orders'.rows
              && orders'.rows == orders.rows[id := orders'.rows[id]]
              && var o := orders'.rows[id];
              o.customerId == req.customerId && o.warehouseId == req.warehouseId && o.notes == req.notes
              && |o.items| == |req.items|
              && (forall i :: 0 <= i < |req.items| ==>
                    o.items[i] == LineFor(products(req.items[i].productId).value, req.items[i]))
              && o.totalAmount == Sum(o.items)
              && (r.Ok? ==>
                    r.value == id && o.status == Confirmed && saves == [Pending, Confirmed]
                    && calls == GrantedReserves(o.items, req.warehouseId)
                    && events' == events + [OrderCreated(id, req.customerId, req.warehouseId, o.totalAmount, ItemEvents(o.items)),
                                            OrderConfirmed(id, req.customerId)])
              && (r.Err? ==> r.error in {InsufficientStock, InventoryCallFailed} && events' == events)
              && (r == Err(InsufficientStock) ==>
                    o.status == Failed && saves == [Pending, Failed]
                    && exists k :: RolledBackAt(calls, o.items, req.warehouseId, k))
              && (r == Err(InventoryCallFailed) ==>
                    o.status == Pending && saves == [Pending]
                    && exists k :: AbandonedAt(calls, o.items, req.warehouseId, k))
  {
    var priced := PriceItems(products, client, inv, req.warehouseId, req.items);
    if priced.Err? {
      return Err(priced.error), None, inv, orders, events, [], [];
    }
    var items := priced.value;
    var order := Order(req.customerId, req.warehouseId, Pending, Sum(items), req.notes, items);
    var (table, id) := Insert(orders, order);
    var outcome, next, log := ReserveInventory(client, inv, items, req.warehouseId);
    if outcome.ThrewAt? {
      return Err(InventoryCallFailed), Some(id), next, table, events, log, [Pending];
    }
    if outcome.RefusedAt? {
      var failed := Put(table, id, order.(status := Failed));
      return Err(InsufficientStock), Some(id), next, failed, events, log, [Pending, Failed];
    }
    var confirmed := order.(status := Confirmed);
    var done := Put(table, id, confirmed);
    var published := events + [OrderCreated(id, req.customerId, req.warehouseId, confirmed.totalAmount, ItemEvents(items)),
                               OrderConfirmed(id, req.customerId)];
    return Ok(id), Some(id), next, done, published, log, [Pending, Confirmed];
  }

  /** With the inventory fallback in place, no order with lines is ever
      confirmed: a confirmed order's log is all granted reservations, and
      the fallback grants none. */
  lemma FallbackConfirmsNothing<S>(s: S, items: seq<OrderItem>, w: int)
    requires Faithful(FallbackClient(), s, GrantedReserves(items, w))
    ensures |items| == 0
  {
    FallbackNeverGrants(s, GrantedReserves(items, w));
  }

  /** The statuses `cancelOrder` accepts. */
  predicate Cancellable(status: OrderStatus) {
    status != Shipped && status != Delivered
  }

  /** `updateOrderStatus`: sets any status, with no transition check. */
  function UpdateOrderStatus(orders: IdTable<Order>, id: int, status: OrderStatus): (r: Result<IdTable<Order>, OrderError>)
    ensures r.Err? <==> id !in orders.rows
    ensures r.Err? ==> r.error == OrderNotFound
    ensures r.Ok? ==> r.value.rows == orders.rows[id := orders.rows[id].(status := status)]
  {
    if id !in orders.rows then Err(OrderNotFound)
    else Ok(Put(orders, id, orders.rows[id].(status := status)))
  }

  /** `cancelOrder`: an unknown id or a shipped or delivered order is
      refused with nothing changed.  Every other order, including one that
      already failed or was cancelled, has all its lines released again, is
      saved CANCELLED and a cancelled message is published. */
  method CancelOrder<S>(client: InventoryClient<S>, inv: S, orders: IdTable<Order>, events: seq<OrderEvent>, id: int)
    returns (r: Result<(), OrderError>, inv': S, orders': IdTable<Order>, events': seq<OrderEvent>,
             calls: seq<InventoryCall>)
    ensures Faithful(client, inv, calls) && RunCalls(client, inv, calls) == inv'
    ensures id !in orders.rows ==>
              r == Err(OrderNotFound) && orders' == orders && events' == events && calls == []
    ensures id in orders.rows && !Cancellable(orders.rows[id].status) ==>
              r == Err(IllegalState) && orders' == orders && events' == events && calls == []
    ensures id in orders.rows && Cancellable(orders.rows[id].status) ==>
              var o := orders.rows[id];
              r == Ok(())
              && ReleasesAll(calls, o.items, o.warehouseId)
              && orders'.rows == orders.rows[id := o.(status := Cancelled)]
              && events' == events + [OrderCancelled(id, o.customerId)]
  {
    if id !in orders.rows {
      return Err(OrderNotFound), inv, orders, events, [];
    }
    var o := orders.rows[id];
    if o.status == Shipped || o.status == Delivered {
      return Err(IllegalState), inv, orders, events, [];
    }
    var next, log := RollbackInventoryReservation(client, inv, o.items, o.warehouseId);
    return Ok(()), next, Put(orders, id, o.(status := Cancelled)), events + [OrderCancelled(id, o.customerId)], log;
  }

  /** `updateOrderStatus` alone decides whether a later cancellation goes
      ahead: after a move to SHIPPED or DELIVERED it is refused, after a move
      to any other status (CANCELLED back to PENDING included) it is
      accepted, and it releases the same lines at the same warehouse. */
  lemma StatusUpdateDecidesCancellation(orders: IdTable<Order>, id: int, status: OrderStatus)
    requires id in orders.rows
    ensures UpdateOrderStatus(orders, id, status).Ok?
    ensures var o := UpdateOrderStatus(orders, id, status).value.rows[id];
            (Cancellable(o.status) <==> status != Shipped && status != Delivered)
            && o.items == orders.rows[id].items && o.warehouseId == orders.rows[id].warehouseId
            && o.customerId == orders.rows[id].customerId
  {
  }

  /** The net quantity of pair (p, w) that a log holds on the inventory
      service: a granted reservation adds its quantity, a release that did
      not throw takes its quantity away. */
  function Held(calls: seq<InventoryCall>, p: int, w: int): int
    decreases |calls|
  {
    if |calls| == 0 then 0
    else
      var c := calls[|calls| - 1];
      Held(calls[..|calls| - 1], p, w)
      + if c.productId != p || c.warehouseId != w then 0
        else match c
          case Reserve(_, _, q, reply) => if reply == Granted then q else 0
          case Release(_, _, q, threw) => if threw then 0 else -q
  }

  /** The quantity the lines of an order ask of product `p`. */
  function Demand(items: seq<OrderItem>, p: int): int
    decreases |items|
  {
    if |items| == 0 then 0
    else Demand(items[..|items| - 1], p) + if items[|items| - 1].productId == p then items[|items| - 1].quantity else 0
  }

  /** No release in the log threw. */
  predicate NoReleaseThrew(calls: seq<InventoryCall>) {
    forall i :: 0 <= i < |calls| && calls[i].Release? ==> !calls[i].threw
  }

  lemma {:induction false} HeldAppend(a: seq<InventoryCall>, b: seq<InventoryCall>, p: int, w: int)
    ensures Held(a + b, p, w) == Held(a, p, w) + Held(b, p, w)
    decreases |b|
  {
    if |b| == 0 {
      assert a + b == a;
    } else {
      assert (a + b)[..|a + b| - 1] == a + b[..|b| - 1];
      HeldAppend(a, b[..|b| - 1], p, w);
    }
  }

  lemma {:induction false} DemandAppend(a: seq<OrderItem>, b: seq<OrderItem>, p: int)
    ensures Demand(a + b, p) == Demand(a, p) + Demand(b, p)
    decreases |b|
  {
    if |b| == 0 {
      assert a + b == a;
    } else {
      assert (a + b)[..|a + b| - 1] == a + b[..|b| - 1];
      DemandAppend(a, b[..|b| - 1], p);
    }
  }

  /** A run of granted reservations holds each product's demand at the
      order's warehouse, and nothing anywhere else. */
  lemma {:induction false} HeldByGrants(items: seq<OrderItem>, w: int, p: int, w2: int)
    ensures Held(GrantedReserves(items, w), p, w2) == if w2 == w then Demand(items, p) else 0
    decreases |items|
  {
    if |items| > 0 {
      var n := |items|;
      assert GrantedReserves(items, w)[..n - 1] == GrantedReserves(items[..n - 1], w);
      HeldByGrants(items[..n - 1], w, p, w2);
    }
  }

  /** A release of every line, none of them throwing, gives back each
      product's demand at the order's warehouse. */
  lemma {:induction false} HeldByReleases(calls: seq<InventoryCall>, items: seq<OrderItem>, w: int, p: int, w2: int)
    requires ReleasesAll(calls, items, w) && NoReleaseThrew(calls)
    ensures Held(calls, p, w2) == if w2 == w then -Demand(items, p) else 0
    decreases |items|
  {
    if |items| > 0 {
      var n := |items|;
      var front := calls[..n - 1];
      assert ReleasesAll(front, items[..n - 1], w);
      assert NoReleaseThrew(front) by {
        forall i | 0 <= i < |front| && front[i].Release?
          ensures !front[i].threw
        {
          assert front[i] == calls[i];
        }
      }
      HeldByReleases(front, items[..n - 1], w, p, w2);
      assert calls[n - 1].Release? && !calls[n - 1].threw;
    }
  }

  /** Cancelling an order that `createOrder` confirmed gives back exactly
      what its reservations took: when no release throws, the confirmation's
      reservations and the cancellation's releases together hold nothing of
      any pair. */
  lemma CancelUndoesConfirmation(items: seq<OrderItem>, w: int, released: seq<InventoryCall>, p: int, w2: int)
    requires ReleasesAll(released, items, w) && NoReleaseThrew(released)
    ensures Held(GrantedReserves(items, w) + released, p, w2) == 0
  {
    HeldAppend(GrantedReserves(items, w), released, p, w2);
    HeldByGrants(items, w, p, w2);
    HeldByReleases(released, items, w, p, w2);
  }

  /** Cancelling twice (a CANCELLED order is still cancellable) releases the
      order's lines a second time: the pair ends up giving back a demand it
      no longer held. */
  lemma SecondCancelOverReleases(items: seq<OrderItem>, w: int, first: seq<InventoryCall>,
                                 second: seq<InventoryCall>, p: int)
    requires ReleasesAll(first, items, w) && NoReleaseThrew(first)
    requires ReleasesAll(second, items, w) && NoReleaseThrew(second)
    ensures Held(GrantedReserves(items, w) + first + second, p, w) == -Demand(items, p)
  {
    HeldAppend(GrantedReserves(items, w) + first, second, p, w);
    CancelUndoesConfirmation(items, w, first, p, w);
    HeldByReleases(second, items, w, p, w);
  }

  /** The rollback after a refusal at line `k` gives back more than the run
      took: the refused line and the lines never tried are released too, so
      the run as a whole holds minus their demand. */
  lemma RollbackOverReleases(calls: seq<InventoryCall>, items: seq<OrderItem>, w: int, k: nat, p: int)
    requires RolledBackAt(calls, items, w, k) && NoReleaseThrew(calls)
    ensures Held(calls, p, w) == -Demand(items[k..], p)
  {
    var tail := calls[k + 1..];
    assert calls == calls[..k] + [calls[k]] + tail;
    assert NoReleaseThrew(tail) by {
      forall i | 0 <= i < |tail| && tail[i].Release?
        ensures !tail[i].threw
      {
        assert tail[i] == calls[k + 1 + i];
      }
    }
    var head := calls[..k] + [calls[k]];
    HeldAppend(head, tail, p, w);
    HeldAppend(calls[..k], [calls[k]], p, w);
    assert Held([calls[k]], p, w) == 0 by {
      assert [calls[k]][..0] == [];
    }
    HeldByGrants(items[..k], w, p, w);
    assert Held(head, p, w) == Demand(items[..k], p);
    HeldByReleases(tail, items, w, p, w);
    assert Held(tail, p, w) == -Demand(items, p);
    assert items == items[..k] + items[k..];
    DemandAppend(items[..k], items[k..], p);
  }

  /** An exception during the reservation run leaves every line granted
      before it reserved: nothing is given back. */
  lemma ThrowKeepsGrants(calls: seq<InventoryCall>, items: seq<OrderItem>, w: int, k: nat, p: int)
    requires AbandonedAt(calls, items, w, k)
    ensures Held(calls, p, w) == Demand(items[..k], p)
  {
    assert calls == calls[..k] + [calls[k]];
    HeldAppend(calls[..k], [calls[k]], p, w);
    HeldByGrants(items[..k], w, p, w);
  }
}

=== FILE: product_client.dfy ===
/** The product service as its Feign clients see it.  The order service and
    the supplier service each declare the same client and the same fallback:
    a reply that may be null as a whole and whose id may be null. */
module ProductClient {
  import opened Wrappers

  /** What the product service answers for one id. */
  datatype ProductDto = ProductDto(id: Option<int>, name: string, sku: string, price: int)

  /** A reply is present and carries an id. */
  predicate ProductFound(reply: Option<ProductDto>) {
    reply.Some? && reply.value.id.Some?
  }

  /** `ProductClientFallback`: keeps the requested id, names the product
      "Product Unavailable" and prices it at zero, so a product service that
      is down passes every not-found check. */
  function ProductFallback(id: int): (r: ProductDto)
    ensures ProductFound(Some(r)) && r.id == Some(id) && r.price == 0
  {
    ProductDto(Some(id), "Product Unavailable", "N/A", 0)
  }
}

=== FILE: products.dfy ===
/** `ProductService`: the product catalogue with its SKU and barcode
    duplicate checks.  The `Product` entity is not part of this model, so no
    database-level unique constraint is modelled: uniqueness is whatever the
    service's own checks give. */
module Products {
  import opened Wrappers
  import opened Store

  datatype Product = Product(
    name: string, description: Option<string>, sku: string, barcode: Option<string>, price: int,
    category: Option<string>, brand: Option<string>, unit: Option<string>, active: bool)

  datatype ProductRequest = ProductRequest(
    name: string, description: Option<string>, sku: string, barcode: Option<string>, price: int,
    category: Option<string>, brand: Option<string>, unit: Option<string>, active: Option<bool>)

  /** `SkuTaken` and `BarcodeTaken` are `ProductAlreadyExistsException`. */
  datatype ProductError = ProductNotFound | SkuTaken | BarcodeTaken

  /** The SKU column (never null). */
  function Sku(p: Product): Option<string> {
    Some(p.sku)
  }

  /** The barcode column (may be null). */
  function Barcode(p: Product): Option<string> {
    p.barcode
  }

  /** The product holds the request's descriptive fields (all but `active`). */
  predicate Mirrors(p: Product, req: ProductRequest) {
    p.name == req.name && p.description == req.description && p.sku == req.sku
    && p.barcode == req.barcode && p.price == req.price && p.category == req.category
    && p.brand == req.brand && p.unit == req.unit
  }

  /** `createProduct`: a taken SKU is refused, then a taken barcode (only
      when the request has one).  A new product is active unless the request
      says otherwise. */
  function CreateProduct(t: IdTable<Product>, req: ProductRequest): (r: Result<(IdTable<Product>, int), ProductError>)
    ensures ExistsBy(t.rows, Sku, req.sku) ==> r == Err(SkuTaken)
    ensures !ExistsBy(t.rows, Sku, req.sku) && req.barcode.Some? && ExistsBy(t.rows, Barcode, req.barcode.value) ==>
              r == Err(BarcodeTaken)
    ensures r.Ok? <==> !ExistsBy(t.rows, Sku, req.sku)
                       && (req.barcode.None? || !ExistsBy(t.rows, Barcode, req.barcode.value))
    ensures r.Ok? ==>
              var (t', id) := r.value;
              id !in t.rows && id in t'.rows && t'.rows == t.rows[id := t'.rows[id]]
              && Mirrors(t'.rows[id], req)
              && (t'.rows[id].active <==> req.active != Some(false))
  {
    if ExistsBy(t.rows, Sku, req.sku) then Err(SkuTaken)
    else if req.barcode.Some? && ExistsBy(t.rows, Barcode, req.barcode.value) then Err(BarcodeTaken)
    else
      var p := Product(req.name, req.description, req.sku, req.barcode, req.price, req.category,
                       req.brand, req.unit, req.active.GetOr(true));
      Ok(Insert(t, p))
  }

  /** `getProductById`. */
  function GetProduct(t: IdTable<Product>, id: int): (r: Result<Product, ProductError>)
    ensures r.Err? <==> id !in t.rows
    ensures r.Err? ==> r.error == ProductNotFound
    ensures r.Ok? ==> id in t.rows && t.rows[id] == r.value
  {
    if id in t.rows then Ok(t.rows[id]) else Err(ProductNotFound)
  }

  /** `updateProduct`: an unknown id is refused, and so is a change of SKU
      to one already taken; the barcode is not checked.  The active flag is
      overwritten only when the request carries one. */
  function UpdateProduct(t: IdTable<Product>, id: int, req: ProductRequest): (r: Result<IdTable<Product>, ProductError>)
    ensures r == Err(ProductNotFound) <==> id !in t.rows
    ensures r == Err(SkuTaken) <==> id in t.rows && t.rows[id].sku != req.sku && ExistsBy(t.rows, Sku, req.sku)
    ensures r != Err(BarcodeTaken)
    ensures r.Ok? ==>
              id in t.rows && r.value.rows.Keys == t.rows.Keys
              && Mirrors(r.value.rows[id], req)
              && r.value.rows[id].active == req.active.GetOr(t.rows[id].active)
              && forall other :: other in t.rows && other != id ==> r.value.rows[other] == t.rows[other]
  {
    if id !in t.rows then Err(ProductNotFound)
    else if t.rows[id].sku != req.sku && ExistsBy(t.rows, Sku, req.sku) then Err(SkuTaken)
    else
      var p := t.rows[id];
      Ok(Put(t, id, Product(req.name, req.description, req.sku, req.barcode, req.price, req.category,
                            req.brand, req.unit, req.active.GetOr(p.active))))
  }

  /** `deleteProduct`. */
  function DeleteProduct(t: IdTable<Product>, id: int): (r: Result<IdTable<Product>, ProductError>)
    ensures r.Err? <==> id !in t.rows
    ensures r.Err? ==> r.error == ProductNotFound
    ensures r.Ok? ==> r.value.rows.Keys == t.rows.Keys - {id}
                      && forall other :: other in r.value.rows ==> r.value.rows[other] == t.rows[other]
  {
    if id !in t.rows then Err(ProductNotFound) else Ok(Remove(t, id))
  }

  /** The service's checks keep SKUs unique through creates, updates and
      deletes. */
  lemma SkuStaysUnique(t: IdTable<Product>, id: int, req: ProductRequest)
    requires UniqueIn(t.rows, Sku)
    ensures CreateProduct(t, req).Ok? ==> UniqueIn(CreateProduct(t, req).value.0.rows, Sku)
    ensures UpdateProduct(t, id, req).Ok? ==> UniqueIn(UpdateProduct(t, id, req).value.rows, Sku)
    ensures DeleteProduct(t, id).Ok? ==> UniqueIn(DeleteProduct(t, id).value.rows, Sku)
  {
    if CreateProduct(t, req).Ok? {
      var (t', nid) := CreateProduct(t, req).value;
      InsertKeepsUnique(t.rows, Sku, nid, t'.rows[nid]);
    }
    if UpdateProduct(t, id, req).Ok? {
      var p := UpdateProduct(t, id, req).value.rows[id];
      if t.rows[id].sku == req.sku {
        assert Sku(p) == Sku(t.rows[id]);
      }
      SaveKeepsUnique(t.rows, Sku, id, p);
    }
  }

  /** Creating a product keeps non-null barcodes unique. */
  lemma CreateKeepsBarcodesUnique(t: IdTable<Product>, req: ProductRequest)
    requires UniqueIn(t.rows, Barcode)
    ensures CreateProduct(t, req).Ok? ==> UniqueIn(CreateProduct(t, req).value.0.rows, Barcode)
  {
    if CreateProduct(t, req).Ok? {
      var (t', nid) := CreateProduct(t, req).value;
      InsertKeepsUnique(t.rows, Barcode, nid, t'.rows[nid]);
    }
  }

  /** The barcode check that `updateProduct` leaves out: an update may give
      a product another product's barcode, and it goes through. */
  lemma UpdateCanDuplicateBarcode(t: IdTable<Product>, id: int, other: int, req: ProductRequest)
    requires id in t.rows && other in t.rows && other != id
    requires req.sku == t.rows[id].sku && req.barcode.Some? && req.barcode == t.rows[other].barcode
    ensures UpdateProduct(t, id, req).Ok?
    ensures !UniqueIn(UpdateProduct(t, id, req).value.rows, Barcode)
  {
    var rows := UpdateProduct(t, id, req).value.rows;
    assert Barcode(rows[id]) == Barcode(rows[other]);
  }

  /** `getProductById` reads back what the other operations wrote: a created
      product under its new key, an updated product with the request's
      fields, nothing after a delete, and every other product unchanged. */
  lemma ReadsFollowWrites(t: IdTable<Product>, id: int, other: int, req: ProductRequest)
    requires other != id
    ensures CreateProduct(t, req).Ok? ==>
              var (t', nid) := CreateProduct(t, req).value;
              GetProduct(t', nid).Ok? && Mirrors(GetProduct(t', nid).value, req)
              && GetProduct(t, nid) == Err(ProductNotFound)
              && (other != nid ==> GetProduct(t', other) == GetProduct(t, other))
    ensures UpdateProduct(t, id, req).Ok? ==>
              var t' := UpdateProduct(t, id, req).value;
              GetProduct(t', id).Ok? && Mirrors(GetProduct(t', id).value, req)
              && GetProduct(t', other) == GetProduct(t, other)
    ensures DeleteProduct(t, id).Ok? ==>
              var t' := DeleteProduct(t, id).value;
              GetProduct(t, id).Ok? && GetProduct(t', id) == Err(ProductNotFound)
              && GetProduct(t', other) == GetProduct(t, other)
  {
  }
}

=== FILE: purchase_orders.dfy ===
/** `PurchaseOrderService`: purchase orders raised against a supplier, the
    receipt of their items and the status those receipts derive.

    Item rows get their identity keys from the `purchase_order_items` table,
    so the repository carries the next item key next to the orders. */
module PurchaseOrders {
  import opened Wrappers
  import opened Store
  import opened ProductClient
  import Suppliers

  datatype PurchaseOrderStatus = Draft | Pending | Approved | Ordered | PartiallyReceived | Received | Cancelled

  /** One line of a purchase order; `productId` is whatever id the product
      service answered with. */
  datatype PurchaseOrderItem = PurchaseOrderItem(
    id: int, productId: Option<int>, productName: string, productSku: string,
    ordered: int, received: int, unitPrice: int, totalPrice: int)

  /** A purchase order (number and dates left out). */
  datatype PurchaseOrder = PurchaseOrder(
    supplierId: int, warehouseId: int, status: PurchaseOrderStatus, totalAmount: int,
    notes: Option<string>, items: seq<PurchaseOrderItem>)

  datatype Repository = Repository(orders: IdTable<PurchaseOrder>, nextItemId: int)

  datatype PurchaseOrderItemRequest = PurchaseOrderItemRequest(productId: int, quantity: int)

  datatype PurchaseOrderRequest = PurchaseOrderRequest(
    supplierId: int, warehouseId: int, items: seq<PurchaseOrderItemRequest>, notes: Option<string>)

  /** `NullProduct` is the `NullPointerException` thrown when the product
      client answers null. */
  datatype PurchaseOrderError = SupplierNotFound | PurchaseOrderNotFound | ItemNotFound | IllegalState | NullProduct

  /** The line built for one requested item from the product's reply: copied
      product fields, nothing received yet, price times quantity. */
  function LineFor(id: int, product: ProductDto, line: PurchaseOrderItemRequest): PurchaseOrderItem {
    PurchaseOrderItem(id, product.id, product.name, product.sku, line.quantity, 0,
                      product.price, product.price * line.quantity)
  }

  /** Sum of the line totals. */
  function Sum(items: seq<PurchaseOrderItem>): int
    decreases |items|
  {
    if |items| == 0 then 0 else Sum(items[..|items| - 1]) + items[|items| - 1].totalPrice
  }

  /** The lines of a new purchase order: consecutive fresh item keys from
      `base`, nothing received yet. */
  predicate FreshLines(items: seq<PurchaseOrderItem>, base: int) {
    forall i :: 0 <= i < |items| ==> items[i].id == base + i && items[i].received == 0
  }

  /** Every requested product gets a (non-null) reply. */
  predicate AllAnswered(products: int -> Option<ProductDto>, lines: seq<PurchaseOrderItemRequest>) {
    forall i :: 0 <= i < |lines| ==> products(lines[i].productId).Some?
  }

  /** `createPurchaseOrder`: an unknown supplier is refused; a null product
      reply throws before anything is saved.  Otherwise a DRAFT order is
      saved whose lines are priced from the product replies and numbered
      with fresh item keys, and whose total is the sum of the lines. */
  method CreatePurchaseOrder(products: int -> Option<ProductDto>, suppliers: IdTable<Suppliers.Supplier>,
                             repo: Repository, req: PurchaseOrderRequest)
    returns (r: Result<int, PurchaseOrderError>, repo': Repository)
    ensures req.supplierId !in suppliers.rows ==> r == Err(SupplierNotFound) && repo' == repo
    ensures req.supplierId in suppliers.rows && !AllAnswered(products, req.items) ==>
              r == Err(NullProduct) && repo' == repo
    ensures r.Ok? <==> req.supplierId in suppliers.rows && AllAnswered(products, req.items)
    ensures r.Ok? ==>
              var id := r.value;
              id !in repo.orders.rows && id in repo'.orders.rows
              && repo'.orders.rows == repo.orders.rows[id := repo'.orders.rows[id]]
              && repo'.nextItemId == repo.nextItemId + |req.items|
              && var po := repo'.orders.rows[id];
              po.supplierId == req.supplierId && po.warehouseId == req.warehouseId
              && po.notes == req.notes && po.status == Draft
              && |po.items| == |req.items| && FreshLines(po.items, repo.nextItemId)
              && (forall i :: 0 <= i < |req.items| ==>
                    po.items[i].id == repo.nextItemId + i
                    && po.items[i].received == 0
                    && po.items[i].ordered == req.items[i].quantity
                    && po.items[i].productId == products(req.items[i].productId).value.id
                    && po.items[i].unitPrice == products(req.items[i].productId).value.price
                    && po.items[i].totalPrice == po.items[i].unitPrice * req.items[i].quantity)
              && po.totalAmount == Sum(po.items)
  {
    if req.supplierId !in suppliers.rows {
      return Err(SupplierNotFound), repo;
    }
    var items: seq<PurchaseOrderItem> := [];
    var total := 0;
    var i := 0;
    while i < |req.items|
      invariant 0 <= i <= |req.items| && |items| == i
      invariant forall j :: 0 <= j < i ==> products(req.items[j].productId).Some?
      invariant forall j :: 0 <= j < i ==>
                  items[j] == LineFor(repo.nextItemId + j, products(req.items[j].productId).value, req.items[j])
      invariant total == Sum(items)
    {
      var reply := products(req.items[i].productId);
      if reply.None? {
        return Err(NullProduct), repo;
      }
      var item := LineFor(repo.nextItemId + i, reply.value, req.items[i]);
      assert (items + [item])[..i] == items;
      items := items + [item];
      total := total + item.totalPrice;
      i := i + 1;
    }
    var po := PurchaseOrder(req.supplierId, req.warehouseId, Draft, total, req.notes, items);
    var (table, id) := Insert(repo.orders, po);
    return Ok(id), Repository(table, repo.nextItemId + |req.items|);
  }

  /** Every item has been received in exactly the ordered quantity. */
  predicate AllReceived(items: seq<PurchaseOrderItem>) {
    forall i :: 0 <= i < |items| ==> items[i].received == items[i].ordered
  }

  /** Some item has a positive received count. */
  predicate AnyReceived(items: seq<PurchaseOrderItem>) {
    exists i :: 0 <= i < |items| && items[i].received > 0
  }

  /** The status a receipt leaves: RECEIVED when every count matches,
      otherwise PARTIALLY_RECEIVED when anything has arrived, otherwise the
      status the order already had. */
  function DeriveStatus(current: PurchaseOrderStatus, items: seq<PurchaseOrderItem>): PurchaseOrderStatus {
    if AllReceived(items) then Received
    else if AnyReceived(items) then PartiallyReceived
    else current
  }

  /** The `findFirst` over the order's items: the position of the first item
      with the given key. */
  method FindItem(items: seq<PurchaseOrderItem>, itemId: int) returns (r: Option<nat>)
    ensures r.Some? ==> r.value < |items| && items[r.value].id == itemId
    ensures r.Some? ==> forall j :: 0 <= j < r.value ==> items[j].id != itemId
    ensures r.None? ==> forall j :: 0 <= j < |items| ==> items[j].id != itemId
  {
    var i := 0;
    while i < |items|
      invariant 0 <= i <= |items|
      invariant forall j :: 0 <= j < i ==> items[j].id != itemId
    {
      if items[i].id == itemId {
        return Some(i);
      }
      i := i + 1;
    }
    return None;
  }

  /** The `allMatch` of `receiveItems`. */
  method AllMatchReceived(items: seq<PurchaseOrderItem>) returns (b: bool)
    ensures b <==> AllReceived(items)
  {
    var i := 0;
    while i < |items|
      invariant 0 <= i <= |items|
      invariant forall j :: 0 <= j < i ==> items[j].received == items[j].ordered
    {
      if items[i].received != items[i].ordered {
        return false;
      }
      i := i + 1;
    }
    return true;
  }

  /** The `anyMatch` of `receiveItems`. */
  method AnyMatchReceived(items: seq<PurchaseOrderItem>) returns (b: bool)
    ensures b <==> AnyReceived(items)
  {
    var i := 0;
    while i < |items|
      invariant 0 <= i <= |items|
      invariant forall j :: 0 <= j < i ==> items[j].received <= 0
    {
      if items[i].received > 0 {
        return true;
      }
      i := i + 1;
    }
    return false;
  }

  /** The items after `q` more units of item `k` arrived. */
  function AddReceived(items: seq<PurchaseOrderItem>, k: nat, q: int): (r: seq<PurchaseOrderItem>)
    requires k < |items|
    ensures |r| == |items|
    ensures r[k] == items[k].(received := items[k].received + q)
    ensures forall j :: 0 <= j < |items| && j != k ==> r[j] == items[j]
  {
    items[k := items[k].(received := items[k].received + q)]
  }

  /** `receiveItems`: an unknown order or an item key not on the order is
      refused with nothing changed.  Otherwise the first item with that key
      gets `q` more received units, with no bound against what was ordered
      and no check of the order's status, and the status is derived again. */
  method ReceiveItems(repo: Repository, id: int, itemId: int, q: int)
    returns (r: Result<PurchaseOrder, PurchaseOrderError>, repo': Repository)
    ensures id !in repo.orders.rows ==> r == Err(PurchaseOrderNotFound) && repo' == repo
    ensures id in repo.orders.rows && (forall j :: 0 <= j < |repo.orders.rows[id].items| ==>
                                         repo.orders.rows[id].items[j].id != itemId) ==>
              r == Err(ItemNotFound) && repo' == repo
    ensures r.Ok? <==>
              id in repo.orders.rows
              && exists j :: 0 <= j < |repo.orders.rows[id].items| && repo.orders.rows[id].items[j].id == itemId
    ensures r.Ok? ==>
              id in repo.orders.rows
              && var po := repo.orders.rows[id];
              exists k :: 0 <= k < |po.items| && po.items[k].id == itemId
                          && (forall j :: 0 <= j < k ==> po.items[j].id != itemId)
                          && r.value.items == AddReceived(po.items, k, q)
                          && r.value == po.(items := r.value.items, status := DeriveStatus(po.status, r.value.items))
                          && repo' == repo.(orders := repo.orders.(rows := repo.orders.rows[id := r.value]))
    ensures r.Err? ==> repo' == repo
  {
    if id !in repo.orders.rows {
      return Err(PurchaseOrderNotFound), repo;
    }
    var po := repo.orders.rows[id];
    var found := FindItem(po.items, itemId);
    if found.None? {
      return Err(ItemNotFound), repo;
    }
    var k := found.value;
    var items := AddReceived(po.items, k, q);
    var all := AllMatchReceived(items);
    var any := AnyMatchReceived(items);
    var status := if all then Received else if any then PartiallyReceived else po.status;
    var updated := po.(items := items, status := status);
    return Ok(updated), repo.(orders := Put(repo.orders, id, updated));
  }

  /** `cancelPurchaseOrder`: refused for an unknown order and for one that
      has received anything; every other status, a cancelled one included,
      becomes CANCELLED. */
  function CancelPurchaseOrder(orders: IdTable<PurchaseOrder>, id: int): (r: Result<IdTable<PurchaseOrder>, PurchaseOrderError>)
    ensures id !in orders.rows ==> r == Err(PurchaseOrderNotFound)
    ensures id in orders.rows ==>
              (r.Err? <==> orders.rows[id].status == Received || orders.rows[id].status == PartiallyReceived)
    ensures r.Err? && id in orders.rows ==> r.error == IllegalState
    ensures r.Ok? ==> id in orders.rows && r.value.rows.Keys == orders.rows.Keys
                      && r.value.rows[id].status == Cancelled
                      && r.value.rows[id].(status := orders.rows[id].status) == orders.rows[id]
                      && forall other :: other in orders.rows && other != id ==> r.value.rows[other] == orders.rows[other]
  {
    if id !in orders.rows then Err(PurchaseOrderNotFound)
    else if orders.rows[id].status == Received || orders.rows[id].status == PartiallyReceived then Err(IllegalState)
    else Ok(Put(orders, id, orders.rows[id].(status := Cancelled)))
  }

  /** `updatePurchaseOrderStatus`: any status, from any status. */
  function UpdatePurchaseOrderStatus(orders: IdTable<PurchaseOrder>, id: int, status: PurchaseOrderStatus)
    : (r: Result<IdTable<PurchaseOrder>, PurchaseOrderError>)
    ensures r.Err? <==> id !in orders.rows
    ensures r.Err? ==> r.error == PurchaseOrderNotFound
    ensures r.Ok? ==> r.value.rows.Keys == orders.rows.Keys && r.value.rows[id].status == status
                      && r.value.rows[id].(status := orders.rows[id].status) == orders.rows[id]
                      && forall other :: other in orders.rows && other != id ==> r.value.rows[other] == orders.rows[other]
  {
    if id !in orders.rows then Err(PurchaseOrderNotFound)
    else Ok(Put(orders, id, orders.rows[id].(status := status)))
  }

  /** Receiving the outstanding quantity of the last outstanding item
      completes the order. */
  lemma CompletingLastItemReceives(items: seq<PurchaseOrderItem>, k: nat, current: PurchaseOrderStatus)
    requires k < |items|
    requires forall j :: 0 <= j < |items| && j != k ==> items[j].received == items[j].ordered
    ensures DeriveStatus(current, AddReceived(items, k, items[k].ordered - items[k].received)) == Received
  {
    var after := AddReceived(items, k, items[k].ordered - items[k].received);
    assert forall j :: 0 <= j < |after| ==> after[j].received == after[j].ordered by {
      forall j | 0 <= j < |after|
        ensures after[j].received == after[j].ordered
      {
        if j != k {
          assert after[j] == items[j];
        }
      }
    }
  }

  /** Receipt has no upper bound: once more than the ordered quantity of an
      item has arrived, the order can no longer be derived RECEIVED and sits
      at PARTIALLY_RECEIVED. */
  lemma OverReceiptNeverCompletes(items: seq<PurchaseOrderItem>, k: nat, current: PurchaseOrderStatus)
    requires k < |items| && items[k].received > items[k].ordered && items[k].received > 0
    ensures DeriveStatus(current, items) == PartiallyReceived
  {
    assert items[k].received != items[k].ordered;
  }

  /** Receipt has no status guard: a positive receipt against a cancelled
      order (or any order) with nothing received yet leaves it
      PARTIALLY_RECEIVED or RECEIVED, never CANCELLED. */
  lemma ReceiptRevivesCancelledOrder(items: seq<PurchaseOrderItem>, k: nat, q: int)
    requires k < |items| && items[k].received >= 0 && q > 0
    ensures DeriveStatus(Cancelled, AddReceived(items, k, q)) in {Received, PartiallyReceived}
  {
    var after := AddReceived(items, k, q);
    assert after[k].received > 0;
  }

  /** Once anything has been received, cancelling is refused, and the only
      way back is `updatePurchaseOrderStatus`, which accepts any status. */
  lemma ReceivedOrderCannotBeCancelled(orders: IdTable<PurchaseOrder>, id: int)
    requires id in orders.rows && AnyReceived(orders.rows[id].items)
    requires orders.rows[id].status == DeriveStatus(orders.rows[id].status, orders.rows[id].items)
    ensures CancelPurchaseOrder(orders, id) == Err(IllegalState)
    ensures UpdatePurchaseOrderStatus(orders, id, Cancelled).Ok?
  {
  }

  /** The items after the first `n` lines were each received in full, line
      by line. */
  function ReceiveInFull(items: seq<PurchaseOrderItem>, n: nat): (r: seq<PurchaseOrderItem>)
    requires n <= |items|
    ensures |r| == |items|
    decreases n
  {
    if n == 0 then items else AddReceived(ReceiveInFull(items, n - 1), n - 1, items[n - 1].ordered)
  }

  /** Receiving the lines of a new purchase order in full, one receipt per
      line: each line's key finds that line (the keys are distinct), the
      received lines match what was ordered, the rest are untouched, and
      once every line is in the order is RECEIVED, whatever its status. */
  lemma {:induction false} FullReceiptCompletes(items: seq<PurchaseOrderItem>, base: int, n: nat,
                                                current: PurchaseOrderStatus)
    requires FreshLines(items, base) && n <= |items|
    ensures forall j :: 0 <= j < |items| ==> ReceiveInFull(items, n)[j].id == base + j
    ensures forall j :: 0 <= j < |items| ==>
              ReceiveInFull(items, n)[j] == items[j].(received := if j < n then items[j].ordered else 0)
    ensures n == |items| ==> DeriveStatus(current, ReceiveInFull(items, n)) == Received
    decreases n
  {
    if n > 0 {
      FullReceiptCompletes(items, base, n - 1, current);
    }
    var after := ReceiveInFull(items, n);
    if n == |items| {
      assert AllReceived(after) by {
        forall j | 0 <= j < |after|
          ensures after[j].received == after[j].ordered
        {
          assert after[j] == items[j].(received := items[j].ordered);
        }
      }
    }
  }
}

=== FILE: redis.dfy ===
/** The Redis commands the services issue through `RedisTemplate`, over a
    store of string keys.  `up` is false while the server cannot be reached:
    every command then throws, and each helper decides what that means.
    Time does not pass in this model, so a TTL is recorded but never fires. */
module Redis {
  import opened Wrappers

  /** A stored value with its time to live in milliseconds, if one was set. */
  datatype Entry<V> = Entry(value: V, ttlMillis: Option<int>)

  datatype Store<V> = Store(entries: map<string, Entry<V>>, up: bool)

  /** `GET key`. */
  function Get<V>(s: Store<V>, key: string): Option<V> {
    if key in s.entries then Some(s.entries[key].value) else None
  }

  /** `SET key value PX ttl` (always with a TTL in these services) as the
      server applies it once it has accepted the expiry. */
  function SetWithTtl<V>(s: Store<V>, key: string, v: V, ttlMillis: int): (r: Store<V>)
    ensures r.entries == s.entries[key := Entry(v, Some(ttlMillis))]
    ensures r.up == s.up
  {
    s.(entries := s.entries[key := Entry(v, Some(ttlMillis))])
  }

  /** Whether the server takes an expiry: `PSETEX` and `SET ... PX` refuse a
      time to live that is not positive with an "invalid expire time"
      error, and store nothing. */
  predicate AcceptsTtl(ttlMillis: int) {
    ttlMillis > 0
  }

  /** `DEL key`. */
  function Delete<V>(s: Store<V>, key: string): (r: Store<V>)
    ensures r.entries == s.entries - {key}
    ensures r.up == s.up
  {
    s.(entries := s.entries - {key})
  }
}

=== FILE: store.dfy ===
/** A relational table whose primary keys come from an identity column: the
    database hands out `nextId` on every insert, so the keys in use are always
    below it.  Every JPA repository of the services is one of these. */
module Store {
  import opened Wrappers

  datatype Table<V> = Table(rows: map<int, V>, nextId: int)

  /** Every key in use was handed out before `nextId`. */
  predicate Fresh<V>(t: Table<V>) {
    forall id :: id in t.rows ==> id < t.nextId
  }

  /** A table as the database keeps it. */
  type IdTable<V> = t: Table<V> | Fresh(t) witness Table(map[], 1)

  /** `repository.save(newEntity)`: inserts under a new identity key. */
  function Insert<V>(t: IdTable<V>, v: V): (r: (IdTable<V>, int))
    ensures r.1 !in t.rows
    ensures r.0.rows == t.rows[r.1 := v]
  {
    (Table(t.rows[t.nextId := v], t.nextId + 1), t.nextId)
  }

  /** `repository.save(existingEntity)`: overwrites the row under `id`. */
  function Put<V>(t: IdTable<V>, id: int, v: V): (r: IdTable<V>)
    requires id in t.rows
    ensures r.rows == t.rows[id := v]
  {
    t.(rows := t.rows[id := v])
  }

  /** `repository.deleteById(id)`. */
  function Remove<V>(t: IdTable<V>, id: int): (r: IdTable<V>)
    ensures r.rows == t.rows - {id}
  {
    t.(rows := t.rows - {id})
  }

  /** `existsByX(v)`: some row holds `v` in the column read by `col`
      (`None` is SQL NULL). */
  predicate ExistsBy<V, K(==)>(rows: map<int, V>, col: V -> Option<K>, v: K) {
    exists id :: id in rows && col(rows[id]) == Some(v)
  }

  /** A unique column: no two rows hold the same non-null value; any number
      of rows may hold NULL. */
  predicate UniqueIn<V, K(==)>(rows: map<int, V>, col: V -> Option<K>) {
    forall a, b :: a in rows && b in rows && col(rows[a]).Some? && col(rows[a]) == col(rows[b]) ==> a == b
  }

  /** Saving `v` under `id` breaks the unique constraint on `col`: another
      row already holds its non-null value. */
  predicate Violates<V, K(==)>(rows: map<int, V>, col: V -> Option<K>, id: int, v: V) {
    col(v).Some? && exists other :: other in rows && other != id && col(rows[other]) == col(v)
  }

  /** A save the constraint lets through keeps the column unique, and so does
      a delete. */
  lemma SaveKeepsUnique<V, K>(rows: map<int, V>, col: V -> Option<K>, id: int, v: V)
    requires UniqueIn(rows, col) && !Violates(rows, col, id, v)
    ensures UniqueIn(rows[id := v], col)
    ensures UniqueIn(rows - {id}, col)
  {
  }

  /** A new value that nobody holds can be inserted under a fresh key. */
  lemma InsertKeepsUnique<V, K>(rows: map<int, V>, col: V -> Option<K>, id: int, v: V)
    requires UniqueIn(rows, col) && id !in rows
    requires col(v).None? || !ExistsBy(rows, col, col(v).value)
    ensures UniqueIn(rows[id := v], col)
  {
    SaveKeepsUnique(rows, col, id, v);
  }
}

=== FILE: supplier_products.dfy ===
/** `SupplierProductService`: the links between a supplier and the products
    it sells, at most one per (supplier, product) pair.  The `supplier_products`
    table declares no unique constraint on the pair, so the service's own
    check is all that keeps it unique. */
module SupplierProducts {
  import opened Wrappers
  import opened Store
  import opened ProductClient
  import Suppliers

  datatype SupplierProduct = SupplierProduct(
    supplierId: int, productId: int, supplierSku: Option<string>, supplierProductName: Option<string>,
    unitPrice: int, minimumOrderQuantity: Option<int>, leadTimeDays: Option<int>, active: bool)

  datatype SupplierProductRequest = SupplierProductRequest(
    productId: int, supplierSku: Option<string>, supplierProductName: Option<string>,
    unitPrice: int, minimumOrderQuantity: Option<int>, leadTimeDays: Option<int>, active: Option<bool>)

  datatype SupplierProductError = SupplierNotFound | ProductNotFound | AlreadyExists | SupplierProductNotFound

  /** The (supplier, product) pair of a link, as a column value. */
  function Pair(sp: SupplierProduct): Option<(int, int)> {
    Some((sp.supplierId, sp.productId))
  }

  /** The link carries the request's price and terms. */
  predicate Terms(sp: SupplierProduct, req: SupplierProductRequest) {
    sp.supplierSku == req.supplierSku && sp.supplierProductName == req.supplierProductName
    && sp.unitPrice == req.unitPrice && sp.minimumOrderQuantity == req.minimumOrderQuantity
    && sp.leadTimeDays == req.leadTimeDays
  }

  /** `addProductToSupplier`: an unknown supplier is refused, then a product
      the product service does not answer for (null, or null id), then a pair
      that is already linked.  A new link is active unless the request says
      otherwise, and records the requested product id. */
  function AddProductToSupplier(suppliers: IdTable<Suppliers.Supplier>, products: int -> Option<ProductDto>,
                                t: IdTable<SupplierProduct>, supplierId: int, req: SupplierProductRequest)
    : (r: Result<(IdTable<SupplierProduct>, int), SupplierProductError>)
    ensures supplierId !in suppliers.rows ==> r == Err(SupplierNotFound)
    ensures supplierId in suppliers.rows && !ProductFound(products(req.productId)) ==> r == Err(ProductNotFound)
    ensures r == Err(AlreadyExists) <==>
              supplierId in suppliers.rows && ProductFound(products(req.productId))
              && ExistsBy(t.rows, Pair, (supplierId, req.productId))
    ensures r.Ok? <==>
              supplierId in suppliers.rows && ProductFound(products(req.productId))
              && !ExistsBy(t.rows, Pair, (supplierId, req.productId))
    ensures r.Ok? ==>
              var (t', id) := r.value;
              id !in t.rows && id in t'.rows && t'.rows == t.rows[id := t'.rows[id]]
              && t'.rows[id].supplierId == supplierId && t'.rows[id].productId == req.productId
              && Terms(t'.rows[id], req)
              && (t'.rows[id].active <==> req.active != Some(false))
  {
    if supplierId !in suppliers.rows then Err(SupplierNotFound)
    else if !ProductFound(products(req.productId)) then Err(ProductNotFound)
    else if ExistsBy(t.rows, Pair, (supplierId, req.productId)) then Err(AlreadyExists)
    else
      Ok(Insert(t, SupplierProduct(supplierId, req.productId, req.supplierSku, req.supplierProductName,
                                   req.unitPrice, req.minimumOrderQuantity, req.leadTimeDays,
                                   req.active.GetOr(true))))
  }

  /** `updateSupplierProduct`: price and terms from the request; the active
      flag only when the request carries one; never the supplier or the
      product (the request's product id is ignored). */
  function UpdateSupplierProduct(t: IdTable<SupplierProduct>, id: int, req: SupplierProductRequest)
    : (r: Result<IdTable<SupplierProduct>, SupplierProductError>)
    ensures r.Err? <==> id !in t.rows
    ensures r.Err? ==> r.error == SupplierProductNotFound
    ensures r.Ok? ==>
              r.value.rows.Keys == t.rows.Keys
              && r.value.rows[id].supplierId == t.rows[id].supplierId
              && r.value.rows[id].productId == t.rows[id].productId
              && Terms(r.value.rows[id], req)
              && r.value.rows[id].active == req.active.GetOr(t.rows[id].active)
              && forall other :: other in t.rows && other != id ==> r.value.rows[other] == t.rows[other]
  {
    if id !in t.rows then Err(SupplierProductNotFound)
    else
      var sp := t.rows[id];
      Ok(Put(t, id, sp.(supplierSku := req.supplierSku, supplierProductName := req.supplierProductName,
                        unitPrice := req.unitPrice, minimumOrderQuantity := req.minimumOrderQuantity,
                        leadTimeDays := req.leadTimeDays, active := req.active.GetOr(sp.active))))
  }

  /** `deleteSupplierProduct`. */
  function DeleteSupplierProduct(t: IdTable<SupplierProduct>, id: int)
    : (r: Result<IdTable<SupplierProduct>, SupplierProductError>)
    ensures r.Err? <==> id !in t.rows
    ensures r.Err? ==> r.error == SupplierProductNotFound
    ensures r.Ok? ==> r.value.rows.Keys == t.rows.Keys - {id}
                      && forall other :: other in r.value.rows ==> r.value.rows[other] == t.rows[other]
  {
    if id !in t.rows then Err(SupplierProductNotFound) else Ok(Remove(t, id))
  }

  /** No operation ever creates a second link for a (supplier, product) pair. */
  lemma PairsStayUnique(suppliers: IdTable<Suppliers.Supplier>, products: int -> Option<ProductDto>,
                        t: IdTable<SupplierProduct>, supplierId: int, id: int, req: SupplierProductRequest)
    requires UniqueIn(t.rows, Pair)
    ensures var r := AddProductToSupplier(suppliers, products, t, supplierId, req);
            r.Ok? ==> UniqueIn(r.value.0.rows, Pair)
    ensures UpdateSupplierProduct(t, id, req).Ok? ==> UniqueIn(UpdateSupplierProduct(t, id, req).value.rows, Pair)
    ensures DeleteSupplierProduct(t, id).Ok? ==> UniqueIn(DeleteSupplierProduct(t, id).value.rows, Pair)
  {
    var r := AddProductToSupplier(suppliers, products, t, supplierId, req);
    if r.Ok? {
      var (t', nid) := r.value;
      InsertKeepsUnique(t.rows, Pair, nid, t'.rows[nid]);
    }
    if id in t.rows {
      var sp' := UpdateSupplierProduct(t, id, req).value.rows[id];
      assert Pair(sp') == Pair(t.rows[id]);
      SaveKeepsUnique(t.rows, Pair, id, sp');
    }
  }

  /** With the product service down, its fallback keeps the requested id, so
      linking a product that may not exist is not refused. */
  lemma FallbackPassesProductCheck(suppliers: IdTable<Suppliers.Supplier>, t: IdTable<SupplierProduct>,
                                   supplierId: int, req: SupplierProductRequest)
    requires supplierId in suppliers.rows && !ExistsBy(t.rows, Pair, (supplierId, req.productId))
    ensures AddProductToSupplier(suppliers, (id: int) => Some(ProductFallback(id)), t, supplierId, req).Ok?
  {
    assert ProductFound(Some(ProductFallback(req.productId)));
  }
}

=== FILE: suppliers.dfy ===
/** `SupplierService`: suppliers with a unique code and an optional unique
    tax number.  Both are unique columns of the `suppliers` table, so a save
    that would duplicate either is refused by the database.  The status is
    kept as the name of its enum constant. */
module Suppliers {
  import opened Wrappers
  import opened Store

  datatype Supplier = Supplier(
    name: string, code: string, taxNumber: Option<string>, contactPerson: Option<string>,
    email: Option<string>, phone: Option<string>, address: Option<string>, city: Option<string>,
    country: Option<string>, postalCode: Option<string>, paymentTerms: Option<string>,
    status: string, rating: Option<int>, notes: Option<string>)

  datatype SupplierRequest = SupplierRequest(
    name: string, code: string, taxNumber: Option<string>, contactPerson: Option<string>,
    email: Option<string>, phone: Option<string>, address: Option<string>, city: Option<string>,
    country: Option<string>, postalCode: Option<string>, paymentTerms: Option<string>,
    status: string, rating: Option<int>, notes: Option<string>)

  /** `CodeTaken` and `TaxNumberTaken` are `SupplierAlreadyExistsException`;
      `ConstraintViolation` is the database refusing a save. */
  datatype SupplierError = SupplierNotFound | CodeTaken | TaxNumberTaken | ConstraintViolation

  /** The unique `code` column. */
  function Code(s: Supplier): Option<string> {
    Some(s.code)
  }

  /** The unique, nullable `taxNumber` column. */
  function TaxNumber(s: Supplier): Option<string> {
    s.taxNumber
  }

  predicate Valid(t: IdTable<Supplier>) {
    UniqueIn(t.rows, Code) && UniqueIn(t.rows, TaxNumber)
  }

  /** `mapToEntity` and `updateSupplierFields`: every request field, one to
      one. */
  function FromRequest(req: SupplierRequest): Supplier {
    Supplier(req.name, req.code, req.taxNumber, req.contactPerson, req.email, req.phone, req.address,
             req.city, req.country, req.postalCode, req.paymentTerms, req.status, req.rating, req.notes)
  }

  /** The supplier holds every field of the request. */
  predicate Mirrors(s: Supplier, req: SupplierRequest) {
    s.name == req.name && s.code == req.code && s.taxNumber == req.taxNumber
    && s.contactPerson == req.contactPerson && s.email == req.email && s.phone == req.phone
    && s.address == req.address && s.city == req.city && s.country == req.country
    && s.postalCode == req.postalCode && s.paymentTerms == req.paymentTerms
    && s.status == req.status && s.rating == req.rating && s.notes == req.notes
  }

  /** `createSupplier`: a taken code is refused, then a taken tax number
      (only when the request has one). */
  function CreateSupplier(t: IdTable<Supplier>, req: SupplierRequest): (r: Result<(IdTable<Supplier>, int), SupplierError>)
    ensures ExistsBy(t.rows, Code, req.code) ==> r == Err(CodeTaken)
    ensures !ExistsBy(t.rows, Code, req.code) && req.taxNumber.Some? && ExistsBy(t.rows, TaxNumber, req.taxNumber.value) ==>
              r == Err(TaxNumberTaken)
    ensures r.Ok? <==> !ExistsBy(t.rows, Code, req.code)
                       && (req.taxNumber.None? || !ExistsBy(t.rows, TaxNumber, req.taxNumber.value))
    ensures r.Ok? ==>
              var (t', id) := r.value;
              id !in t.rows && id in t'.rows && t'.rows == t.rows[id := t'.rows[id]]
              && Mirrors(t'.rows[id], req)
  {
    if ExistsBy(t.rows, Code, req.code) then Err(CodeTaken)
    else if req.taxNumber.Some? && ExistsBy(t.rows, TaxNumber, req.taxNumber.value) then Err(TaxNumberTaken)
    else Ok(Insert(t, FromRequest(req)))
  }

  /** `updateSupplier`: an unknown id is refused, and so is a change of code
      to one already taken.  The tax number is not checked by the service, so
      a taken one reaches the database and the save fails there. */
  function UpdateSupplier(t: IdTable<Supplier>, id: int, req: SupplierRequest): (r: Result<IdTable<Supplier>, SupplierError>)
    ensures r == Err(SupplierNotFound) <==> id !in t.rows
    ensures id in t.rows && t.rows[id].code != req.code && ExistsBy(t.rows, Code, req.code) ==> r == Err(CodeTaken)
    ensures r != Err(TaxNumberTaken)
    ensures r.Ok? <==>
              id in t.rows && !(t.rows[id].code != req.code && ExistsBy(t.rows, Code, req.code))
              && !Violates(t.rows, Code, id, FromRequest(req)) && !Violates(t.rows, TaxNumber, id, FromRequest(req))
    ensures r.Ok? ==>
              id in t.rows && r.value.rows.Keys == t.rows.Keys && Mirrors(r.value.rows[id], req)
              && forall other :: other in t.rows && other != id ==> r.value.rows[other] == t.rows[other]
  {
    if id !in t.rows then Err(SupplierNotFound)
    else if t.rows[id].code != req.code && ExistsBy(t.rows, Code, req.code) then Err(CodeTaken)
    else
      var s := FromRequest(req);
      if Violates(t.rows, Code, id, s) || Violates(t.rows, TaxNumber, id, s) then Err(ConstraintViolation)
      else Ok(Put(t, id, s))
  }

  /** `deleteSupplier`. */
  function DeleteSupplier(t: IdTable<Supplier>, id: int): (r: Result<IdTable<Supplier>, SupplierError>)
    ensures r.Err? <==> id !in t.rows
    ensures r.Err? ==> r.error == SupplierNotFound
    ensures r.Ok? ==> r.value.rows.Keys == t.rows.Keys - {id}
                      && forall other :: other in r.value.rows ==> r.value.rows[other] == t.rows[other]
  {
    if id !in t.rows then Err(SupplierNotFound) else Ok(Remove(t, id))
  }

  /** Creates, updates and deletes keep codes and tax numbers unique. */
  lemma OperationsKeepValid(t: IdTable<Supplier>, id: int, req: SupplierRequest)
    requires Valid(t)
    ensures CreateSupplier(t, req).Ok? ==> Valid(CreateSupplier(t, req).value.0)
    ensures UpdateSupplier(t, id, req).Ok? ==> Valid(UpdateSupplier(t, id, req).value)
    ensures DeleteSupplier(t, id).Ok? ==> Valid(DeleteSupplier(t, id).value)
  {
    if CreateSupplier(t, req).Ok? {
      var (t', nid) := CreateSupplier(t, req).value;
      InsertKeepsUnique(t.rows, Code, nid, FromRequest(req));
      InsertKeepsUnique(t.rows, TaxNumber, nid, FromRequest(req));
    }
    if UpdateSupplier(t, id, req).Ok? {
      SaveKeepsUnique(t.rows, Code, id, FromRequest(req));
      SaveKeepsUnique(t.rows, TaxNumber, id, FromRequest(req));
    }
  }

  /** The tax-number check that `updateSupplier` leaves out: taking another
      supplier's tax number (keeping one's code) is refused by the database,
      not by the service's own duplicate check. */
  lemma UpdateLeavesTaxNumberToTheDatabase(t: IdTable<Supplier>, id: int, other: int, req: SupplierRequest)
    requires id in t.rows && other in t.rows && other != id
    requires req.code == t.rows[id].code && req.taxNumber.Some? && req.taxNumber == t.rows[other].taxNumber
    ensures UpdateSupplier(t, id, req) == Err(ConstraintViolation)
  {
    assert Violates(t.rows, TaxNumber, id, FromRequest(req));
  }
}

=== FILE: wrappers.dfy ===
/** Optional values and success/failure results.

    `Option` stands for a Java reference that may be null; `Result` stands for
    a call that either returns a value or throws one of the services' domain
    exceptions. */
module Wrappers {

  datatype Option<+T> = None | Some(value: T) {

    /** The value, or `default` when there is none. */
    function GetOr(default: T): T {
      match this
      case Some(v) => v
      case None => default
    }
  }

  datatype Result<+T, +E> = Ok(value: T) | Err(error: E)
}
